=== FILE: README.md ===
# Portfolio site core, modelled in Dafny

This project models the core logic of a video editor's portfolio site. The site has two halves.

- **Server.** An Express server holds a Prisma database of three tables:
  - case-study projects;
  - their canvas elements;
  - archive items (videos, images, YouTube links).

  Its routes list, read, create, update and delete the rows of those tables. A further route relays the contact form to a Telegram channel.
- **Client.** A React client shows the archive grid with its category filter and video player, and the case-study pages with a coverflow carousel. It also has an admin dashboard for uploads and edits, and a canvas editor for case-study layouts.

Two one-off scripts rewrite stored URLs:

- `fix_db_paths.js` strips the development host `localhost:5000`;
- `migrate_to_s3.js` uploads the local files and points the records at their S3 URLs.

Every handler, route and script step is a pure function over immutable data. Tables are sequences of records in primary-key order, inside a `Db` value that also carries the autoincrement counters. Anything the code gets from outside becomes a parameter:

- the outcome of an upload, a `fetch` or the Telegram call;
- `Date.now()` ids and `new Date()` timestamps;
- the browser's viewport and video sizes.

JavaScript semantics the code depends on are written out explicitly:

- truncating `%`;
- `Number`, `parseInt` and `String(n)`;
- `split(sep)[1]` and `split('.')[0]`;
- `toLowerCase`, and `replace(/\s+/g, '-')`;
- truthiness and `||` defaults;
- how `null` prints inside a template literal;
- the greedy YouTube regular expression.

Modules:

| module | file | models |
|---|---|---|
| `Wrappers` | wrappers.dfy | `Option`, JavaScript truthiness of optional strings, `a \|\| b` |
| `JsString` | js_string.dfy | the string built-ins listed above |
| `Seqs` | seqs.dfy | `map` and order-keeping selection (`filter`) |
| `Sorting` | sorting.dfy | `orderBy: { createdAt: 'desc' }` |
| `Store`, `Http` | store.dfy | the three tables, the database invariants, route replies |
| `Uploads` | uploads.dfy | the `/uploads/` prefixing of media names |
| `ProjectsRoute` | projects_route.dfy | server/routes/projects.js |
| `ArchiveRoute` | archive_route.dfy | server/routes/archive.js |
| `TelegramRoute` | telegram_route.dfy | server/routes/telegram.js |
| `FixDbPaths` | fix_db_paths.dfy | server/fix_db_paths.js |
| `Migrate` | migrate.dfy | server/migrate_to_s3.js |
| `Editor` | editor.dfy | src/pages/Admin/ProjectEditor.jsx |
| `Carousel` | carousel.dfy | src/components/CoverflowCarousel/index.jsx |
| `YouTube` | youtube.dfy | `getYoutubeId`, shared by the archive grid and the player |
| `VideoPlayer` | video_player.dfy | src/components/SmartVideoPlayer/index.jsx |
| `Portfolio` | portfolio.dfy | src/components/Portfolio/index.jsx |
| `ProjectView` | project_view.dfy | src/pages/ProjectView.jsx |
| `Dashboard` | dashboard.dfy | src/pages/Admin/Dashboard.jsx |
| `ContactModal` | contact_modal.dfy | src/components/ContactModal/index.jsx |

Besides the route-by-route contracts, several lemmas connect the client and the server:

- after an edit or a delete, the dashboard's local update of the list it fetched (newest first) reproduces the list a fresh GET would return;
- every body the dashboard posts is accepted by the archive route;
- the browser's check of the contact form's required fields blocks exactly the forms the Telegram route would turn away with its 400 reply; a form that is sent ends in the toast or in the alert the route's reply dictates;
- the archive card's picture is the background the player shows once the card is opened.

## Model

| member | source | states |
|---|---|---|
| Sorting.SortDesc | server/routes/projects.js:9-11 | the result is in non-increasing key order and is a permutation (same multiset) of the input |
| Sorting.SortDescMap | server/routes/archive.js:9-11 | ordering commutes with a row rewrite that keeps every row's key |
| Sorting.SortDescFilter | server/routes/archive.js:9-11 | ordering commutes with keeping the rows that pass a test |
| ProjectsRoute.List | server/routes/projects.js:8-13 | the project list is every row, each exactly as often as stored, newest `createdAt` first |
| ProjectsRoute.FindFirst | server/routes/projects.js:18-26 | the position found matches the slug-or-numeric-id filter, and no earlier row from the start position matches |
| ProjectsRoute.Get | server/routes/projects.js:16-29 | 404 'Project not found' exactly when no row matches; otherwise the first matching row in table order, with exactly the elements whose `projectId` is its id |
| ProjectsRoute.SlugifyShape | server/routes/projects.js:38 | a derived slug contains no whitespace and is already lower-case |
| JsString.DashRunsIdempotent | server/routes/projects.js:38 | replacing whitespace runs with '-' a second time changes nothing |
| JsString.DashRunsRun | server/routes/projects.js:38 | a maximal run of whitespace, of any length, becomes exactly one '-' |
| JsString.DashRunsWord | server/routes/projects.js:38 | text without whitespace is copied unchanged in front of the processed rest |
| JsString.LowerIdempotent | server/routes/projects.js:38 | lower-casing twice equals lower-casing once |
| ProjectsRoute.LowerOfDashRuns | server/routes/projects.js:38 | replacing whitespace runs in lower-case text keeps it lower-case, which is why a derived slug is already lower-case |
| ProjectsRoute.Create | server/routes/projects.js:31-48 | 400 'Slug already exists or invalid data', with the database unchanged, exactly when the title is absent or JSON `null`, or the chosen slug is taken. Otherwise one row is appended with the next id: its slug is the body's slug when truthy, else the derived one; its category is the given string and is otherwise empty; its thumbnail defaults to ''. The database invariants are kept |
| ProjectsRoute.Put | server/routes/projects.js:50-63 | 500 'Failed to update project', with nothing changed, exactly when the id is not numeric or absent, the title or slug is JSON `null` (required columns), or the new slug clashes. Otherwise only that row changes, and only its title, slug, category and thumbnail: an absent field is kept, a `null` category or thumbnail is cleared, and a given value is written. The invariants are kept |
| ProjectsRoute.UpdateKeepsValid | server/routes/projects.js:50-63 | updating one existing row without a slug clash keeps the set of project ids and every database invariant |
| ProjectsRoute.PatchElementsReplaces | server/routes/projects.js:65-98 | after a successful PATCH the project's elements are exactly the request list, stored in request order with fresh ids, copied fields, `projectId` from the URL and `styles` as JSON or '{}'. Every other project's elements, the projects and the archive are untouched. The failure cases are a non-numeric id, or new elements for a missing project |
| ProjectsRoute.PatchElementsValid | server/routes/projects.js:71-87 | the batch delete-then-create keeps unique keys, the counters and every element's owner |
| ProjectsRoute.Delete | server/routes/projects.js:100-122 | a numeric id removes exactly that project's elements and the project, and nothing else: the remaining rows keep their order and the id counters are unchanged. A missing project is 404 'Project not found' with the projects unchanged; a non-numeric id fails with the engine's message before anything changes. Success iff the project exists. The invariants are kept |
| ProjectsRoute.DeleteKeepsValid | server/routes/projects.js:104-112 | removing a project's elements first and then the project leaves no element pointing at a missing project, and keeps every invariant |
| ProjectsRoute.ProjectsWithoutAbsent | server/routes/projects.js:110-112 | deleting an id that no row has leaves the table exactly as it was |
| ArchiveRoute.List | server/routes/archive.js:8-13 | every archive row, each as often as stored, newest first |
| ArchiveRoute.Create | server/routes/archive.js:15-34 | 500 'Failed to create item' iff title, fileUrl or type is missing. Otherwise one row is appended holding exactly the seven body fields, with the next id and the given time. The invariants are kept |
| ArchiveRoute.Update | server/routes/archive.js:36-50 | the id is read with `parseInt`: decimal, or hexadecimal after a '0x' prefix, ignoring any text after the digits. 500 'Failed to update item', with nothing changed, iff that reads as NaN or there is no such item. Otherwise only that row changes, only its title, description, category, orientation and thumbnail, and never its fileUrl, type, id or creation time |
| ArchiveRoute.EditKeepsKeys | server/routes/archive.js:41-43 | a field-whitelisted edit keeps the archive's keys unique and below the counter |
| ArchiveRoute.Delete | server/routes/archive.js:52-61 | 500 'Failed to delete' iff the id is not numeric or no item has it; otherwise exactly the items with other ids remain, and nothing else changes |
| JsString.ParseIntReadsLeadingDigits | server/routes/archive.js:42 | for text without a '0x' prefix, `parseInt` reads the leading digit run as its decimal value and ignores whatever non-digit text follows, so '12abc' reads as 12 |
| JsString.ParseIntReadsHex | server/routes/archive.js:42 | after a '0x' or '0X' prefix, `parseInt` reads the leading run of hexadecimal digits as a base-16 value and ignores the text after it; with no hexadecimal digit there it is NaN |
| JsString.ParseIntHexExample | server/routes/archive.js:42 | `parseInt('0x10')` is 16, so the update route reads the id '0x10' as item 16 |
| JsString.NumberRejectsTail | server/routes/archive.js:56 | `Number` reads a digit run followed by a character that is not a digit, '.', 'e', 'E' or whitespace as NaN, so the delete route rejects an id such as '12abc' that the update route accepts |
| JsString.NumberIgnoresZeroFraction | server/routes/archive.js:56 | a digit run followed by '.' and only zeros, such as '12.' or '12.00', reads as the run's value, so the delete route takes '12.0' as item 12 |
| JsString.NumberOfString | server/routes/archive.js:56 | `Number(String(n)) == n` for every integer id |
| TelegramRoute.Send | server/routes/telegram.js:6-63 | the outcome, by condition: (1) a missing name or contact is 400 'Name and Contact are required' with no outbound call; (2) otherwise missing credentials are 500 with the configuration error and no call; (3) otherwise one `sendMessage` call goes to the bot URL with the chat id, HTML mode and the assembled message. Success iff the HTTP status and the body's `ok` are both true. A thrown call is 500 'Network error sending to Telegram'; any other failure is 500 'Failed to send to Telegram' |
| TelegramRoute.FormatList | server/routes/telegram.js:21 | 'Не указан' for a missing or empty list; a single format is itself; a longer list starts with its first format |
| TelegramRoute.TwoFormats | server/routes/telegram.js:21 | two formats are joined with ', ' |
| TelegramRoute.FormatListSnoc | server/routes/telegram.js:21 | for any non-empty list, one more format extends the text by ', ' and that format, so the text is the whole list joined with ', ' |
| TelegramRoute.MessageFieldsInOrder | server/routes/telegram.js:24-33 | the message holds name, contact, format list and description in that order, each right after its label, and ends with the template's tail |
| TelegramRoute.DefaultDescription | server/routes/telegram.js:32 | a request without a description carries 'Без описания' in the description's place |
| JsString.SplitSecond | server/fix_db_paths.js:13 | `split(sep)[1]` exists iff the separator occurs; it is the text after the first occurrence up to the next one or the end, and contains no separator |
| FixDbPaths.Cut | server/fix_db_paths.js:12-13 | the cut value contains no 'localhost:5000', is shorter than the original, and is the text after the first occurrence |
| FixDbPaths.CutDevUrl | server/fix_db_paths.js:12-13 | a URL 'origin' + 'localhost:5000' + path, whose origin holds no 'l' (such as 'http://') and whose path names no second host, is marked and becomes exactly its path |
| JsString.SplitSecondOfSingle | server/fix_db_paths.js:13 | with a single separator whose head holds no earlier occurrence, `split(sep)[1]` is the whole tail |
| FixDbPaths.FixText | server/fix_db_paths.js:29-31 | the result is never marked; an unmarked value (empty or without the marker) is left as it is |
| FixDbPaths.ProjectUpdate | server/fix_db_paths.js:11-20 | a project is updated iff its thumbnail is truthy and contains the marker; the new thumbnail has no marker |
| FixDbPaths.ArchiveUpdate | server/fix_db_paths.js:25-45 | an archive item is written iff at least one of fileUrl and thumbnail is marked, and the update holds exactly the marked fields, each without the marker |
| FixDbPaths.ElementUpdate | server/fix_db_paths.js:49-61 | only 'image' elements with marked content are updated |
| FixDbPaths.ApplyArchive | server/fix_db_paths.js:39-43 | applying the per-item update equals fixing fileUrl and thumbnail independently |
| FixDbPaths.Run | server/fix_db_paths.js:5-65 | after the script no read field holds the marker; each row changes only in the fields the script reads; row counts and counters are unchanged |
| FixDbPaths.RunKeepsUnmarked | server/fix_db_paths.js:12 | a record with nothing to fix is left exactly as it was |
| FixDbPaths.RunIdempotent | server/fix_db_paths.js:12-16 | running the script twice equals running it once |
| FixDbPaths.RunKeepsValid | server/fix_db_paths.js:14-17 | the script keeps ids, slugs and owners, so the database invariants hold after it |
| Migrate.Extname | server/migrate_to_s3.js:36 | `path.extname`: empty iff there is no dot, the only dot leads, or the name is '..'; otherwise a dot-led suffix without another dot |
| Migrate.ContentType | server/migrate_to_s3.js:35-48 | the MIME type of the lower-cased extension for the eight listed extensions, 'application/octet-stream' for any other |
| Migrate.ContentTypeOfDotted | server/migrate_to_s3.js:36-47 | the type of `stem.ext` depends only on the lower-cased '.ext', even when the stem itself contains dots |
| Migrate.ContentTypeIgnoresCase | server/migrate_to_s3.js:36 | any 'name.MP4' is 'video/mp4', because the extension is lower-cased before the lookup |
| Migrate.ContentTypeUnknown | server/migrate_to_s3.js:47 | an extension outside the table, such as '.txt', gets 'application/octet-stream' |
| Migrate.ContentTypeDotFile | server/migrate_to_s3.js:36 | a dot file such as '.png' has no extension and gets the default type |
| Migrate.ObjectKey | server/migrate_to_s3.js:67 | the key is 'uploads/' followed by the file name |
| Migrate.PublicUrl | server/migrate_to_s3.js:28 | the URL is https, ends with '.s3.timeweb.com/' and the key |
| Migrate.BuildUrlMap | server/migrate_to_s3.js:58-72 | a key is present iff it is '/uploads/{file}' for a non-directory whose upload succeeded, and it maps to that file's public URL |
| Migrate.UrlMapShape | server/migrate_to_s3.js:63-72 | every key is a local '/uploads/' path and every value an https URL, so no value is itself a key |
| Migrate.Run | server/migrate_to_s3.js:14-135 | no uploads directory changes nothing, and neither does a directory holding a file that cannot be read: that read at :15 is outside the `try`, so the script stops before any update. Otherwise project thumbnails, archive thumbnails and fileUrls, and image-element contents that are truthy map keys are replaced by the mapped URL. Nothing else changes |
| Migrate.RunIdempotent | server/migrate_to_s3.js:76-128 | running the migration again over the same directory changes nothing more |
| Migrate.RunKeepsValid | server/migrate_to_s3.js:76-128 | the rewrite keeps keys, slugs and owners |
| Editor.Record | src/pages/Admin/ProjectEditor.jsx:58-60 | the history grows by one up to 20 snapshots, then stays at 20; the newest snapshot is the current list and the older ones are the newest of the previous history, in order |
| Editor.Undo | src/pages/Admin/ProjectEditor.jsx:62-67 | an empty history changes nothing; otherwise the elements become the newest snapshot, and the history loses exactly that snapshot with the rest in order |
| Editor.UndoAfterRecord | src/pages/Admin/ProjectEditor.jsx:58-67 | undoing right after a snapshot restores the elements, and the history too unless it was full |
| Editor.NewElement | src/pages/Admin/ProjectEditor.jsx:246-261 | the new element has width 300 and height 50 for text, 200 otherwise. Its content is the given one when truthy, else 'Текст' or the placeholder URL. Its zIndex is the old length + 1 and its font size 32, and it is centred in the view |
| Editor.AddElement | src/pages/Admin/ProjectEditor.jsx:246-263 | one snapshot, then exactly one new element at the end; nothing else changes |
| Editor.UploadMedia | src/pages/Admin/ProjectEditor.jsx:224-244 | an upload records the unchanged list twice and appends one 'video' (video MIME type) or 'image' element |
| Editor.UploadNeedsTwoUndos | src/pages/Admin/ProjectEditor.jsx:236-247 | after an upload, the first undo removes the new element, and the second undo restores the same list again |
| Editor.UpdateElement | src/pages/Admin/ProjectEditor.jsx:265-268 | the length and order are kept; elements with another id are unchanged; matching ones take exactly the patch's fields; a snapshot is recorded iff `saveHistory` |
| Editor.WithoutKeepsOrder | src/pages/Admin/ProjectEditor.jsx:201 | the survivors of a removal keep their relative order |
| Editor.Without | src/pages/Admin/ProjectEditor.jsx:201 | an element remains iff it was listed and has another id, and each such element is kept as often as it was listed; the list never grows |
| Editor.DeleteElement | src/pages/Admin/ProjectEditor.jsx:439 | one snapshot, then exactly the elements with that id are removed, and every other element is kept as often as it was listed |
| Editor.Erase | src/pages/Admin/ProjectEditor.jsx:194-203 | no element under the pointer, or a non-numeric attribute, changes nothing; otherwise exactly the elements with that id are removed, and every other element is kept as often as it was listed |
| Editor.EraseByRenderedId | src/pages/Admin/ProjectEditor.jsx:200 | erasing through the rendered `data-element-id` removes exactly the element ids equal to it |
| Editor.StartFontSize | src/pages/Admin/ProjectEditor.jsx:219 | the start font size is the element's non-zero font size, else 32 |
| Editor.BeginResize | src/pages/Admin/ProjectEditor.jsx:206-221 | one snapshot; resizing starts on that element with its width, start font size and pointer position |
| Editor.ResizedFont | src/pages/Admin/ProjectEditor.jsx:149 | the font size is never below 10, and is the start size plus half the total movement whenever that is at least 10 |
| Editor.ResizedWidth | src/pages/Admin/ProjectEditor.jsx:153 | the width is never below 50, and is the start width plus the total movement whenever that is at least 50 |
| Editor.Zoom | src/pages/Admin/ProjectEditor.jsx:83-92 | with the wheel listener attached (corrected): only an Alt wheel changes anything, and only the scale, which stays in [0.1, 5] and follows the wheel inside that range |
| Editor.CanvasPoint | src/pages/Admin/ProjectEditor.jsx:119-120 | the canvas point maps back to the pointer position under the current pan and scale |
| Editor.MouseDown | src/pages/Admin/ProjectEditor.jsx:105-128 | with the canvas ref bound (corrected): ignored while resizing; the middle button starts panning; with the left button, draw starts a path after a snapshot, and the eraser erases after a snapshot |
| Editor.MouseMove | src/pages/Admin/ProjectEditor.jsx:130-173 | with the canvas ref bound (corrected): panning moves the view by the pointer movement. Resizing sets the font size or width of the selected element from the total movement, without a snapshot. Drawing extends the path, and a pressed eraser erases. The history never changes |
| Editor.MouseUp | src/pages/Admin/ProjectEditor.jsx:175-192 | panning and resizing stop. A path of at least two points becomes one 'draw' element at the end, carrying the points and zIndex = length + 1; a shorter path adds nothing. The path is cleared in draw mode either way |
| Editor.RenderPath | src/pages/Admin/ProjectEditor.jsx:299-303 | nothing for fewer than two points; otherwise a move to the first point and a line to each later point |
| Editor.RenderPathVisitsPoints | src/pages/Admin/ProjectEditor.jsx:301 | a rendered stroke passes through exactly its points, in order |
| Editor.Replay | src/pages/Admin/ProjectEditor.jsx:58-92 | with the canvas ref bound (corrected): after any sequence of the modelled events (the canvas mouse handlers, the wheel, the element and canvas clicks, the tool, colour and width pickers, and the add, upload, update, delete, resize and undo actions), the history holds at most 20 snapshots and the scale stays in [0.1, 5] |
| Editor.ClickElement | src/pages/Admin/ProjectEditor.jsx:409-412 | a click on an element selects it, except with the eraser, where the click passes on to the canvas (:379) and clears the selection; nothing but the selection changes |
| Editor.PickedStyleReachesStroke | src/pages/Admin/ProjectEditor.jsx:324-325 | the colour and width picked before a draw gesture are the ones the new stroke carries |
| Editor.DrawGestureAddsStroke | src/pages/Admin/ProjectEditor.jsx:105-192 | with the canvas ref bound (corrected): a press, a move and a release with the draw tool add exactly one stroke through the two canvas points at the end of the list, after one snapshot, and clear the path |
| Editor.MouseDownAsWritten | src/pages/Admin/ProjectEditor.jsx:105-128 | as written: a left press with the draw tool records its snapshot and then fails on the unattached canvas, so the path stays empty; every other press is as in the corrected handler. Scale and tool never change |
| Editor.MouseMoveAsWritten | src/pages/Admin/ProjectEditor.jsx:130-173 | as written: the stroke-extending branch changes nothing; every other move is as in the corrected handler. The history, path, scale and tool never change |
| Editor.StepAsWritten | src/pages/Admin/ProjectEditor.jsx:82-173 | as written: a wheel event changes nothing, since the listener is never added; no event changes the scale or starts a path |
| Editor.ReplayAsWritten | src/pages/Admin/ProjectEditor.jsx:82-102 | as written: any sequence of events keeps the scale where it was and never holds a stroke in progress |
| Editor.AsWrittenNeverDraws | src/pages/Admin/ProjectEditor.jsx:105-192 | as written: every 'draw' element in the list or the history after any run of events has the id of a 'draw' element already there at the start, and the scale is unchanged |
| Editor.LoadedProjectNeverDraws | src/pages/Admin/ProjectEditor.jsx:105-128 | as written: an editor opened on a project without strokes never gets one, and its scale stays 1 |
| Editor.DrawGestureAsWritten | src/pages/Admin/ProjectEditor.jsx:116-122 | as written: the same press, move and release with the draw tool record one snapshot and add no element |
| Editor.AltWheelZooms | src/pages/Admin/ProjectEditor.jsx:82-102 | an Alt wheel with deltaY -1000 takes a fresh editor to scale 2 with the listener attached, and leaves it at 1 as written |
| Carousel.JsRem | src/components/CoverflowCarousel/index.jsx:95 | JavaScript `%`: the remainder has the dividend's sign, its magnitude is below n, and dividend = truncated quotient × n + remainder |
| Carousel.ItemIndex | src/components/CoverflowCarousel/index.jsx:95 | for n > 0 the item index lies in [0, n) |
| Carousel.ItemIndexIsMod | src/components/CoverflowCarousel/index.jsx:95 | the double remainder equals the mathematical (Euclidean) remainder for every integer index |
| Carousel.StartShowsFirst | src/components/CoverflowCarousel/index.jsx:10 | the initial index n*100 shows item 0 |
| Carousel.ItemIndexPeriodic | src/components/CoverflowCarousel/index.jsx:94-96 | indexes n apart show the same item |
| Carousel.Window | src/components/CoverflowCarousel/index.jsx:92-107 | seven cards with offsets -3..3, index = active + offset, the item index of that index, and active iff offset 0 |
| Carousel.WindowHasOneActive | src/components/CoverflowCarousel/index.jsx:103 | exactly one card is active, the middle one, and it shows the active index |
| Carousel.NextPrevInverse | src/components/CoverflowCarousel/index.jsx:33-39 | next then prev, or prev then next, restores the active index |
| Carousel.Wheel | src/components/CoverflowCarousel/index.jsx:52-60 | no move unless |deltaX| > 20 or |deltaY| > 20; then next if deltaY > 0 or deltaX > 0, else prev |
| Carousel.DragEnd | src/components/CoverflowCarousel/index.jsx:82-89 | next below -40, prev above 40, no move inside [-40, 40] |
| Carousel.NavigationStepsByOne | src/components/CoverflowCarousel/index.jsx:52-89 | a wheel event or a swipe moves by at most one card |
| Carousel.Click | src/components/CoverflowCarousel/index.jsx:135-142 | a click on the active card selects its item without moving; any other card makes its index active and selects nothing |
| Carousel.ClickedCardComesToCentre | src/components/CoverflowCarousel/index.jsx:106 | after a card is clicked, the middle card shows that card's item |
| Carousel.CardLook | src/components/CoverflowCarousel/index.jsx:126-170 | zIndex = 1000 - |offset|; rotateY is -35 for positive offsets, 35 for negative ones and 0 at the centre; the centre has opacity 1, scale 1.2 and no blur; other opacity is within [0.3, 0.6] |
| Carousel.CentreOnTop | src/components/CoverflowCarousel/index.jsx:170 | the centre card is drawn above every other card |
| Carousel.CardVideoSrc | src/components/CoverflowCarousel/index.jsx:177 | the card's video is its item kept when it starts with 'http', else under '/uploads/' |
| Uploads.MediaSrcPrefixOnce | src/pages/ProjectView.jsx:154 | the result starts with 'http' iff the name does, so a bare name is never mistaken for an absolute URL |
| YouTube.MarkersExclusive | src/components/Portfolio/index.jsx:34 | at most one alternative of the first group matches at any position |
| YouTube.MatchPos | src/components/Portfolio/index.jsx:34-35 | there is no match iff no position within the first line is followed by a marker; otherwise the greedy leading `.*` settles on the rightmost such position |
| YouTube.YoutubeId | src/components/Portfolio/index.jsx:32-37 | null for a missing or empty URL and for no match. Otherwise the capture at the rightmost marker when it has 11 characters, else null. Any result has 11 characters, none of them '#', '&' or '?' |
| YouTube.WatchUrlId | src/components/SmartVideoPlayer/index.jsx:36-41 | a one-line URL ending in 'watch?v=' and an 11-character id yields that id |
| YouTube.ShortUrlId | src/components/SmartVideoPlayer/index.jsx:36-41 | a one-line URL ending in 'youtu.be/' and an 11-character id yields that id |
| YouTube.LeadingTerminator | src/components/Portfolio/index.jsx:34 | a URL that starts with a line break never matches, since `.` stops at line terminators |
| VideoPlayer.LayoutFor | src/components/SmartVideoPlayer/index.jsx:24-34 | vertical iff the video is taller than wide |
| VideoPlayer.LayoutFlips | src/components/SmartVideoPlayer/index.jsx:28-32 | turning a non-square video on its side flips its layout |
| VideoPlayer.BackgroundUrl | src/components/SmartVideoPlayer/index.jsx:47 | the thumbnail if given; else, for YouTube, the id's maxresdefault poster; else none |
| VideoPlayer.Render | src/components/SmartVideoPlayer/index.jsx:43-117 | nothing iff src is missing or empty. The frame is the YouTube embed iff the type is 'youtube', else the video itself. The blurred video shows iff there is no thumbnail and the item is not YouTube; the blurred image shows iff there is a thumbnail or it is YouTube, and it is the background URL: the thumbnail, else the YouTube poster. Title and description show iff truthy |
| VideoPlayer.OneBackgroundLayer | src/components/SmartVideoPlayer/index.jsx:55-73 | exactly one of the two background layers renders |
| VideoPlayer.YouTubePosterMatchesEmbed | src/components/SmartVideoPlayer/index.jsx:47-84 | a watch link without a thumbnail shows the poster and the embed of the same video id |
| Portfolio.OfCategory | src/components/Portfolio/index.jsx:30 | an item is shown exactly when it is stored and of that category |
| Portfolio.OfCategoryKeepsOrder | src/components/Portfolio/index.jsx:30 | the shown items keep their stored order, each item of the category as often as stored and no other item at all |
| Portfolio.Filtered | src/components/Portfolio/index.jsx:28-30 | 'ВСЕ' shows every item in order; any other filter is the category filter |
| Portfolio.OfCategoryIdempotent | src/components/Portfolio/index.jsx:30 | filtering twice is filtering once |
| Portfolio.OfCategoryAppend | src/components/Portfolio/index.jsx:30 | filtering a concatenation filters each part |
| Portfolio.CardFor | src/components/Portfolio/index.jsx:113-121 | the card is tall iff orientation is 'vertical', or it is missing on a 'video' in 'REELS'. A YouTube id is looked up only for 'youtube' items. The picture is the thumbnail, else the id's poster, else the fileUrl |
| Portfolio.ModalFor | src/components/Portfolio/index.jsx:44-88 | a selection opens exactly one modal: the player with the item's fields for 'video' and 'youtube', the image viewer with fileUrl and title otherwise |
| Portfolio.CardMatchesPlayerBackground | src/components/Portfolio/index.jsx:119-121 | the picture on a card with a thumbnail or a YouTube id is the background the opened player shows |
| Portfolio.WatchLinkCard | src/components/Portfolio/index.jsx:117-121 | a 'youtube' item stored as a watch link, without a thumbnail, shows that video's poster |
| ProjectView.Endpoint | src/pages/ProjectView.jsx:33 | 'archive' iff the source is 'archive', otherwise 'projects' |
| ProjectView.FindIndex | src/pages/ProjectView.jsx:58 | the first entry whose id, as a string, equals the route id |
| JsString.IntStringInjective | src/pages/ProjectView.jsx:58 | two ids print the same string iff they are the same number, so comparing `String(p.id)` compares ids |
| ProjectView.NextProject | src/pages/ProjectView.jsx:56-65 | the state is kept while the list is empty or the id is missing. Otherwise the result is the entry after the first match, and null when that match is last or there is none |
| ProjectView.NextOfListed | src/pages/ProjectView.jsx:57-63 | with distinct ids, the next of entry k is entry k + 1, and the last has none |
| ProjectView.HandleNext | src/pages/ProjectView.jsx:72-79 | with a next entry: '/work/{id}' for the archive, '/project/{id}' otherwise. Without one: home, with targetId 'works' or 'projects' |
| ProjectView.FooterWalksTheList | src/pages/ProjectView.jsx:56-79 | following the footer from entry k opens entry k + 1, and the last entry leads home |
| ProjectView.ChooseLayout | src/pages/ProjectView.jsx:204-335 | generic iff no special flag holds; otherwise true/false first, then Kristina, then Anar |
| ProjectView.ShowsToolbox | src/pages/ProjectView.jsx:546 | the tool list shows iff the page is neither Anar nor Kristina |
| ProjectView.ToolboxFollowsLayout | src/pages/ProjectView.jsx:546 | every generic page shows the tool list; no Kristina or Anar page does |
| ProjectView.RenderMedia | src/pages/ProjectView.jsx:96-121 | nothing without a fileUrl; a video iff the type is 'video' or the URL ends in '.mp4'; otherwise an image with alt text defaulting to 'Project Media' |
| ProjectView.UpperCaseMp4IsImage | src/pages/ProjectView.jsx:100 | the '.mp4' test is case-sensitive: '.MP4' draws an image unless the type says video |
| ProjectView.ModalSrc | src/pages/ProjectView.jsx:154 | no modal without a selection; the source is kept when absolute, else served from '/uploads/' |
| ProjectView.ModalPlaysActiveCard | src/pages/ProjectView.jsx:425-432 | clicking the active carousel card opens the modal on the very video that card plays |
| Dashboard.OrientationOf | src/pages/Admin/Dashboard.jsx:134-138 | 'vertical' iff the video is taller than wide, 'horizontal' otherwise |
| Dashboard.FileSelected | src/pages/Admin/Dashboard.jsx:116-144 | no file changes nothing. Otherwise the form opens in file mode, with the title being the name up to its first '.', and an empty description. Orientation is horizontal for non-video files, and follows the video's size once it is known |
| Dashboard.FileKind | src/pages/Admin/Dashboard.jsx:212 | 'video' iff the MIME type starts with 'video', else 'image' |
| Dashboard.ConfirmUpload | src/pages/Admin/Dashboard.jsx:159-254 | nothing is posted when a guard fails (no file in file mode, no URL in YouTube mode, empty title) or the thumbnail upload throws. YouTube items are posted with type 'youtube' and orientation 'horizontal'. File items are posted with the uploaded URL, the kind from the MIME type and the form's orientation, and only after the upload succeeds |
| Dashboard.PostedUploadIsStored | src/pages/Admin/Dashboard.jsx:188-189 | every body the dashboard posts is accepted by the archive route, and the new item heads the local list |
| Dashboard.YouTubeUploadIsWide | src/pages/Admin/Dashboard.jsx:174-186 | a YouTube upload is stored as a 'youtube' item the grid draws wide |
| Dashboard.EditFormFor | src/pages/Admin/Dashboard.jsx:53-62 | the edit form starts from the item, with '' and 'horizontal' defaults |
| Dashboard.EditBody | src/pages/Admin/Dashboard.jsx:76-95 | the PUT body holds the five editable fields, and never fileUrl or type; the thumbnail is the newly uploaded one when there is one |
| Dashboard.ReplaceById | src/pages/Admin/Dashboard.jsx:102 | the length and order are kept; exactly the items with the updated id are replaced |
| Dashboard.LocalEditMatchesServer | src/pages/Admin/Dashboard.jsx:97-102 | after a successful PUT, the list the dashboard fetched (the archive, newest first) with the returned item swapped in equals the list a fresh GET returns |
| Dashboard.EditedListMatches | server/routes/archive.js:9-11 | swapping the edited row into the newest-first list gives the newest-first list of the edited table, since an edit keeps every creation time |
| Dashboard.DeleteArchiveLocal | src/pages/Admin/Dashboard.jsx:273-283 | the list changes only after the server reports success, and then loses exactly the items with that id, the rest keeping their order |
| Dashboard.LocalArchiveDeleteMatchesServer | src/pages/Admin/Dashboard.jsx:273-283 | the delete succeeds iff the item exists, and the fetched archive list (newest first) after the local update equals the list a fresh GET returns; after a failure the local list is kept |
| Dashboard.DeleteProjectLocal | src/pages/Admin/Dashboard.jsx:256-271 | the project list changes only after the server reports success, and then loses exactly the projects with that id, the rest keeping their order |
| Dashboard.LocalProjectDeleteMatchesServer | src/pages/Admin/Dashboard.jsx:256-271 | the delete succeeds iff the project exists, and the fetched project list (newest first) after the local update equals the list a fresh GET returns; after a failure the local list is kept |
| ContactModal.Change | src/components/ContactModal/index.jsx:32-34 | an input changes only its own field |
| ContactModal.ChangeKeepsFormats | src/components/ContactModal/index.jsx:32-34 | a field edit never touches the selected formats, and a second edit of a field overrides the first |
| ContactModal.Without | src/components/ContactModal/index.jsx:39 | a tag remains iff it was listed and is not the removed one; the list never grows |
| ContactModal.WithoutKeepsOthers | src/components/ContactModal/index.jsx:39 | every copy of the tag is removed; the other tags keep their order and their count |
| ContactModal.WithoutAbsent | src/components/ContactModal/index.jsx:39 | removing a tag that is not listed leaves the list exactly as it was |
| ContactModal.WithoutAppend | src/components/ContactModal/index.jsx:39 | removing a tag from two lists joined is removing it from each |
| ContactModal.Toggle | src/components/ContactModal/index.jsx:36-43 | an absent tag is appended at the end; a present tag loses every copy. Membership flips for that tag only |
| ContactModal.ToggleTwiceAbsent | src/components/ContactModal/index.jsx:38-40 | toggling an absent tag twice restores the list exactly |
| ContactModal.ToggleTwicePresent | src/components/ContactModal/index.jsx:38-40 | toggling a present tag twice keeps the same tags, with that tag moved to the end |
| ContactModal.ToggleKeepsDistinct | src/components/ContactModal/index.jsx:36-43 | toggling never lists a tag twice when none was |
| ContactModal.Submit | src/components/ContactModal/index.jsx:45-56 | blocked, with nothing changed and nothing sent, when the name or contact is empty (both inputs are `required`, at :115 and :127); ignored while a request is in flight; otherwise it starts loading and posts the whole form |
| ContactModal.DoubleSubmitSendsOnce | src/components/ContactModal/index.jsx:47 | a filled form is sent by its first submit, and a second submit while the first is in flight sends nothing |
| ContactModal.Settle | src/components/ContactModal/index.jsx:58-74 | the toast shows iff the response is ok. Otherwise the alert is 'Ошибка: ' followed by the body's error or 'Не удалось отправить', or the network message when the request throws. Loading always ends |
| ContactModal.EmptyNameIsRejected | src/components/ContactModal/index.jsx:105-128 | a form with an empty name or contact is never sent and the modal is unchanged; and a form is turned away by the route's required-field 400 exactly when its name or contact is empty, so the browser's check blocks exactly what the route would reject |
| ContactModal.CompleteFormShowsToast | src/components/ContactModal/index.jsx:45-65 | a complete form, a configured relay and a delivered message end in the toast; the message carries the form's fields |

## Left out

- The database engine is not part of this model. Tables are sequences of records in primary-key order, not the map the schema suggests; a query without `orderBy` returns rows in that order.
  - The schema file is not part of this model either. The required columns are taken to be a project's title and slug and an archive item's title, fileUrl and type; all other columns are optional. A project has no `fileUrl` column, so the migration's `p.fileUrl` branch never fires.
  - `orderBy: createdAt desc` is modelled as one particular descending permutation; the engine may order ties differently.
- I/O is not modelled. `fetch`, XHR, S3, the file system, `console`, `alert` timing and `confirm` dialogs are parameters or left out; each handler is one sequential transition, with no async interleaving or React batching.
- Rendering and animation are left out: CSS, framer-motion springs, the 3D hero, scroll restoration and hover state.
- Dashboard.ConfirmUpload: the upload-progress percentage, the reset of the file input and the error alerts are left out.
- Dashboard.PostedUploadIsStored: the client prepends whatever `res.json()` returns without checking `res.ok`; the model shows that the server never fails for bodies the dashboard builds.
- The components the site draws without logic are left out, and so are the scripts that only seed data. Login and auth wrap bcrypt, jsonwebtoken and localStorage; the upload route wraps multer-s3.
- Floating point is modelled as exact reals. Editor coordinates, scale and sizes, wheel deltas and swipe offsets have no IEEE rounding.
- JsString.LowerChar: `toLowerCase` is modelled for ASCII and the basic Cyrillic block only, since titles and slugs here use those.
- JsString.JsNumber: `Number` is modelled for the spellings of an integer: an optional sign, decimal digits, and optionally a '.' followed only by zeros ('12.', '12.0'). Every other spelling is NaN here. JavaScript reads some of them as numbers: surrounding whitespace, hexadecimal, octal and binary prefixes, exponents, 'Infinity' and the empty string (0). Non-integral values such as '12.5' are numbers in JavaScript but match no integer id, so only the delete route's lookup could differ, and only for those spellings. Route parameters in this site are ids and slugs.
- ArchiveRoute.ArchiveBody: a JSON `null` field and an absent field are both `None`. Prisma treats `null` as "set to null" on optional columns, so an edit body with `category: null` is modelled as leaving the category alone.
- Migrate.BuildUrlMap: the keys the script inserts all start with '/uploads/', so none of them shadows an `Object.prototype` member. Directory entries are taken to contain no '/'.
- Migrate.Run: lookups of stored values that name an inherited `Object.prototype` member are not modelled. In the script (`urlMap[value]` at migrate_to_s3.js:82, :103, :107 and :121), a stored value such as 'constructor' finds a truthy function, and the update that follows throws and stops the script. The model reads such a value as absent and leaves the record alone. A failed `lstat` is also left out.
- Carousel.CardVideoSrc: it requires at least one item, as both carousels on the case-study page pass fixed non-empty lists; with no items JavaScript would compute `NaN` indexes and draw undefined items.
- YouTube.YoutubeId: the regular expression is modelled on the first line of the URL only. The line terminators are '\n', '\r', U+2028 and U+2029, since `.` does not match them. Strings are sequences of Unicode scalar values, whereas JavaScript's `.length` (src/components/Portfolio/index.jsx:36) counts UTF-16 code units, so a capture holding a character outside the Basic Multilingual Plane is counted one shorter here than in the browser.
- Http.Reply: only the `error` text of a failure reply is modelled. The extra `details` fields are left out: `e.message` at server/routes/archive.js:48, the Telegram API's reply `data` at server/routes/telegram.js:53 and :57, and `error.message` at server/routes/telegram.js:61. The success body `{ success: true, telegram: data }` at server/routes/telegram.js:50 is modelled as a bare `true`. No client code reads any of these fields.
- VideoPlayer.Render: the closing animation and its 400 ms timer are left out, as are the Escape key and the `onClose` callback.
- ContactModal.Settle: the 2-second timer that closes the modal after the toast is left out. A route failure that carries the engine's own message (not a text error) shows the default alert text.
- Editor: saving a project, loading it and the thumbnail upload are left out. They are `fetch` calls whose server side is modelled by `ProjectsRoute`. The project's title and category fields (:345-346) are form state that only saving reads, and are left out with it.

## Findings

The canvas editor creates `canvasRef` (src/pages/Admin/ProjectEditor.jsx:34) but never passes it as a `ref` to any element, so `canvasRef.current` is always null. `MouseDownAsWritten`, `MouseMoveAsWritten`, `StepAsWritten` and `ReplayAsWritten` model the component as written. `MouseDown`, `MouseMove`, `Zoom`, `Step` and `Replay` model it with the ref bound to the canvas, and the rest of the model uses them.

| source | as written | input that shows it | evidently intended | confidence | as-written member | corrected member |
|---|---|---|---|---|---|---|
| src/pages/Admin/ProjectEditor.jsx:116-122 | a draw press records a snapshot, then throws reading the rectangle of the unattached canvas, so no path starts and the release adds nothing | the draw tool, then a left press, a move and a release on the canvas | the press starts a path at the canvas point, the move extends it, and the release adds one 'draw' element through both points | high, not executed | Editor.DrawGestureAsWritten | Editor.DrawGestureAddsStroke |
| src/pages/Admin/ProjectEditor.jsx:94-98 | the mount effect finds `canvasRef.current` null, so the wheel listener is never added and the scale stays 1 | an Alt wheel with deltaY -1000 on a fresh editor | the scale becomes 2, and always stays within [0.1, 5] | high, not executed | Editor.AltWheelZooms | Editor.Zoom |

=== FILE: archive_route.dfy ===
/** The `/api/archive` routes (server/routes/archive.js) over the abstract database. */
module ArchiveRoute {
  import opened Wrappers
  import opened JsString
  import opened Store
  import opened Http
  import Sorting
  import Seqs

  const CreateError := "Failed to create item"
  const UpdateError := "Failed to update item"
  const DeleteError := "Failed to delete"

  function CreatedAt(a: ArchiveItem): int {
    a.createdAt
  }

  /** GET /: every archive item, newest first. */
  function List(db: Db): (r: seq<ArchiveItem>)
    ensures Sorting.SortedDesc(r, CreatedAt)
    ensures multiset(r) == multiset(db.archive)
  {
    Sorting.SortDesc(db.archive, CreatedAt)
  }

  /** A request body for create and update; None is a field the body leaves out. */
  datatype ArchiveBody = ArchiveBody(
    title: Option<string>,
    fileUrl: Option<string>,
    kind: Option<string>,
    category: Option<string>,
    description: Option<string>,
    orientation: Option<string>,
    thumbnail: Option<string>)

  /** POST /: stores the seven fields of the body as a new item. Title, file URL
      and type are required columns; leaving one out is a 500. */
  function Create(db: Db, body: ArchiveBody, now: int): (res: (Db, Reply<ArchiveItem>))
    ensures res.1.Fail? <==> body.title.None? || body.fileUrl.None? || body.kind.None?
    ensures res.1.Fail? ==> res.0 == db && res.1 == Fail(500, Text(CreateError))
    ensures res.1.Ok? ==>
      var a := res.1.value;
      && res.0 == db.(archive := db.archive + [a], nextArchiveId := db.nextArchiveId + 1)
      && a.id == db.nextArchiveId && a.createdAt == now
      && Some(a.title) == body.title && Some(a.fileUrl) == body.fileUrl && Some(a.kind) == body.kind
      && a.category == body.category && a.description == body.description
      && a.orientation == body.orientation && a.thumbnail == body.thumbnail
    ensures Valid(db) ==> Valid(res.0)
  {
    if body.title.None? || body.fileUrl.None? || body.kind.None? then
      (db, Fail(500, Text(CreateError)))
    else
      var a := ArchiveItem(db.nextArchiveId, body.title.value, body.fileUrl.value, body.kind.value,
                           body.category, body.description, body.orientation, body.thumbnail, now);
      (db.(archive := db.archive + [a], nextArchiveId := db.nextArchiveId + 1), Ok(a))
  }

  /** The five editable fields of PUT /:id written onto an item. The body's
      file URL and type are read by nobody. */
  function ApplyEdit(a: ArchiveItem, body: ArchiveBody): ArchiveItem {
    a.(title := body.title.GetOr(a.title),
       description := if body.description.Some? then body.description else a.description,
       category := if body.category.Some? then body.category else a.category,
       orientation := if body.orientation.Some? then body.orientation else a.orientation,
       thumbnail := if body.thumbnail.Some? then body.thumbnail else a.thumbnail)
  }

  function EditRows(rows: seq<ArchiveItem>, id: int, body: ArchiveBody): (r: seq<ArchiveItem>)
    ensures |r| == |rows|
    ensures forall i :: 0 <= i < |rows| ==>
      r[i] == if rows[i].id == id then ApplyEdit(rows[i], body) else rows[i]
  {
    seq(|rows|, i requires 0 <= i < |rows| => if rows[i].id == id then ApplyEdit(rows[i], body) else rows[i])
  }

  function ArchiveIds(rows: seq<ArchiveItem>): set<int> {
    set a | a in rows :: a.id
  }

  /** The position of the item with id `id`. */
  function FindById(rows: seq<ArchiveItem>, id: int): (k: nat)
    requires id in ArchiveIds(rows)
    ensures k < |rows| && rows[k].id == id
  {
    if rows[0].id == id then 0
    else
      assert id in ArchiveIds(rows[1..]) by {
        var a :| a in rows && a.id == id;
        assert a in rows[1..];
      }
      1 + FindById(rows[1..], id)
  }

  /** PUT /:id (the id read with `parseInt`): changes only title, description,
      category, orientation and thumbnail; file URL, type, id and creation time
      never change. A missing item is a 500. */
  function Update(db: Db, param: string, body: ArchiveBody): (res: (Db, Reply<ArchiveItem>))
    ensures res.1.Fail? <==> JsParseInt(param).None? || JsParseInt(param).value !in ArchiveIds(db.archive)
    ensures res.1.Fail? ==> res.0 == db && res.1 == Fail(500, Text(UpdateError))
    ensures res.1.Ok? ==>
      var id := JsParseInt(param).value;
      && res.0 == db.(archive := res.0.archive)
      && |res.0.archive| == |db.archive|
      && (exists k :: 0 <= k < |db.archive| && db.archive[k].id == id && res.0.archive[k] == res.1.value)
      && forall i :: 0 <= i < |db.archive| ==>
           var old_, new_ := db.archive[i], res.0.archive[i];
           && new_.id == old_.id && new_.fileUrl == old_.fileUrl && new_.kind == old_.kind
           && new_.createdAt == old_.createdAt
           && (old_.id != id ==> new_ == old_)
           && (old_.id == id ==>
                 && new_.title == (if body.title.Some? then body.title.value else old_.title)
                 && new_.description == (if body.description.Some? then body.description else old_.description)
                 && new_.category == (if body.category.Some? then body.category else old_.category)
                 && new_.orientation == (if body.orientation.Some? then body.orientation else old_.orientation)
                 && new_.thumbnail == (if body.thumbnail.Some? then body.thumbnail else old_.thumbnail))
    ensures Valid(db) ==> Valid(res.0)
  {
    match JsParseInt(param)
    case None => (db, Fail(500, Text(UpdateError)))
    case Some(id) =>
      if id !in ArchiveIds(db.archive) then (db, Fail(500, Text(UpdateError)))
      else
        var k := FindById(db.archive, id);
        var rows := EditRows(db.archive, id, body);
        EditKeepsKeys(db.archive, id, body, db.nextArchiveId);
        (db.(archive := rows), Ok(rows[k]))
  }

  lemma EditKeepsKeys(rows: seq<ArchiveItem>, id: int, body: ArchiveBody, next: int)
    ensures ArchiveKeys(rows, next) ==> ArchiveKeys(EditRows(rows, id, body), next)
  {
    if ArchiveKeys(rows, next) {
      ArchiveKeysKept(rows, EditRows(rows, id, body), next);
    }
  }

  /** The items other than `id`, in table order. */
  function ArchiveWithout(rows: seq<ArchiveItem>, id: int): (r: seq<ArchiveItem>)
    ensures forall a :: a in r <==> a in rows && a.id != id
    ensures Seqs.Subsequence(r, rows)
  {
    if rows == [] then []
    else if rows[0].id != id then [rows[0]] + ArchiveWithout(rows[1..], id)
    else ArchiveWithout(rows[1..], id)
  }

  /** DELETE /:id: removes the one item with that id; a non-numeric id or a
      missing item is a 500. */
  function Delete(db: Db, param: string): (res: (Db, Reply<bool>))
    ensures res.1.Fail? <==> JsNumber(param).None? || JsNumber(param).value !in ArchiveIds(db.archive)
    ensures res.1.Fail? ==> res.0 == db && res.1 == Fail(500, Text(DeleteError))
    ensures res.1.Ok? ==>
      && res.1.value
      && res.0 == db.(archive := res.0.archive)
      && forall a :: a in res.0.archive <==> a in db.archive && a.id != JsNumber(param).value
    ensures Valid(db) ==> Valid(res.0)
  {
    match JsNumber(param)
    case None => (db, Fail(500, Text(DeleteError)))
    case Some(id) =>
      if id !in ArchiveIds(db.archive) then (db, Fail(500, Text(DeleteError)))
      else (db.(archive := ArchiveWithout(db.archive, id)), Ok(true))
  }
}

=== FILE: carousel.dfy ===
/** The coverflow carousel (src/components/CoverflowCarousel/index.jsx): an
    unbounded active index, a window of seven cards around it, each showing
    the item at the index modulo the number of items, and navigation by
    buttons, keys, wheel, drag and clicks. */
module Carousel {
  import opened Wrappers
  import opened JsString
  import Uploads

  /** The quotient JavaScript's `%` pairs with: `a / n` truncated toward zero. */
  function JsQuot(a: int, n: int): int
    requires n > 0
  {
    if a >= 0 then a / n else -((-a) / n)
  }

  /** JavaScript's `a % n` for `n > 0`: the remainder of the division
      truncated toward zero, which has the sign of `a`. */
  function JsRem(a: int, n: int): (r: int)
    requires n > 0
    ensures -n < r < n
    ensures a >= 0 ==> r >= 0
    ensures a < 0 ==> r <= 0
    ensures a == JsQuot(a, n) * n + r
  {
    if a >= 0 then a % n
    else
      MulDistributes(0, (-a) / n, n);
      -((-a) % n)
  }

  /** `((index % n) + n) % n`, the item shown for an index; None when there
      are no items (the remainder is then NaN). */
  function ItemIndex(index: int, n: int): (r: Option<int>)
    ensures r.None? <==> n <= 0
    ensures r.Some? ==> 0 <= r.value < n
  {
    if n <= 0 then None else Some(JsRem(JsRem(index, n) + n, n))
  }

  lemma MulAtLeast(k: int, n: int)
    requires k >= 1 && n > 0
    ensures k * n >= n
  {
  }

  lemma MulDistributes(a: int, b: int, n: int)
    ensures a * n - b * n == (a - b) * n
  {
  }

  /** Quotient and remainder of a division by `n > 0` are unique. */
  lemma DivModUnique(x: int, q1: int, r1: int, q2: int, r2: int, n: int)
    requires n > 0 && 0 <= r1 < n && 0 <= r2 < n && x == q1 * n + r1 && x == q2 * n + r2
    ensures q1 == q2 && r1 == r2
  {
    MulDistributes(q1, q2, n);
    if q1 > q2 { MulAtLeast(q1 - q2, n); }
    if q2 > q1 { MulDistributes(q2, q1, n); MulAtLeast(q2 - q1, n); }
  }

  /** `x % n` is the `r` of any decomposition `x == q * n + r` with `0 <= r < n`. */
  lemma ModOf(x: int, q: int, r: int, n: int)
    requires n > 0 && 0 <= r < n && x == q * n + r
    ensures x % n == r
  {
    DivModUnique(x, x / n, x % n, q, r, n);
  }

  /** The double remainder is the mathematical (Euclidean) remainder: every
      index, negative ones included, shows item `index mod n`. */
  lemma ItemIndexIsMod(index: int, n: int)
    requires n > 0
    ensures ItemIndex(index, n) == Some(index % n)
  {
    var r1 := JsRem(index, n);
    var q1 := JsQuot(index, n);
    var r2 := JsRem(r1 + n, n);
    var q2 := JsQuot(r1 + n, n);
    assert index == q1 * n + r1;
    assert r1 + n == q2 * n + r2;
    MulDistributes(q1 + q2, 1, n);
    MulDistributes(q1 + q2, q2, n);
    assert index == (q1 + q2 - 1) * n + r2;
    ModOf(index, q1 + q2 - 1, r2, n);
  }

  /** The carousel starts at `n * 100`, which shows the first item. */
  lemma StartShowsFirst(n: int)
    requires n > 0
    ensures ItemIndex(n * 100, n) == Some(0)
  {
    ItemIndexIsMod(n * 100, n);
    ModOf(n * 100, 100, 0, n);
  }

  /** Indexes `n` apart show the same item. */
  lemma ItemIndexPeriodic(index: int, n: int)
    requires n > 0
    ensures ItemIndex(index + n, n) == ItemIndex(index, n)
  {
    var q, r := index / n, index % n;
    assert (index + n) % n == r by {
      assert index == q * n + r;
      MulDistributes(q + 1, 1, n);
      ModOf(index + n, q + 1, r, n);
    }
    ItemIndexIsMod(index, n);
    ItemIndexIsMod(index + n, n);
  }

  /** One card of the window. */
  datatype Card = Card(offset: int, index: int, itemIndex: Option<int>, isActive: bool)

  const VisibleItems := 3

  /** The seven cards, from offset -3 to offset 3 around `active`. */
  function Window(active: int, n: int): (w: seq<Card>)
    ensures |w| == 2 * VisibleItems + 1
    ensures forall i :: 0 <= i < |w| ==>
      && w[i].offset == i - VisibleItems
      && w[i].index == active + w[i].offset
      && w[i].itemIndex == ItemIndex(w[i].index, n)
      && (w[i].isActive <==> w[i].offset == 0)
  {
    seq(2 * VisibleItems + 1, i requires 0 <= i < 2 * VisibleItems + 1 =>
      var offset := i - VisibleItems;
      Card(offset, active + offset, ItemIndex(active + offset, n), offset == 0))
  }

  /** Exactly one card is active, the middle one, and it shows the active index. */
  lemma WindowHasOneActive(active: int, n: int)
    ensures var w := Window(active, n);
      && w[VisibleItems].isActive && w[VisibleItems].index == active
      && forall i :: 0 <= i < |w| && w[i].isActive ==> i == VisibleItems
  {
  }

  function Next(active: int): (r: int)
    ensures r == active + 1
  {
    active + 1
  }

  function Prev(active: int): (r: int)
    ensures r == active - 1
  {
    active - 1
  }

  lemma NextPrevInverse(active: int)
    ensures Prev(Next(active)) == active && Next(Prev(active)) == active
  {
  }

  function Abs(x: real): real {
    if x < 0.0 then -x else x
  }

  /** `handleWheel`: a movement of more than 20 on either axis moves one card,
      forward when either delta is positive, back otherwise. */
  function Wheel(active: int, deltaX: real, deltaY: real): (r: int)
    ensures Abs(deltaX) <= 20.0 && Abs(deltaY) <= 20.0 ==> r == active
    ensures (Abs(deltaX) > 20.0 || Abs(deltaY) > 20.0) && (deltaY > 0.0 || deltaX > 0.0) ==> r == Next(active)
    ensures (Abs(deltaX) > 20.0 || Abs(deltaY) > 20.0) && !(deltaY > 0.0 || deltaX > 0.0) ==> r == Prev(active)
  {
    if Abs(deltaX) > 20.0 || Abs(deltaY) > 20.0 then
      if deltaY > 0.0 || deltaX > 0.0 then Next(active) else Prev(active)
    else active
  }

  /** `onDragEnd`: a swipe left of more than 40 moves forward, right of more
      than 40 moves back; shorter drags change nothing. */
  function DragEnd(active: int, offsetX: real): (r: int)
    ensures offsetX < -40.0 ==> r == Next(active)
    ensures offsetX > 40.0 ==> r == Prev(active)
    ensures -40.0 <= offsetX <= 40.0 ==> r == active
  {
    if offsetX < -40.0 then Next(active)
    else if offsetX > 40.0 then Prev(active)
    else active
  }

  /** Every navigation moves by at most one card. */
  lemma NavigationStepsByOne(active: int, dx: real, dy: real, swipe: real)
    ensures Wheel(active, dx, dy) - active in {-1, 0, 1}
    ensures DragEnd(active, swipe) - active in {-1, 0, 1}
  {
  }

  /** A click on a card: the active card selects its item, any other card
      becomes the active one. */
  function Click(active: int, card: Card): (r: (int, Option<int>))
    ensures card.isActive ==> r == (active, card.itemIndex)
    ensures !card.isActive ==> r == (card.index, None)
  {
    if card.isActive then (active, card.itemIndex) else (card.index, None)
  }

  /** After a card is activated by a click, the middle card shows its item. */
  lemma ClickedCardComesToCentre(active: int, n: int, i: int)
    requires 0 <= i < 2 * VisibleItems + 1
    ensures var card := Window(active, n)[i];
      var next := Click(active, card).0;
      Window(next, n)[VisibleItems].itemIndex == card.itemIndex
  {
  }

  /** How a card at `offset` is drawn. */
  datatype Look = Look(x: real, scale: real, rotateY: int, z: real, opacity: real, blur: real, zIndex: int)

  function CardLook(offset: int): (l: Look)
    ensures l.zIndex == 1000 - (if offset < 0 then -offset else offset)
    ensures l.rotateY == (if offset > 0 then -35 else if offset < 0 then 35 else 0)
    ensures offset == 0 ==> l.opacity == 1.0 && l.scale == 1.2 && l.blur == 0.0
    ensures offset != 0 ==> 0.3 <= l.opacity <= 0.6
  {
    var a := if offset < 0 then -offset else offset;
    var active := offset == 0;
    Look(offset as real * 80.0,
         if active then 1.2 else 1.0 - a as real * 0.15,
         if offset > 0 then -35 else if offset < 0 then 35 else 0,
         if active then 200.0 else -(a as real) * 150.0,
         if active then 1.0 else (if 0.3 >= 0.8 - a as real * 0.2 then 0.3 else 0.8 - a as real * 0.2),
         if active then 0.0 else a as real * 3.0,
         1000 - a)
  }

  /** The middle card is drawn above every other card of the window. */
  lemma CentreOnTop(offset: int)
    requires offset != 0
    ensures CardLook(offset).zIndex < CardLook(0).zIndex
  {
  }

  /** The source of the card's video: the item if it is an absolute URL,
      otherwise the file in the uploads folder. */
  function CardVideoSrc(items: seq<string>, card: Card): (r: Option<string>)
    requires |items| > 0
    ensures card.itemIndex.Some? && 0 <= card.itemIndex.value < |items| ==>
      r == Some(Uploads.MediaSrc(items[card.itemIndex.value]))
  {
    if card.itemIndex.Some? && 0 <= card.itemIndex.value < |items| then
      Some(Uploads.MediaSrc(items[card.itemIndex.value]))
    else None
  }
}

=== FILE: contact_modal.dfy ===
/** The contact form (src/components/ContactModal/index.jsx): field edits,
    format tags that toggle on and off, and a submit that is ignored while a
    request is in flight. The request goes to the Telegram relay. */
module ContactModal {
  import opened Wrappers
  import opened Seqs
  import opened Http
  import TelegramRoute

  const FormatTags := ["REELS / SHORTS", "YOUTUBE SHOW", "MOTION DESIGN", "3D GRAPHICS", "VIDEO EDITING", "OTHER"]

  datatype FormData = FormData(name: string, contact: string, description: string, formats: seq<string>)

  /** The three text inputs, by their `name` attribute. */
  datatype Field = NameField | ContactField | DescriptionField

  /** `handleChange`: the named field takes the input's value. */
  function Change(f: FormData, field: Field, value: string): (r: FormData)
    ensures field == NameField ==> r == f.(name := value)
    ensures field == ContactField ==> r == f.(contact := value)
    ensures field == DescriptionField ==> r == f.(description := value)
  {
    match field
    case NameField => f.(name := value)
    case ContactField => f.(contact := value)
    case DescriptionField => f.(description := value)
  }

  /** A field edit never touches the selected formats, and editing a field
      twice keeps only the second value. */
  lemma ChangeKeepsFormats(f: FormData, field: Field, a: string, b: string)
    ensures Change(f, field, a).formats == f.formats
    ensures Change(Change(f, field, a), field, b) == Change(f, field, b)
  {
  }

  /** `formats.filter(f => f !== tag)`: exactly the other tags remain. */
  function Without(formats: seq<string>, tag: string): (r: seq<string>)
    ensures forall t :: t in r <==> t in formats && t != tag
    ensures |r| <= |formats|
  {
    if formats == [] then []
    else
      var rest := Without(formats[1..], tag);
      assert formats == [formats[0]] + formats[1..];
      if formats[0] != tag then [formats[0]] + rest else rest
  }

  /** The filter keeps the other tags in their order and as often as they
      were listed. */
  lemma {:induction false} WithoutKeepsOthers(formats: seq<string>, tag: string)
    ensures Subsequence(Without(formats, tag), formats)
    ensures forall t :: t != tag ==> multiset(Without(formats, tag))[t] == multiset(formats)[t]
    ensures multiset(Without(formats, tag))[tag] == 0
  {
    if formats != [] {
      WithoutKeepsOthers(formats[1..], tag);
      var rest := Without(formats[1..], tag);
      assert formats == [formats[0]] + formats[1..];
      assert multiset(formats) == multiset{formats[0]} + multiset(formats[1..]);
      if formats[0] != tag {
        assert ([formats[0]] + rest)[1..] == rest;
        assert multiset([formats[0]] + rest) == multiset{formats[0]} + multiset(rest);
      }
    }
  }

  /** `handleFormatToggle`: a selected tag is removed (every copy of it), an
      unselected one is appended. */
  function Toggle(formats: seq<string>, tag: string): (r: seq<string>)
    ensures tag !in formats ==> r == formats + [tag]
    ensures tag in formats ==> r == Without(formats, tag)
    ensures tag in r <==> tag !in formats
    ensures forall t :: t != tag ==> (t in r <==> t in formats)
  {
    if tag in formats then Without(formats, tag) else formats + [tag]
  }

  /** Removing a tag that is not there changes nothing. */
  lemma {:induction false} WithoutAbsent(formats: seq<string>, tag: string)
    requires tag !in formats
    ensures Without(formats, tag) == formats
  {
    if formats != [] {
      WithoutAbsent(formats[1..], tag);
      assert formats == [formats[0]] + formats[1..];
    }
  }

  /** Removing distributes over appending. */
  lemma {:induction false} WithoutAppend(a: seq<string>, b: seq<string>, tag: string)
    ensures Without(a + b, tag) == Without(a, tag) + Without(b, tag)
  {
    if a == [] {
      assert a + b == b;
    } else {
      var x, t := a[0], a[1..];
      var head := if x != tag then [x] else [];
      assert Without(a + b, tag) == head + Without(t + b, tag) by {
        assert a + b == [x] + (t + b);
        WithoutCons(x, t + b, tag);
      }
      assert Without(a, tag) == head + Without(t, tag) by {
        assert a == [x] + t;
        WithoutCons(x, t, tag);
      }
      WithoutAppend(t, b, tag);
    }
  }

  /** One step of the filter. */
  lemma WithoutCons(x: string, rest: seq<string>, tag: string)
    ensures Without([x] + rest, tag) == (if x != tag then [x] else []) + Without(rest, tag)
  {
    assert ([x] + rest)[1..] == rest;
  }

  /** Toggling an unselected tag twice restores the list exactly. */
  lemma ToggleTwiceAbsent(formats: seq<string>, tag: string)
    requires tag !in formats
    ensures Toggle(Toggle(formats, tag), tag) == formats
  {
    WithoutAppend(formats, [tag], tag);
    WithoutAbsent(formats, tag);
    assert Without([tag], tag) == [];
  }

  /** Toggling a selected tag twice keeps the same tags but moves it to the end. */
  lemma ToggleTwicePresent(formats: seq<string>, tag: string)
    requires tag in formats
    ensures Toggle(Toggle(formats, tag), tag) == Without(formats, tag) + [tag]
    ensures forall t :: t in Toggle(Toggle(formats, tag), tag) <==> t in formats
  {
  }

  /** No tag is listed twice. */
  predicate Distinct(s: seq<string>) {
    forall i, j :: 0 <= i < j < |s| ==> s[i] != s[j]
  }

  /** Starting from the empty list, toggling never lists a tag twice. */
  lemma ToggleKeepsDistinct(formats: seq<string>, tag: string)
    requires Distinct(formats)
    ensures Distinct(Toggle(formats, tag))
  {
    if tag in formats {
      WithoutDistinct(formats, tag);
    }
  }

  lemma {:induction false} WithoutDistinct(formats: seq<string>, tag: string)
    requires Distinct(formats)
    ensures Distinct(Without(formats, tag))
  {
    if formats != [] {
      assert Distinct(formats[1..]) by {
        forall i, j | 0 <= i < j < |formats[1..]| ensures formats[1..][i] != formats[1..][j] {
          assert formats[1..][i] == formats[i + 1] && formats[1..][j] == formats[j + 1];
        }
      }
      WithoutDistinct(formats[1..], tag);
      var rest := Without(formats[1..], tag);
      if formats[0] != tag {
        assert formats[0] !in formats[1..];
        assert formats[0] !in rest;
        var r := [formats[0]] + rest;
        forall i, j | 0 <= i < j < |r| ensures r[i] != r[j] {
          if i == 0 {
            assert r[j] == rest[j - 1];
          } else {
            assert r[i] == rest[i - 1] && r[j] == rest[j - 1];
          }
        }
      }
    }
  }

  /** The modal's state: the form, the in-flight flag, and what it shows. */
  datatype Modal = Modal(form: FormData, loading: bool, toast: bool, alert: Option<string>)

  /** The JSON body of the request: the whole form. */
  function RequestOf(f: FormData): (r: TelegramRoute.Request)
    ensures r.name == Some(f.name) && r.contact == Some(f.contact)
    ensures r.description == Some(f.description) && r.formats == Some(f.formats)
  {
    TelegramRoute.Request(Some(f.name), Some(f.contact), Some(f.description), Some(f.formats))
  }

  /** The browser's check of the two `required` inputs: a submit of a form
      with an empty name or contact is blocked before `handleSubmit` runs.
      Text of spaces alone passes it. */
  predicate Filled(f: FormData) {
    f.name != "" && f.contact != ""
  }

  /** A submit of the form: blocked by the browser unless the required fields
      are filled, then ignored by `handleSubmit` while loading; otherwise the
      modal starts loading and the form is sent. */
  function Submit(m: Modal): (r: (Modal, Option<TelegramRoute.Request>))
    ensures !Filled(m.form) || m.loading ==> r == (m, None)
    ensures Filled(m.form) && !m.loading ==> r.0 == m.(loading := true) && r.1 == Some(RequestOf(m.form))
  {
    if !Filled(m.form) || m.loading then (m, None) else (m.(loading := true), Some(RequestOf(m.form)))
  }

  /** A second submit while the first is in flight sends nothing. */
  lemma DoubleSubmitSendsOnce(m: Modal)
    requires !m.loading && Filled(m.form)
    ensures Submit(m).1.Some? && Submit(Submit(m).0).1.None?
  {
  }

  /** What the browser receives: `response.ok` and the body's `error` field;
      None when the request or the JSON parse throws. */
  datatype Response = Response(ok: bool, error: Option<string>)

  const DefaultError := "Не удалось отправить"
  const NetworkAlert := "Ошибка сети. Попробуйте позже."

  /** The rest of `handleSubmit`: a toast on success, an alert otherwise, and
      the in-flight flag cleared in every case. */
  function Settle(m: Modal, response: Option<Response>): (r: Modal)
    ensures !r.loading && r.form == m.form
    ensures r.toast <==> m.toast || (response.Some? && response.value.ok)
    ensures response.None? ==> r.alert == Some(NetworkAlert)
    ensures response.Some? && !response.value.ok ==>
      r.alert == Some("Ошибка: " + OrElse(response.value.error, DefaultError))
    ensures response.Some? && response.value.ok ==> r.alert == m.alert
  {
    match response
    case None => m.(loading := false, alert := Some(NetworkAlert))
    case Some(res) =>
      if res.ok then m.(loading := false, toast := true)
      else m.(loading := false, alert := Some("Ошибка: " + OrElse(res.error, DefaultError)))
  }

  /** The response the relay's reply becomes in the browser. */
  function ResponseOf(reply: Reply<bool>): Response {
    match reply
    case Ok(_) => Response(true, None)
    case Fail(_, Text(t)) => Response(false, Some(t))
    case Fail(_, EngineText) => Response(false, None)
  }

  /** The browser blocks exactly the forms the relay would turn away with its
      400 message: a form with an empty name or contact is never sent and the
      modal stays as it was, and every form sent passes the relay's own check. */
  lemma EmptyNameIsRejected(m: Modal, cfg: TelegramRoute.Config, d: TelegramRoute.Delivery)
    ensures !Filled(m.form) ==> Submit(m) == (m, None)
    ensures !Filled(m.form) <==>
      TelegramRoute.Send(RequestOf(m.form), cfg, d) == TelegramRoute.Outcome(None, Fail(400, Text(TelegramRoute.RequiredError)))
  {
  }

  /** A complete form, a configured relay and a delivered message end in the
      toast, with the form's tags listed in the message. */
  lemma CompleteFormShowsToast(m: Modal, cfg: TelegramRoute.Config)
    requires !m.loading && m.form.name != "" && m.form.contact != ""
    requires Truthy(cfg.token) && Truthy(cfg.chatId)
    ensures var sent := Submit(m);
      var outcome := TelegramRoute.Send(sent.1.value, cfg, TelegramRoute.Answered(true, true));
      && outcome.call.Some?
      && outcome.call.value.text == TelegramRoute.Message(m.form.name, m.form.contact,
           TelegramRoute.FormatList(Some(m.form.formats)), OrElse(Some(m.form.description), TelegramRoute.NoDescription))
      && Settle(sent.0, Some(ResponseOf(outcome.reply))).toast
      && !Settle(sent.0, Some(ResponseOf(outcome.reply))).loading
  {
  }
}

=== FILE: dashboard.dfy ===
/** The admin dashboard (src/pages/Admin/Dashboard.jsx): the upload form and
    its guards, the archive item each upload creates, and how the local lists
    follow a successful edit or delete. The uploads, the requests and the
    browser's reading of the video's size are parameters. */
module Dashboard {
  import opened Wrappers
  import opened JsString
  import opened Store
  import opened Seqs
  import ArchiveRoute
  import ProjectsRoute
  import Portfolio
  import Sorting
  import Http

  /** Where the new item's media comes from: an uploaded file or a YouTube link. */
  datatype Source = FileSource | YouTubeSource

  /** A file picked in the browser: its name and its MIME type. */
  datatype PickedFile = PickedFile(name: string, mime: string)

  /** The upload form. */
  datatype UploadForm = UploadForm(
    source: Source,
    file: Option<PickedFile>,
    youtubeUrl: string,
    title: string,
    category: string,
    description: string,
    orientation: string,
    open: bool)

  /** `videoWidth` and `videoHeight` once the browser has read them. */
  datatype Dims = Dims(width: nat, height: nat)

  /** `'vertical'` for portrait videos, `'horizontal'` otherwise. */
  function OrientationOf(d: Dims): (r: string)
    ensures r == "vertical" <==> d.height > d.width
    ensures r == "vertical" || r == "horizontal"
  {
    if d.height > d.width then "vertical" else "horizontal"
  }

  predicate IsVideoMime(mime: string) {
    StartsWith(mime, "video")
  }

  /** `handleFileSelect`: a picked file opens the form in file mode with the
      name up to its first dot as title and an empty description. A video's
      orientation is set once its size is known (`dims`, None until then); any
      other file is horizontal. No file changes nothing. */
  function FileSelected(form: UploadForm, file: Option<PickedFile>, dims: Option<Dims>): (r: UploadForm)
    ensures file.None? ==> r == form
    ensures file.Some? ==>
      && r.file == file && r.source == FileSource && r.open && r.description == ""
      && r.youtubeUrl == form.youtubeUrl && r.category == form.category
    ensures file.Some? ==> StartsWith(file.value.name, r.title) && '.' !in r.title
    ensures file.Some? && |r.title| < |file.value.name| ==> file.value.name[|r.title|] == '.'
    ensures file.Some? && !IsVideoMime(file.value.mime) ==> r.orientation == "horizontal"
    ensures file.Some? && IsVideoMime(file.value.mime) && dims.Some? ==>
      (r.orientation == "vertical" <==> dims.value.height > dims.value.width)
    ensures file.Some? && IsVideoMime(file.value.mime) && dims.None? ==> r.orientation == form.orientation
  {
    match file
    case None => form
    case Some(f) =>
      var orientation :=
        if !IsVideoMime(f.mime) then "horizontal"
        else if dims.Some? then OrientationOf(dims.value)
        else form.orientation;
      form.(source := FileSource, file := file, title := BeforeFirst(f.name, '.'), description := "",
            orientation := orientation, open := true)
  }

  /** The three guards of `handleUploadConfirm`. */
  predicate Ready(form: UploadForm) {
    && !(form.source == FileSource && form.file.None?)
    && !(form.source == YouTubeSource && form.youtubeUrl == "")
    && form.title != ""
  }

  /** The optional thumbnail upload that runs first. */
  datatype ThumbUpload = NoThumb | ThumbUploaded(url: string) | ThumbFailed

  /** The file upload of file mode: its URL when the server answers 200. */
  datatype FileUpload = Uploaded(url: string) | Rejected | NetworkFailed

  function ThumbUrl(t: ThumbUpload): string {
    if t.ThumbUploaded? then t.url else ""
  }

  /** `uploadFile.type.startsWith('video') ? 'video' : 'image'` */
  function FileKind(mime: string): (r: string)
    ensures r == "video" <==> IsVideoMime(mime)
    ensures r == "video" || r == "image"
  {
    if IsVideoMime(mime) then "video" else "image"
  }

  /** `handleUploadConfirm`: the body it posts to create the archive item, or
      None when it posts nothing (a guard fails, the thumbnail upload throws,
      or the file upload does not succeed). */
  function ConfirmUpload(form: UploadForm, thumb: ThumbUpload, upload: FileUpload): (r: Option<ArchiveRoute.ArchiveBody>)
    ensures !Ready(form) || thumb.ThumbFailed? ==> r.None?
    ensures Ready(form) && !thumb.ThumbFailed? && form.source == YouTubeSource ==> r.Some?
    ensures Ready(form) && !thumb.ThumbFailed? && form.source == FileSource ==> (r.Some? <==> upload.Uploaded?)
    ensures r.Some? ==>
      && r.value.title == Some(form.title) && r.value.category == Some(form.category)
      && r.value.description == Some(form.description) && r.value.thumbnail == Some(ThumbUrl(thumb))
    ensures r.Some? && form.source == YouTubeSource ==>
      && r.value.fileUrl == Some(form.youtubeUrl)
      && r.value.kind == Some("youtube") && r.value.orientation == Some("horizontal")
    ensures r.Some? && form.source == FileSource ==>
      && r.value.fileUrl == Some(upload.url)
      && r.value.kind == Some(FileKind(form.file.value.mime))
      && r.value.orientation == Some(form.orientation)
  {
    if !Ready(form) || thumb.ThumbFailed? then None
    else if form.source == YouTubeSource then
      Some(ArchiveRoute.ArchiveBody(Some(form.title), Some(form.youtubeUrl), Some("youtube"),
                                    Some(form.category), Some(form.description), Some("horizontal"),
                                    Some(ThumbUrl(thumb))))
    else if upload.Uploaded? then
      Some(ArchiveRoute.ArchiveBody(Some(form.title), Some(upload.url), Some(FileKind(form.file.value.mime)),
                                    Some(form.category), Some(form.description), Some(form.orientation),
                                    Some(ThumbUrl(thumb))))
    else None
  }

  /** Every body the dashboard posts passes the server's checks, and the new
      item comes first in the dashboard's list (`[newItem, ...archive]`). */
  lemma PostedUploadIsStored(db: Db, form: UploadForm, thumb: ThumbUpload, upload: FileUpload,
                             now: int, list: seq<ArchiveItem>)
    requires ConfirmUpload(form, thumb, upload).Some?
    ensures var res := ArchiveRoute.Create(db, ConfirmUpload(form, thumb, upload).value, now);
      && res.1.Ok?
      && res.1.value.title == form.title
      && ([res.1.value] + list)[0] == res.1.value && ([res.1.value] + list)[1..] == list
  {
  }

  /** A YouTube upload is stored as a horizontal 'youtube' item, so the archive
      grid always draws it as a wide card. */
  lemma YouTubeUploadIsWide(db: Db, form: UploadForm, thumb: ThumbUpload, upload: FileUpload, now: int)
    requires form.source == YouTubeSource && ConfirmUpload(form, thumb, upload).Some?
    ensures var item := ArchiveRoute.Create(db, ConfirmUpload(form, thumb, upload).value, now).1.value;
      item.kind == "youtube" && !Portfolio.IsTall(item)
  {
  }

  /** The edit form, filled in by `handleEditClick`. */
  datatype EditForm = EditForm(
    itemId: int,
    title: string,
    description: string,
    category: Option<string>,
    orientation: string,
    thumbnailUrl: string)

  function EditFormFor(item: ArchiveItem): (f: EditForm)
    ensures f.itemId == item.id && f.title == item.title && f.category == item.category
    ensures f.description == OrElse(item.description, "")
    ensures f.orientation == OrElse(item.orientation, "horizontal")
    ensures f.thumbnailUrl == OrElse(item.thumbnail, "")
  {
    EditForm(item.id, item.title, OrElse(item.description, ""), item.category,
             OrElse(item.orientation, "horizontal"), OrElse(item.thumbnail, ""))
  }

  /** The PUT body of `handleUpdateConfirm`: the five editable fields; the
      thumbnail is the newly uploaded one when a file was chosen. None when
      that upload throws. */
  function EditBody(form: EditForm, thumb: ThumbUpload): (r: Option<ArchiveRoute.ArchiveBody>)
    ensures r.None? <==> thumb.ThumbFailed?
    ensures r.Some? ==>
      && r.value.fileUrl.None? && r.value.kind.None?
      && r.value.title == Some(form.title) && r.value.description == Some(form.description)
      && r.value.category == form.category && r.value.orientation == Some(form.orientation)
      && r.value.thumbnail == Some(if thumb.ThumbUploaded? then thumb.url else form.thumbnailUrl)
  {
    if thumb.ThumbFailed? then None
    else
      Some(ArchiveRoute.ArchiveBody(Some(form.title), None, None, form.category, Some(form.description),
                                    Some(form.orientation),
                                    Some(if thumb.ThumbUploaded? then thumb.url else form.thumbnailUrl)))
  }

  /** `archive.map(item => item.id === updated.id ? updated : item)` */
  function ReplaceById(list: seq<ArchiveItem>, updated: ArchiveItem): (r: seq<ArchiveItem>)
    ensures |r| == |list|
    ensures forall i :: 0 <= i < |list| && list[i].id == updated.id ==> r[i] == updated
    ensures forall i :: 0 <= i < |list| && list[i].id != updated.id ==> r[i] == list[i]
  {
    seq(|list|, i requires 0 <= i < |list| => if list[i].id == updated.id then updated else list[i])
  }

  /** `handleUpdateConfirm`'s edit of one item, as a function on items. */
  function EditOf(id: int, body: ArchiveRoute.ArchiveBody): ArchiveItem -> ArchiveItem {
    (a: ArchiveItem) => if a.id == id then ArchiveRoute.ApplyEdit(a, body) else a
  }

  /** The server's row update is that edit mapped over the table. */
  lemma EditRowsIsMap(rows: seq<ArchiveItem>, id: int, body: ArchiveRoute.ArchiveBody)
    ensures ArchiveRoute.EditRows(rows, id, body) == Map(rows, EditOf(id, body))
  {
  }

  /** When the dashboard's list is the server's GET list, replacing the item
      the server returns from PUT leaves it equal to the GET list the server
      would now send: the edit keeps `createdAt`, so the order is the same. */
  lemma LocalEditMatchesServer(db: Db, param: string, body: ArchiveRoute.ArchiveBody)
    requires Valid(db)
    requires ArchiveRoute.Update(db, param, body).1.Ok?
    ensures var res := ArchiveRoute.Update(db, param, body);
      ReplaceById(ArchiveRoute.List(db), res.1.value) == ArchiveRoute.List(res.0)
  {
    var id := JsParseInt(param).value;
    var k := ArchiveRoute.FindById(db.archive, id);
    var rows := ArchiveRoute.EditRows(db.archive, id, body);
    assert ArchiveRoute.Update(db, param, body) == (db.(archive := rows), Http.Ok(rows[k]));
    EditedListMatches(db.archive, k, body);
  }

  /** The same on the table alone: the sorted table with the edited item
      swapped in is the sorted edited table. */
  lemma EditedListMatches(rows: seq<ArchiveItem>, k: nat, body: ArchiveRoute.ArchiveBody)
    requires k < |rows|
    requires forall a, b :: a in rows && b in rows && a.id == b.id ==> a == b
    ensures ReplaceById(Sorting.SortDesc(rows, ArchiveRoute.CreatedAt), ArchiveRoute.ApplyEdit(rows[k], body))
         == Sorting.SortDesc(ArchiveRoute.EditRows(rows, rows[k].id, body), ArchiveRoute.CreatedAt)
  {
    var f := EditOf(rows[k].id, body);
    EditRowsIsMap(rows, rows[k].id, body);
    assert forall y :: ArchiveRoute.CreatedAt(f(y)) == ArchiveRoute.CreatedAt(y);
    Sorting.SortDescMap(rows, ArchiveRoute.CreatedAt, f);
    ReplaceIsEdit(Sorting.SortDesc(rows, ArchiveRoute.CreatedAt), rows, k, body);
  }

  /** In a list holding the table's items, the returned item replaces exactly
      the one item with its id, which is what the edit changes. */
  lemma ReplaceIsEdit(list: seq<ArchiveItem>, rows: seq<ArchiveItem>, k: nat, body: ArchiveRoute.ArchiveBody)
    requires k < |rows| && multiset(list) == multiset(rows)
    requires forall a, b :: a in rows && b in rows && a.id == b.id ==> a == b
    ensures ReplaceById(list, ArchiveRoute.ApplyEdit(rows[k], body)) == Map(list, EditOf(rows[k].id, body))
  {
    var updated := ArchiveRoute.ApplyEdit(rows[k], body);
    var f := EditOf(rows[k].id, body);
    forall i | 0 <= i < |list| ensures ReplaceById(list, updated)[i] == Map(list, f)[i] {
      assert list[i] in multiset(rows);
      assert rows[k] in rows;
    }
  }

  /** The items other than `id`: the predicate of the dashboard's filter. */
  function OtherArchive(id: int): ArchiveItem -> bool {
    (a: ArchiveItem) => a.id != id
  }

  lemma {:induction false} ArchiveWithoutIsFilter(rows: seq<ArchiveItem>, id: int)
    ensures ArchiveRoute.ArchiveWithout(rows, id) == Filter(rows, OtherArchive(id))
  {
    if rows != [] {
      ArchiveWithoutIsFilter(rows[1..], id);
    }
  }

  /** `deleteArchiveItem`: `archive.filter(item => item.id !== id)`, applied only
      when the server says the delete succeeded. */
  function DeleteArchiveLocal(list: seq<ArchiveItem>, id: int, serverOk: bool): (r: seq<ArchiveItem>)
    ensures !serverOk ==> r == list
    ensures serverOk ==> Subsequence(r, list) && forall a :: a in r <==> a in list && a.id != id
  {
    if serverOk then ArchiveRoute.ArchiveWithout(list, id) else list
  }

  /** After a delete, the dashboard's GET list and the server's GET list agree
      again: an existing item is deleted and leaves both; for any other id the
      server fails and neither changes. */
  lemma LocalArchiveDeleteMatchesServer(db: Db, id: int)
    ensures var res := ArchiveRoute.Delete(db, IntString(id));
      && (res.1.Ok? <==> id in ArchiveRoute.ArchiveIds(db.archive))
      && DeleteArchiveLocal(ArchiveRoute.List(db), id, res.1.Ok?) == ArchiveRoute.List(res.0)
  {
    NumberOfString(id);
    if id in ArchiveRoute.ArchiveIds(db.archive) {
      ArchiveWithoutIsFilter(ArchiveRoute.List(db), id);
      ArchiveWithoutIsFilter(db.archive, id);
      Sorting.SortDescFilter(db.archive, ArchiveRoute.CreatedAt, OtherArchive(id));
    }
  }

  /** The projects other than `id`: the predicate of the dashboard's filter. */
  function OtherProject(id: int): Project -> bool {
    (p: Project) => p.id != id
  }

  lemma {:induction false} ProjectsWithoutIsFilter(rows: seq<Project>, id: int)
    ensures ProjectsRoute.ProjectsWithout(rows, id) == Filter(rows, OtherProject(id))
  {
    if rows != [] {
      ProjectsWithoutIsFilter(rows[1..], id);
    }
  }

  /** `deleteProject`: `projects.filter(p => p.id !== id)`, applied only when the
      server says the delete succeeded. */
  function DeleteProjectLocal(list: seq<Project>, id: int, serverOk: bool): (r: seq<Project>)
    ensures !serverOk ==> r == list
    ensures serverOk ==> Subsequence(r, list) && forall p :: p in r <==> p in list && p.id != id
  {
    if serverOk then ProjectsRoute.ProjectsWithout(list, id) else list
  }

  /** After a delete, the dashboard's GET list and the server's GET list agree
      again; a 404 leaves both as they were. */
  lemma LocalProjectDeleteMatchesServer(db: Db, id: int)
    ensures var res := ProjectsRoute.Delete(db, IntString(id));
      && (res.1.Ok? <==> id in ProjectIds(db.projects))
      && DeleteProjectLocal(ProjectsRoute.List(db), id, res.1.Ok?) == ProjectsRoute.List(res.0)
  {
    NumberOfString(id);
    if id in ProjectIds(db.projects) {
      ProjectsWithoutIsFilter(ProjectsRoute.List(db), id);
      ProjectsWithoutIsFilter(db.projects, id);
      Sorting.SortDescFilter(db.projects, ProjectsRoute.CreatedAt, OtherProject(id));
    }
  }
}

=== FILE: editor.dfy ===
/** The canvas editor of the admin area (src/pages/Admin/ProjectEditor.jsx):
    a flat list of elements with a bounded undo history, a zoomable and
    pannable view, resizing, an eraser and free-hand strokes.

    Each handler is one transition of the editor state. A handler reads the
    state as it was when the event arrived, as the closures of the component
    do. Fresh ids (`Date.now()`), pointer positions, the viewport size and the
    element under the pointer are parameters. */
module Editor {
  import opened Wrappers
  import opened JsString
  import opened Seqs

  datatype Point = Point(x: real, y: real)

  /** What an element shows: text or a media URL, or the points of a stroke
      (stored as their JSON text). */
  datatype Content = Text(text: string) | Stroke(points: seq<Point>)

  /** The style keys the editor reads and writes. */
  datatype Styles = Styles(
    zIndex: Option<int>,
    fontSize: Option<real>,
    stroke: Option<string>,
    strokeWidth: Option<real>)

  datatype Element = Element(
    id: int,
    kind: string,
    content: Content,
    x: real,
    y: real,
    width: real,
    height: real,
    styles: Styles)

  datatype Tool = SelectTool | DrawTool | EraserTool

  /** The width and font size of the element being resized, taken at the start. */
  datatype ResizeStart = ResizeStart(width: real, fontSize: real)

  datatype State = State(
    elements: seq<Element>,
    history: seq<seq<Element>>,
    selectedId: Option<int>,
    tool: Tool,
    scale: real,
    pan: Point,
    panning: bool,
    lastMouse: Point,
    currentPath: seq<Point>,
    drawingColor: string,
    drawingWidth: real,
    resizing: bool,
    resizeStart: ResizeStart,
    dragStart: Point)

  const MaxHistory := 20
  const MinScale := 0.1
  const MaxScale := 5.0
  const ZoomSensitivity := 0.001
  const MinFontSize := 10.0
  const MinWidth := 50.0
  const DefaultFontSize := 32.0
  const DefaultText := "Текст"
  const Placeholder := "https://placehold.co/300x200"

  function Max(a: real, b: real): real {
    if a >= b then a else b
  }

  function Min(a: real, b: real): real {
    if a <= b then a else b
  }

  /** The invariants every reachable state keeps. */
  predicate Inv(st: State) {
    |st.history| <= MaxHistory && MinScale <= st.scale <= MaxScale
  }

  /** The state after loading a project's elements. */
  function Init(elements: seq<Element>): (st: State)
    ensures Inv(st) && st.history == [] && st.elements == elements
  {
    State(elements, [], None, SelectTool, 1.0, Point(0.0, 0.0), false, Point(0.0, 0.0), [],
          "#ccff00", 5.0, false, ResizeStart(0.0, 0.0), Point(0.0, 0.0))
  }

  /** `addToHistory`: the newest 19 snapshots are kept and `elements` is
      appended as the newest. */
  function Record(history: seq<seq<Element>>, elements: seq<Element>): (r: seq<seq<Element>>)
    ensures |r| <= MaxHistory
    ensures |r| == if |history| < MaxHistory then |history| + 1 else MaxHistory
    ensures r[|r| - 1] == elements
    ensures r[..|r| - 1] == history[|history| - (|r| - 1)..]
  {
    var kept := if |history| <= MaxHistory - 1 then history else history[|history| - (MaxHistory - 1)..];
    kept + [elements]
  }

  function Snapshot(st: State): State {
    st.(history := Record(st.history, st.elements))
  }

  /** `handleUndo`: the newest snapshot becomes the element list and leaves the history. */
  function Undo(st: State): (r: State)
    ensures st.history == [] ==> r == st
    ensures st.history != [] ==>
      && r.elements == st.history[|st.history| - 1]
      && r.history == st.history[..|st.history| - 1]
      && r == st.(elements := r.elements, history := r.history)
  {
    if |st.history| == 0 then st
    else st.(elements := st.history[|st.history| - 1], history := st.history[..|st.history| - 1])
  }

  /** Recording and then undoing gives back the elements, and the history minus
      its oldest snapshot when it was full. */
  lemma UndoAfterRecord(st: State)
    ensures Undo(Snapshot(st)).elements == st.elements
    ensures |st.history| < MaxHistory ==> Undo(Snapshot(st)).history == st.history
    ensures |st.history| >= MaxHistory ==>
      Undo(Snapshot(st)).history == st.history[|st.history| - (MaxHistory - 1)..]
  {
  }

  /** The browser window size, which places new elements at the view's centre. */
  datatype Viewport = Viewport(innerWidth: real, innerHeight: real)

  /** The element `addElement` creates. */
  function NewElement(st: State, kind: string, content: Option<string>, id: int, vp: Viewport): (e: Element)
    requires Inv(st)
    ensures e.id == id && e.kind == kind
    ensures e.width == 300.0 && e.height == (if kind == "text" then 50.0 else 200.0)
    ensures e.content == Text(if Truthy(content) then content.value
                              else if kind == "text" then DefaultText else Placeholder)
    ensures e.styles == Styles(Some(|st.elements| + 1), Some(DefaultFontSize), None, None)
    ensures (e.x + 150.0) * st.scale == -st.pan.x + vp.innerWidth / 2.0
    ensures (e.y + 100.0) * st.scale == -st.pan.y + vp.innerHeight / 2.0
  {
    Element(id, kind,
            Text(OrElse(content, if kind == "text" then DefaultText else Placeholder)),
            (-st.pan.x + vp.innerWidth / 2.0) / st.scale - 150.0,
            (-st.pan.y + vp.innerHeight / 2.0) / st.scale - 100.0,
            300.0, if kind == "text" then 50.0 else 200.0,
            Styles(Some(|st.elements| + 1), Some(DefaultFontSize), None, None))
  }

  /** `addElement`: one snapshot, then the new element at the end. */
  function AddElement(st: State, kind: string, content: Option<string>, id: int, vp: Viewport): (r: State)
    requires Inv(st)
    ensures Inv(r)
    ensures r.elements == st.elements + [NewElement(st, kind, content, id, vp)]
    ensures r.history == Record(st.history, st.elements)
    ensures r == st.(elements := r.elements, history := r.history)
  {
    Snapshot(st).(elements := st.elements + [NewElement(st, kind, content, id, vp)])
  }

  /** The element kind of an uploaded file. */
  function MediaKind(mime: string): (k: string)
    ensures k == "video" <==> StartsWith(mime, "video")
    ensures k == "video" || k == "image"
  {
    if StartsWith(mime, "video") then "video" else "image"
  }

  /** `handleFileUpload` for a canvas medium: the handler records a snapshot and
      `addElement` records another, both of the same element list. */
  function UploadMedia(st: State, mime: string, url: string, id: int, vp: Viewport): (r: State)
    requires Inv(st)
    ensures Inv(r)
    ensures r.elements == st.elements + [NewElement(st, MediaKind(mime), Some(url), id, vp)]
    ensures r.history == Record(Record(st.history, st.elements), st.elements)
    ensures r == st.(elements := r.elements, history := r.history)
  {
    var once := Snapshot(st);
    Snapshot(once).(elements := st.elements + [NewElement(st, MediaKind(mime), Some(url), id, vp)])
  }

  /** One upload leaves two copies of the old element list on top of the
      history: the first undo removes the new element, and the second one
      sets the same list again, an undo step with no visible effect. */
  lemma UploadNeedsTwoUndos(st: State, mime: string, url: string, id: int, vp: Viewport)
    requires Inv(st)
    ensures var r := UploadMedia(st, mime, url, id, vp);
      && Undo(r).elements == st.elements
      && Undo(Undo(r)).elements == st.elements
      && |Undo(r).history| == |r.history| - 1
  {
  }

  /** The fields an `updateElement` call sets; None is a field it leaves alone. */
  datatype Patch = Patch(
    x: Option<real>,
    y: Option<real>,
    width: Option<real>,
    content: Option<Content>,
    styles: Option<Styles>)

  /** `{ ...el, ...newData }` */
  function Merge(e: Element, p: Patch): Element {
    e.(x := p.x.GetOr(e.x), y := p.y.GetOr(e.y), width := p.width.GetOr(e.width),
       content := p.content.GetOr(e.content), styles := p.styles.GetOr(e.styles))
  }

  function MergeWhere(elements: seq<Element>, id: int, p: Patch): (r: seq<Element>)
    ensures |r| == |elements|
    ensures forall i :: 0 <= i < |elements| ==>
      r[i] == if elements[i].id == id then Merge(elements[i], p) else elements[i]
  {
    seq(|elements|, i requires 0 <= i < |elements| =>
      if elements[i].id == id then Merge(elements[i], p) else elements[i])
  }

  /** `updateElement`: every element with the id takes the patch's fields;
      nothing else in the list changes, and a snapshot is recorded only when asked. */
  function UpdateElement(st: State, id: int, p: Patch, saveHistory: bool): (r: State)
    ensures |r.elements| == |st.elements|
    ensures forall i :: 0 <= i < |st.elements| && st.elements[i].id != id ==> r.elements[i] == st.elements[i]
    ensures forall i :: 0 <= i < |st.elements| && st.elements[i].id == id ==>
      r.elements[i] == Merge(st.elements[i], p)
    ensures forall i :: 0 <= i < |st.elements| && st.elements[i].id == id ==>
      var a, b := st.elements[i], r.elements[i];
      && b.id == a.id && b.kind == a.kind && b.height == a.height
      && (p.x.Some? ==> b.x == p.x.value) && (p.x.None? ==> b.x == a.x)
      && (p.y.Some? ==> b.y == p.y.value) && (p.y.None? ==> b.y == a.y)
      && (p.width.Some? ==> b.width == p.width.value) && (p.width.None? ==> b.width == a.width)
      && (p.content.Some? ==> b.content == p.content.value) && (p.content.None? ==> b.content == a.content)
      && (p.styles.Some? ==> b.styles == p.styles.value) && (p.styles.None? ==> b.styles == a.styles)
    ensures r.history == if saveHistory then Record(st.history, st.elements) else st.history
    ensures r == st.(elements := r.elements, history := r.history)
    ensures Inv(st) ==> Inv(r)
  {
    var s := if saveHistory then Snapshot(st) else st;
    s.(elements := MergeWhere(st.elements, id, p))
  }

  /** The elements whose id differs from `id`, in order (`filter(el => el.id !== id)`). */
  function Without(elements: seq<Element>, id: int): (r: seq<Element>)
    ensures forall e :: e in r <==> e in elements && e.id != id
    ensures forall e :: multiset(r)[e] == if e.id == id then 0 else multiset(elements)[e]
    ensures |r| <= |elements|
  {
    if elements == [] then []
    else
      var rest := Without(elements[1..], id);
      assert multiset(elements) == multiset{elements[0]} + multiset(elements[1..]) by {
        assert elements == [elements[0]] + elements[1..];
      }
      if elements[0].id != id then [elements[0]] + rest else rest
  }

  /** The survivors of a removal keep their relative order. */
  lemma {:induction false} WithoutKeepsOrder(elements: seq<Element>, id: int)
    ensures Subsequence(Without(elements, id), elements)
  {
    if elements != [] {
      WithoutKeepsOrder(elements[1..], id);
      if elements[0].id == id {
        SubsequenceDropHead(Without(elements[1..], id), elements);
      }
    }
  }

  /** A subsequence of the tail of `t` is one of `t`. */
  lemma {:induction false} SubsequenceDropHead<T>(s: seq<T>, t: seq<T>)
    requires t != [] && Subsequence(s, t[1..])
    ensures Subsequence(s, t)
    decreases |t|, 0
  {
    if s != [] && s[0] == t[0] {
      SubsequenceTail(s, t[1..]);
    }
  }

  /** Leaving out the first item of a subsequence keeps it a subsequence. */
  lemma {:induction false} SubsequenceTail<T>(s: seq<T>, u: seq<T>)
    requires s != [] && Subsequence(s, u)
    ensures Subsequence(s[1..], u)
    decreases |u|, 1
  {
    if s[1..] != [] {
      if s[0] == u[0] {
        SubsequenceDropHead(s[1..], u);
      } else {
        SubsequenceTail(s, u[1..]);
        SubsequenceDropHead(s[1..], u);
      }
    }
  }

  /** The delete button of the selected element: one snapshot, then the element is removed. */
  function DeleteElement(st: State, id: int): (r: State)
    ensures r.history == Record(st.history, st.elements)
    ensures forall e :: e in r.elements <==> e in st.elements && e.id != id
    ensures forall e :: multiset(r.elements)[e] == if e.id == id then 0 else multiset(st.elements)[e]
    ensures r == st.(elements := r.elements, history := r.history)
    ensures Inv(st) ==> Inv(r)
  {
    Snapshot(st).(elements := Without(st.elements, id))
  }

  /** `handleEraser`: the element under the pointer, found by its
      `data-element-id` attribute read with `Number`, is removed. No element
      under the pointer (None) changes nothing; an attribute that is not a
      number matches no id. */
  function Erase(elements: seq<Element>, target: Option<string>): (r: seq<Element>)
    ensures target.None? || JsNumber(target.value).None? ==> r == elements
    ensures target.Some? && JsNumber(target.value).Some? ==>
      forall e :: e in r <==> e in elements && e.id != JsNumber(target.value).value
    ensures target.Some? && JsNumber(target.value).Some? ==>
      forall e :: multiset(r)[e] == if e.id == JsNumber(target.value).value then 0 else multiset(elements)[e]
  {
    if target.None? then elements
    else match JsNumber(target.value)
      case None => elements
      case Some(id) => Without(elements, id)
  }

  /** The attribute holds `String(el.id)`, so erasing through it removes exactly that id. */
  lemma EraseByRenderedId(elements: seq<Element>, id: int)
    ensures forall e :: e in Erase(elements, Some(IntString(id))) <==> e in elements && e.id != id
  {
    NumberOfString(id);
  }

  /** `el.styles?.fontSize || 32` */
  function StartFontSize(s: Styles): (f: real)
    ensures s.fontSize.Some? && s.fontSize.value != 0.0 ==> f == s.fontSize.value
    ensures s.fontSize.None? || s.fontSize.value == 0.0 ==> f == DefaultFontSize
  {
    if s.fontSize.Some? && s.fontSize.value != 0.0 then s.fontSize.value else DefaultFontSize
  }

  /** `handleResizeStart` on element `e`: a snapshot, then `e` is selected and
      its width, its font size and the pointer position are kept. */
  function BeginResize(st: State, e: Element, clientX: real, clientY: real): (r: State)
    ensures r.history == Record(st.history, st.elements)
    ensures r.resizing && r.selectedId == Some(e.id)
    ensures r.resizeStart == ResizeStart(e.width, StartFontSize(e.styles))
    ensures r.dragStart == Point(clientX, clientY)
    ensures r.elements == st.elements
    ensures Inv(st) ==> Inv(r)
  {
    Snapshot(st).(resizing := true, selectedId := Some(e.id),
                  dragStart := Point(clientX, clientY),
                  resizeStart := ResizeStart(e.width, StartFontSize(e.styles)))
  }

  /** The first element with the id (`elements.find`). */
  function FindElement(elements: seq<Element>, id: int): (r: Option<Element>)
    ensures r.Some? ==> r.value in elements && r.value.id == id
    ensures r.None? ==> forall e :: e in elements ==> e.id != id
  {
    if elements == [] then None
    else if elements[0].id == id then Some(elements[0])
    else FindElement(elements[1..], id)
  }

  /** The font size or width a resize sets, from the total pointer movement
      since the resize began, in canvas units. */
  function ResizedFont(start: real, totalDx: real): (f: real)
    ensures f >= MinFontSize
    ensures f == start + totalDx * 0.5 || f == MinFontSize
    ensures start + totalDx * 0.5 >= MinFontSize ==> f == start + totalDx * 0.5
  {
    Max(MinFontSize, start + totalDx * 0.5)
  }

  function ResizedWidth(start: real, totalDx: real): (w: real)
    ensures w >= MinWidth
    ensures w == start + totalDx || w == MinWidth
    ensures start + totalDx >= MinWidth ==> w == start + totalDx
  {
    Max(MinWidth, start + totalDx)
  }

  /** `scale`: the wheel with Alt zooms by the vertical delta, clamped to [0.1, 5]. */
  function Zoom(st: State, altKey: bool, deltaY: real): (r: State)
    ensures !altKey ==> r == st
    ensures altKey ==> r == st.(scale := r.scale)
    ensures altKey ==> MinScale <= r.scale <= MaxScale
    ensures altKey && MinScale <= st.scale - deltaY * ZoomSensitivity <= MaxScale ==>
      r.scale == st.scale - deltaY * ZoomSensitivity
    ensures Inv(st) ==> Inv(r)
  {
    if altKey then st.(scale := Min(Max(MinScale, st.scale - deltaY * ZoomSensitivity), MaxScale))
    else st
  }

  /** The canvas rectangle's top-left corner on screen. */
  datatype Rect = Rect(left: real, top: real)

  /** A pointer position in canvas coordinates. */
  function CanvasPoint(st: State, rect: Rect, clientX: real, clientY: real): (p: Point)
    requires Inv(st)
    ensures p.x * st.scale + rect.left + st.pan.x == clientX
    ensures p.y * st.scale + rect.top + st.pan.y == clientY
  {
    Point((clientX - rect.left - st.pan.x) / st.scale, (clientY - rect.top - st.pan.y) / st.scale)
  }

  /** `handleMouseDown`: the middle button starts panning; the left button
      starts a stroke or erases, each after a snapshot. Nothing happens while resizing. */
  function MouseDown(st: State, button: int, clientX: real, clientY: real, rect: Rect,
                     target: Option<string>): (r: State)
    requires Inv(st)
    ensures Inv(r)
    ensures st.resizing ==> r == st
    ensures !st.resizing && button == 1 ==>
      r == st.(panning := true, lastMouse := Point(clientX, clientY))
    ensures !st.resizing && button == 0 && st.tool == DrawTool ==>
      r == Snapshot(st).(currentPath := [CanvasPoint(st, rect, clientX, clientY)])
    ensures !st.resizing && button == 0 && st.tool == EraserTool ==>
      r == Snapshot(st).(elements := Erase(st.elements, target))
    ensures !st.resizing && button != 1 && !(button == 0 && st.tool != SelectTool) ==> r == st
  {
    if st.resizing then st
    else if button == 1 then st.(panning := true, lastMouse := Point(clientX, clientY))
    else if st.tool == DrawTool && button == 0 then
      Snapshot(st).(currentPath := [CanvasPoint(st, rect, clientX, clientY)])
    else if st.tool == EraserTool && button == 0 then
      Snapshot(st).(elements := Erase(st.elements, target))
    else st
  }

  /** `selectedId` as a condition: a present, non-zero id. */
  predicate HasSelection(st: State) {
    st.selectedId.Some? && st.selectedId.value != 0
  }

  /** `handleMouseMove`. Panning moves the view by the pointer's movement.
      Resizing sets the selected element's font size (text) or width (other
      kinds) from the total movement since the resize began, without a
      snapshot. Otherwise a stroke in progress gets the pointer's point, and
      the eraser with the left button held erases. */
  function MouseMove(st: State, clientX: real, clientY: real, rect: Rect, buttons: int,
                     target: Option<string>): (r: State)
    requires Inv(st)
    ensures Inv(r)
    ensures r.history == st.history
    ensures st.panning ==>
      r == st.(pan := Point(st.pan.x + (clientX - st.lastMouse.x), st.pan.y + (clientY - st.lastMouse.y)),
               lastMouse := Point(clientX, clientY))
    ensures !st.panning && st.resizing && HasSelection(st) ==>
      var id := st.selectedId.value;
      var totalDx := (clientX - st.dragStart.x) / st.scale;
      var found := FindElement(st.elements, id);
      && (found.None? ==> r == st)
      && (found.Some? ==>
            && r == st.(elements := r.elements)
            && |r.elements| == |st.elements|
            && forall i :: 0 <= i < |st.elements| ==>
                 var a, b := st.elements[i], r.elements[i];
                 && (a.id != id ==> b == a)
                 && (a.id == id && found.value.kind == "text" ==>
                       b == a.(styles := found.value.styles.(fontSize := Some(ResizedFont(st.resizeStart.fontSize, totalDx)))))
                 && (a.id == id && found.value.kind != "text" ==>
                       b == a.(width := ResizedWidth(st.resizeStart.width, totalDx))))
    ensures !st.panning && !(st.resizing && HasSelection(st)) && st.tool == DrawTool && st.currentPath != [] ==>
      r == st.(currentPath := st.currentPath + [CanvasPoint(st, rect, clientX, clientY)])
    ensures !st.panning && !(st.resizing && HasSelection(st)) && st.tool == EraserTool && buttons == 1 ==>
      r == st.(elements := Erase(st.elements, target))
  {
    if st.panning then
      st.(pan := Point(st.pan.x + (clientX - st.lastMouse.x), st.pan.y + (clientY - st.lastMouse.y)),
          lastMouse := Point(clientX, clientY))
    else if st.resizing && HasSelection(st) then
      var id := st.selectedId.value;
      var totalDx := (clientX - st.dragStart.x) / st.scale;
      match FindElement(st.elements, id)
      case None => st
      case Some(e) =>
        if e.kind == "text" then
          var styles := e.styles.(fontSize := Some(ResizedFont(st.resizeStart.fontSize, totalDx)));
          UpdateElement(st, id, Patch(None, None, None, None, Some(styles)), false)
        else
          UpdateElement(st, id, Patch(None, None, Some(ResizedWidth(st.resizeStart.width, totalDx)), None, None), false)
    else if st.tool == DrawTool && st.currentPath != [] then
      st.(currentPath := st.currentPath + [CanvasPoint(st, rect, clientX, clientY)])
    else if st.tool == EraserTool && buttons == 1 then
      st.(elements := Erase(st.elements, target))
    else st
  }

  /** `handleMouseUp` (also on leaving the canvas): panning and resizing stop;
      a stroke of at least two points becomes a 'draw' element at the end; the
      current stroke is cleared whenever the draw tool is active. No snapshot. */
  function MouseUp(st: State, id: int): (r: State)
    ensures !r.panning && !r.resizing
    ensures r.history == st.history
    ensures st.tool == DrawTool ==> r.currentPath == []
    ensures st.tool != DrawTool ==> r.currentPath == st.currentPath && r.elements == st.elements
    ensures st.tool == DrawTool && |st.currentPath| > 1 ==>
      r.elements == st.elements + [Element(id, "draw", Stroke(st.currentPath), 0.0, 0.0, 0.0, 0.0,
                                           Styles(Some(|st.elements| + 1), None, Some(st.drawingColor), Some(st.drawingWidth)))]
    ensures !(st.tool == DrawTool && |st.currentPath| > 1) ==> r.elements == st.elements
    ensures r == st.(panning := false, resizing := false, elements := r.elements, currentPath := r.currentPath)
    ensures Inv(st) ==> Inv(r)
  {
    var s := st.(panning := false, resizing := false);
    if st.tool == DrawTool && |st.currentPath| > 1 then
      var stroke := Element(id, "draw", Stroke(st.currentPath), 0.0, 0.0, 0.0, 0.0,
                            Styles(Some(|st.elements| + 1), None, Some(st.drawingColor), Some(st.drawingWidth)));
      s.(elements := st.elements + [stroke], currentPath := [])
    else if st.tool == DrawTool then s.(currentPath := [])
    else s
  }

  /** One command of an SVG path. */
  datatype PathCommand = MoveTo(p: Point) | LineTo(p: Point)

  /** `renderPath`: nothing for fewer than two points, otherwise a move to the
      first point and a line to each later one. */
  function RenderPath(points: seq<Point>): (r: Option<seq<PathCommand>>)
    ensures r.None? <==> |points| < 2
    ensures r.Some? ==> |r.value| == |points| && r.value[0] == MoveTo(points[0])
    ensures r.Some? ==> forall i :: 1 <= i < |points| ==> r.value[i] == LineTo(points[i])
  {
    if |points| < 2 then None
    else Some([MoveTo(points[0])] + seq(|points| - 1, i requires 0 <= i < |points| - 1 => LineTo(points[i + 1])))
  }

  /** The points a path visits. */
  function PathPoints(cmds: seq<PathCommand>): (r: seq<Point>)
    ensures |r| == |cmds|
    ensures forall i :: 0 <= i < |cmds| ==> r[i] == cmds[i].p
  {
    seq(|cmds|, i requires 0 <= i < |cmds| => cmds[i].p)
  }

  /** A rendered stroke passes through exactly its points, in order. */
  lemma RenderPathVisitsPoints(points: seq<Point>)
    requires |points| >= 2
    ensures PathPoints(RenderPath(points).value) == points
  {
  }

  /** A click on a rendered element selects it, and stops there. With the
      eraser its handler returns before stopping the click, so the click
      reaches the canvas, whose handler clears the selection. Nothing but the
      selection changes. */
  function ClickElement(st: State, id: int): (r: State)
    ensures r.elements == st.elements && r.history == st.history
    ensures r.tool == st.tool && r.scale == st.scale && r.currentPath == st.currentPath
    ensures r.selectedId.Some? <==> st.tool != EraserTool
    ensures r.selectedId.Some? ==> r.selectedId.value == id
  {
    if st.tool == EraserTool then st.(selectedId := None) else st.(selectedId := Some(id))
  }

  /** The user's actions in the editor, each named after the handler it runs. */
  datatype Event =
      // the 'text' button (:335)
    | AddText(textId: int, textViewport: Viewport)
      // the media file input (:466)
    | Upload(mime: string, url: string, uploadId: int, uploadViewport: Viewport)
      // a drag's `onStop` (:396) and the text field's `onChange` (:418)
    | Update(updateId: int, patch: Patch, saveHistory: bool)
      // an element's delete button (:439)
    | DeleteButton(deleteId: int)
      // Ctrl+Z (:70-77) and the undo button (:329)
    | UndoKey
      // the resize handle's `onMouseDown` (:435)
    | ResizeHandle(element: Element, startX: real, startY: real)
      // the canvas `onMouseDown` (:375)
    | Down(button: int, downX: real, downY: real, downRect: Rect, downTarget: Option<string>)
      // the canvas `onMouseMove` (:376)
    | Move(moveX: real, moveY: real, moveRect: Rect, buttons: int, moveTarget: Option<string>)
      // the canvas `onMouseUp` (:377) and `onMouseLeave` (:378), which run the same handler
    | Up(strokeId: int)
      // the wheel listener (:82-102)
    | Wheel(altKey: bool, deltaY: real)
      // the three tool buttons (:317-319)
    | PickTool(picked: Tool)
      // the colour picker (:324)
    | PickColor(color: string)
      // the stroke-width field (:325), as the number `Number` reads from it: an empty field reads 0
    | PickWidth(width: real)
      // a click on a rendered element (:409-412)
    | ClickElement(clickedId: int)
      // a click on the bare canvas (:379)
    | ClickCanvas

  function Step(st: State, ev: Event): (r: State)
    requires Inv(st)
    ensures Inv(r)
  {
    match ev
    case AddText(id, vp) => AddElement(st, "text", None, id, vp)
    case Upload(mime, url, id, vp) => UploadMedia(st, mime, url, id, vp)
    case Update(id, p, save) => UpdateElement(st, id, p, save)
    case DeleteButton(id) => DeleteElement(st, id)
    case UndoKey => Undo(st)
    case ResizeHandle(e, x, y) => BeginResize(st, e, x, y)
    case Down(b, x, y, rect, t) => MouseDown(st, b, x, y, rect, t)
    case Move(x, y, rect, b, t) => MouseMove(st, x, y, rect, b, t)
    case Up(id) => MouseUp(st, id)
    case Wheel(alt, dy) => Zoom(st, alt, dy)
    case PickTool(t) => st.(tool := t)
    case PickColor(c) => st.(drawingColor := c)
    case PickWidth(w) => st.(drawingWidth := w)
    case ClickElement(id) => ClickElement(st, id)
    case ClickCanvas => st.(selectedId := None)
  }

  /** Any run of events from a loaded project keeps at most 20 snapshots and a
      scale within [0.1, 5], so the canvas arithmetic never divides by zero. */
  function Replay(st: State, events: seq<Event>): (r: State)
    requires Inv(st)
    ensures Inv(r)
    ensures |r.history| <= MaxHistory && MinScale <= r.scale <= MaxScale
    decreases |events|
  {
    if events == [] then st else Replay(Step(st, events[0]), events[1..])
  }

  // The component as written. `canvasRef` is created but never attached to an
  // element, so `canvasRef.current` stays null: reading the canvas rectangle
  // throws, and the wheel listener is never added. The handlers above are the
  // corrected ones, with the ref bound to the canvas.

  /** `handleMouseDown` as written: a draw press records its snapshot and then
      throws on the missing canvas, so no stroke starts. */
  function MouseDownAsWritten(st: State, button: int, clientX: real, clientY: real, rect: Rect,
                              target: Option<string>): (r: State)
    requires Inv(st)
    ensures Inv(r)
    ensures r.currentPath == st.currentPath && r.scale == st.scale && r.tool == st.tool
    ensures !st.resizing && button == 0 && st.tool == DrawTool ==> r == Snapshot(st)
    ensures !(!st.resizing && button == 0 && st.tool == DrawTool) ==>
      r == MouseDown(st, button, clientX, clientY, rect, target)
  {
    if !st.resizing && button == 0 && st.tool == DrawTool then Snapshot(st)
    else MouseDown(st, button, clientX, clientY, rect, target)
  }

  /** `handleMouseMove` as written: extending a stroke would throw on the
      missing canvas, so that branch changes nothing; the others are as in the
      corrected handler, and none of them touches the stroke. */
  function MouseMoveAsWritten(st: State, clientX: real, clientY: real, rect: Rect, buttons: int,
                              target: Option<string>): (r: State)
    requires Inv(st)
    ensures Inv(r)
    ensures r.currentPath == st.currentPath && r.scale == st.scale && r.tool == st.tool
    ensures r.history == st.history
    ensures !st.panning && !(st.resizing && HasSelection(st)) && st.tool == DrawTool && st.currentPath != [] ==>
      r == st
    ensures !(!st.panning && !(st.resizing && HasSelection(st)) && st.tool == DrawTool && st.currentPath != []) ==>
      r == MouseMove(st, clientX, clientY, rect, buttons, target)
  {
    if !st.panning && !(st.resizing && HasSelection(st)) && st.tool == DrawTool && st.currentPath != [] then st
    else MouseMove(st, clientX, clientY, rect, buttons, target)
  }

  /** One event as the component handles it: the wheel does nothing. */
  function StepAsWritten(st: State, ev: Event): (r: State)
    requires Inv(st)
    ensures Inv(r)
    ensures r.scale == st.scale
    ensures st.currentPath == [] ==> r.currentPath == []
    ensures ev.Wheel? ==> r == st
  {
    match ev
    case Down(b, x, y, rect, t) => MouseDownAsWritten(st, b, x, y, rect, t)
    case Move(x, y, rect, b, t) => MouseMoveAsWritten(st, x, y, rect, b, t)
    case Wheel(_, _) => st
    case _ => StepKeepsView(st, ev); Step(st, ev)
  }

  /** The events other than the canvas mouse handlers and the wheel keep the
      scale and never start a stroke. */
  lemma StepKeepsView(st: State, ev: Event)
    requires Inv(st) && !ev.Down? && !ev.Move? && !ev.Wheel?
    ensures Step(st, ev).scale == st.scale
    ensures st.currentPath == [] ==> Step(st, ev).currentPath == []
  {
    match ev {
      case AddText(id, vp) =>
      case Upload(mime, url, id, vp) =>
      case Update(id, p, save) =>
      case DeleteButton(id) =>
      case UndoKey =>
      case ResizeHandle(e, x, y) =>
      case Up(id) =>
      case PickTool(t) =>
      case PickColor(c) =>
      case PickWidth(w) =>
      case ClickElement(id) =>
      case ClickCanvas =>
    }
  }

  /** Any run of events as the component handles them never changes the scale
      and never holds a stroke in progress. */
  function ReplayAsWritten(st: State, events: seq<Event>): (r: State)
    requires Inv(st)
    ensures Inv(r)
    ensures r.scale == st.scale
    ensures st.currentPath == [] ==> r.currentPath == []
    decreases |events|
  {
    if events == [] then st else ReplayAsWritten(StepAsWritten(st, events[0]), events[1..])
  }

  /** Every 'draw' element of the list has one of the ids `ids`. */
  predicate DrawsIn(list: seq<Element>, ids: set<int>) {
    forall e :: e in list && e.kind == "draw" ==> e.id in ids
  }

  /** The same for the element list and every snapshot of the history. */
  predicate DrawsFrom(st: State, ids: set<int>) {
    DrawsIn(st.elements, ids) && forall h :: h in st.history ==> DrawsIn(h, ids)
  }

  /** A recorded history holds snapshots of the old history and the current list. */
  lemma RecordMembers(history: seq<seq<Element>>, elements: seq<Element>)
    ensures forall h :: h in Record(history, elements) ==> h in history || h == elements
  {
    var r := Record(history, elements);
    forall h | h in r ensures h in history || h == elements {
      var i :| 0 <= i < |r| && r[i] == h;
      if i < |r| - 1 {
        assert h == r[..|r| - 1][i];
      }
    }
  }

  /** A snapshot keeps the 'draw' ids within `ids`. */
  lemma SnapshotKeepsDraws(st: State, ids: set<int>)
    requires DrawsFrom(st, ids)
    ensures DrawsFrom(Snapshot(st), ids)
  {
    RecordMembers(st.history, st.elements);
  }

  /** No handler as written brings in a 'draw' element with a new id. */
  lemma StepKeepsDraws(st: State, ev: Event, ids: set<int>)
    requires Inv(st) && st.currentPath == [] && DrawsFrom(st, ids)
    ensures DrawsFrom(StepAsWritten(st, ev), ids)
  {
    match ev {
      case AddText(id, vp) =>
        AddKeepsDraws(st, id, vp, ids);
      case Upload(mime, url, id, vp) =>
        UploadKeepsDraws(st, mime, url, id, vp, ids);
      case Update(id, patch, save) =>
        UpdateKeepsDraws(st, id, patch, save, ids);
      case DeleteButton(id) =>
        SnapshotKeepsDraws(st, ids);
      case UndoKey =>
        UndoKeepsDraws(st, ids);
      case ResizeHandle(e, x, y) =>
        SnapshotKeepsDraws(st, ids);
      case Down(b, x, y, rect, t) =>
        DownKeepsDraws(st, b, x, y, rect, t, ids);
      case Move(x, y, rect, b, t) =>
        MoveKeepsDraws(st, x, y, rect, b, t, ids);
      case _ =>
        QuietKeepsList(st, ev);
    }
  }

  /** A release without a stroke in progress, the wheel as written, the
      pickers and the clicks leave the list and the history alone. */
  lemma QuietKeepsList(st: State, ev: Event)
    requires Inv(st) && st.currentPath == []
    requires ev.Up? || ev.Wheel? || ev.PickTool? || ev.PickColor? || ev.PickWidth? ||
             ev.ClickElement? || ev.ClickCanvas?
    ensures StepAsWritten(st, ev).elements == st.elements
    ensures StepAsWritten(st, ev).history == st.history
  {
  }

  /** A new text element is not a stroke. */
  lemma AddKeepsDraws(st: State, id: int, vp: Viewport, ids: set<int>)
    requires Inv(st) && DrawsFrom(st, ids)
    ensures DrawsFrom(AddElement(st, "text", None, id, vp), ids)
  {
    SnapshotKeepsDraws(st, ids);
  }

  /** A press as written snapshots, pans or erases. */
  lemma DownKeepsDraws(st: State, button: int, clientX: real, clientY: real, rect: Rect,
                       target: Option<string>, ids: set<int>)
    requires Inv(st) && DrawsFrom(st, ids)
    ensures DrawsFrom(MouseDownAsWritten(st, button, clientX, clientY, rect, target), ids)
  {
    SnapshotKeepsDraws(st, ids);
  }

  /** A move as written pans, resizes or erases. */
  lemma MoveKeepsDraws(st: State, clientX: real, clientY: real, rect: Rect, buttons: int,
                       target: Option<string>, ids: set<int>)
    requires Inv(st) && DrawsFrom(st, ids)
    ensures DrawsFrom(MouseMoveAsWritten(st, clientX, clientY, rect, buttons, target), ids)
  {
    if !st.panning && st.resizing && HasSelection(st) {
      MoveResizeKeepsDraws(st, clientX, clientY, rect, buttons, target, ids);
    }
  }

  /** An upload adds an 'image' or 'video' element after two snapshots. */
  lemma UploadKeepsDraws(st: State, mime: string, url: string, id: int, vp: Viewport, ids: set<int>)
    requires Inv(st) && DrawsFrom(st, ids)
    ensures DrawsFrom(UploadMedia(st, mime, url, id, vp), ids)
  {
    SnapshotKeepsDraws(st, ids);
    RecordMembers(Record(st.history, st.elements), st.elements);
  }

  /** Undo takes its list from the history. */
  lemma UndoKeepsDraws(st: State, ids: set<int>)
    requires DrawsFrom(st, ids)
    ensures DrawsFrom(Undo(st), ids)
  {
    if st.history != [] {
      assert st.history[|st.history| - 1] in st.history;
      forall h | h in Undo(st).history ensures DrawsIn(h, ids) {
        assert h in st.history[..|st.history| - 1];
      }
    }
  }

  /** An update keeps every element's id and kind. */
  lemma UpdateKeepsDraws(st: State, id: int, p: Patch, save: bool, ids: set<int>)
    requires DrawsFrom(st, ids)
    ensures DrawsFrom(UpdateElement(st, id, p, save), ids)
  {
    var r := UpdateElement(st, id, p, save);
    RecordMembers(st.history, st.elements);
    forall e | e in r.elements && e.kind == "draw" ensures e.id in ids {
      var i :| 0 <= i < |r.elements| && r.elements[i] == e;
      assert st.elements[i] in st.elements;
    }
  }

  /** A resizing move is an update without a snapshot. */
  lemma MoveResizeKeepsDraws(st: State, clientX: real, clientY: real, rect: Rect, buttons: int,
                             target: Option<string>, ids: set<int>)
    requires Inv(st) && !st.panning && st.resizing && HasSelection(st) && DrawsFrom(st, ids)
    ensures DrawsFrom(MouseMoveAsWritten(st, clientX, clientY, rect, buttons, target), ids)
  {
    var id := st.selectedId.value;
    var totalDx := (clientX - st.dragStart.x) / st.scale;
    match FindElement(st.elements, id) {
      case None =>
      case Some(e) =>
        if e.kind == "text" {
          var styles := e.styles.(fontSize := Some(ResizedFont(st.resizeStart.fontSize, totalDx)));
          UpdateKeepsDraws(st, id, Patch(None, None, None, None, Some(styles)), false, ids);
        } else {
          UpdateKeepsDraws(st, id, Patch(None, None, Some(ResizedWidth(st.resizeStart.width, totalDx)), None, None), false, ids);
        }
    }
  }

  /** As written, no run of events ever adds a 'draw' element: every 'draw'
      element in the list or the history at the end was already there (by id)
      at the start, and the scale never changes. */
  lemma {:induction false} AsWrittenNeverDraws(st: State, events: seq<Event>, ids: set<int>)
    requires Inv(st) && st.currentPath == [] && DrawsFrom(st, ids)
    ensures DrawsFrom(ReplayAsWritten(st, events), ids)
    ensures ReplayAsWritten(st, events).scale == st.scale
    decreases |events|
  {
    if events != [] {
      StepKeepsDraws(st, events[0], ids);
      AsWrittenNeverDraws(StepAsWritten(st, events[0]), events[1..], ids);
    }
  }

  /** So a project loaded without strokes never gets one, and its scale stays 1. */
  lemma LoadedProjectNeverDraws(elements: seq<Element>, events: seq<Event>)
    requires forall e :: e in elements ==> e.kind != "draw"
    ensures var r := ReplayAsWritten(Init(elements), events);
      && (forall e :: e in r.elements ==> e.kind != "draw")
      && r.scale == 1.0
  {
    AsWrittenNeverDraws(Init(elements), events, {});
  }

  /** The stroke element a release adds for the points `points`. */
  function StrokeElement(st: State, id: int, points: seq<Point>): Element {
    Element(id, "draw", Stroke(points), 0.0, 0.0, 0.0, 0.0,
            Styles(Some(|st.elements| + 1), None, Some(st.drawingColor), Some(st.drawingWidth)))
  }

  /** With the ref bound, a press, a move and a release with the draw tool add
      one stroke through the two canvas points, after one snapshot. */
  lemma DrawGestureAddsStroke(st: State, rect: Rect, x0: real, y0: real, x1: real, y1: real, id: int)
    requires Inv(st) && st.tool == DrawTool && !st.resizing && !st.panning
    ensures var r := MouseUp(MouseMove(MouseDown(st, 0, x0, y0, rect, None), x1, y1, rect, 1, None), id);
      && r.elements == st.elements + [StrokeElement(st, id, [CanvasPoint(st, rect, x0, y0), CanvasPoint(st, rect, x1, y1)])]
      && r.history == Record(st.history, st.elements)
      && r.currentPath == []
  {
    var p0 := CanvasPoint(st, rect, x0, y0);
    var s1 := MouseDown(st, 0, x0, y0, rect, None);
    assert s1 == Snapshot(st).(currentPath := [p0]);
    var s2 := MouseMove(s1, x1, y1, rect, 1, None);
    assert CanvasPoint(s1, rect, x1, y1) == CanvasPoint(st, rect, x1, y1);
    assert s2 == s1.(currentPath := [p0, CanvasPoint(st, rect, x1, y1)]);
  }

  /** The colour and width picked before a stroke are the ones it is drawn with. */
  lemma PickedStyleReachesStroke(st: State, color: string, width: real, rect: Rect,
                                 x0: real, y0: real, x1: real, y1: real, id: int)
    requires Inv(st) && st.tool == DrawTool && !st.resizing && !st.panning
    ensures var s := Step(Step(st, PickColor(color)), PickWidth(width));
      var r := MouseUp(MouseMove(MouseDown(s, 0, x0, y0, rect, None), x1, y1, rect, 1, None), id);
      && |r.elements| == |st.elements| + 1
      && r.elements[|st.elements|].kind == "draw"
      && r.elements[|st.elements|].styles.stroke == Some(color)
      && r.elements[|st.elements|].styles.strokeWidth == Some(width)
  {
    var s := Step(Step(st, PickColor(color)), PickWidth(width));
    assert s == st.(drawingColor := color, drawingWidth := width);
    DrawGestureAddsStroke(s, rect, x0, y0, x1, y1, id);
  }

  /** As written, the same gesture records the snapshot and adds nothing. */
  lemma DrawGestureAsWritten(st: State, rect: Rect, x0: real, y0: real, x1: real, y1: real, id: int)
    requires Inv(st) && st.tool == DrawTool && !st.resizing && !st.panning && st.currentPath == []
    ensures var r := MouseUp(MouseMoveAsWritten(MouseDownAsWritten(st, 0, x0, y0, rect, None), x1, y1, rect, 1, None), id);
      && r.elements == st.elements
      && r.history == Record(st.history, st.elements)
      && r.currentPath == []
  {
    var s1 := MouseDownAsWritten(st, 0, x0, y0, rect, None);
    assert s1 == Snapshot(st);
    var s2 := MouseMoveAsWritten(s1, x1, y1, rect, 1, None);
    assert s2 == s1;
  }

  /** An Alt wheel of -1000 takes a fresh editor to scale 2 with the listener
      attached, and leaves it at 1 as written. */
  lemma AltWheelZooms(elements: seq<Element>)
    ensures Replay(Init(elements), [Wheel(true, -1000.0)]).scale == 2.0
    ensures ReplayAsWritten(Init(elements), [Wheel(true, -1000.0)]).scale == 1.0
  {
    assert [Wheel(true, -1000.0)][1..] == [];
  }
}

=== FILE: fix_db_paths.dfy ===
/** The path-normalisation script (server/fix_db_paths.js): stored URLs that
    point at the development server `localhost:5000` are cut back to the path
    after the host. */
module FixDbPaths {
  import opened Wrappers
  import opened JsString
  import opened Store

  const Marker := "localhost:5000"

  /** The script's guard `value && value.includes('localhost:5000')`. */
  predicate Marked(s: string) {
    s != "" && Contains(s, Marker)
  }

  predicate MarkedOpt(v: Option<string>) {
    v.Some? && Marked(v.value)
  }

  /** `value.split('localhost:5000')[1]` for a marked value: the text after the
      first marker, up to the next marker or the end. */
  function Cut(s: string): (r: string)
    requires Marked(s)
    ensures !Contains(r, Marker)
    ensures |r| < |s|
    ensures exists i {:trigger FirstOccurrence(s, Marker, i)} ::
      && FirstOccurrence(s, Marker, i)
      && i + |Marker| + |r| <= |s|
      && s[i + |Marker|..i + |Marker| + |r|] == r
      && (i + |Marker| + |r| == |s| || OccursAt(s, Marker, i + |Marker| + |r|))
  {
    SplitSecond(s, Marker).value
  }

  /** The value the script leaves in a field: cut when marked, as it was otherwise. */
  function FixText(s: string): (r: string)
    ensures !Marked(r)
    ensures !Marked(s) ==> r == s
    ensures Marked(s) ==> |r| < |s|
  {
    if Marked(s) then Cut(s) else s
  }

  function FixOpt(v: Option<string>): (r: Option<string>)
    ensures r.Some? <==> v.Some?
    ensures !MarkedOpt(r)
    ensures !MarkedOpt(v) ==> r == v
  {
    if MarkedOpt(v) then Some(Cut(v.value)) else v
  }

  /** A development URL becomes its path: whatever comes before the host
      (a scheme such as 'http://', which holds no 'l'), the value is cut to
      the text after the host, provided that text names no second host. */
  lemma CutDevUrl(origin: string, path: string)
    requires Marker[0] !in origin
    requires !Contains(path, Marker)
    ensures Marked(origin + Marker + path)
    ensures FixText(origin + Marker + path) == path
  {
    var s := origin + Marker + path;
    assert s[|origin|..|origin| + |Marker|] == Marker;
    assert OccursAt(s, Marker, |origin|);
    forall k | 0 <= k < |origin| ensures !OccursAt(s, Marker, k) {
      NoMarkerInOrigin(origin, Marker + path, k);
    }
    SplitSecondOfSingle(origin, Marker, path);
  }

  /** No occurrence of the host starts inside an origin without an 'l'. */
  lemma NoMarkerInOrigin(origin: string, rest: string, k: int)
    requires Marker[0] !in origin && 0 <= k < |origin|
    ensures !OccursAt(origin + rest, Marker, k)
  {
    assert (origin + rest)[k] == origin[k];
  }

  /** Step 1: the update for a project, if any: its new thumbnail. */
  function ProjectUpdate(p: Project): (u: Option<string>)
    ensures u.Some? <==> MarkedOpt(p.thumbnail)
    ensures u.Some? ==> !Contains(u.value, Marker) && |u.value| < |p.thumbnail.value|
  {
    if MarkedOpt(p.thumbnail) then Some(Cut(p.thumbnail.value)) else None
  }

  /** Step 2: the `updateData` of an archive item; a present field is one the
      update writes. */
  datatype ArchivePatch = ArchivePatch(fileUrl: Option<string>, thumbnail: Option<string>)

  /** The update sent for an archive item; None when nothing changed, in which
      case no update is sent. */
  function ArchiveUpdate(a: ArchiveItem): (u: Option<ArchivePatch>)
    ensures u.Some? <==> Marked(a.fileUrl) || MarkedOpt(a.thumbnail)
    ensures u.Some? ==> (u.value.fileUrl.Some? <==> Marked(a.fileUrl))
    ensures u.Some? ==> (u.value.thumbnail.Some? <==> MarkedOpt(a.thumbnail))
    ensures u.Some? && u.value.fileUrl.Some? ==> !Contains(u.value.fileUrl.value, Marker)
    ensures u.Some? && u.value.thumbnail.Some? ==> !Contains(u.value.thumbnail.value, Marker)
  {
    var fileUrl := if Marked(a.fileUrl) then Some(Cut(a.fileUrl)) else None;
    var thumbnail := if MarkedOpt(a.thumbnail) then Some(Cut(a.thumbnail.value)) else None;
    if fileUrl.Some? || thumbnail.Some? then Some(ArchivePatch(fileUrl, thumbnail)) else None
  }

  /** Step 3: the new content of a canvas element, if any. Only images are read. */
  function ElementUpdate(e: CanvasElement): (u: Option<string>)
    ensures u.Some? <==> e.kind == "image" && Marked(e.content)
    ensures u.Some? ==> !Contains(u.value, Marker)
  {
    if e.kind == "image" && Marked(e.content) then Some(Cut(e.content)) else None
  }

  /** A project after the script: only the thumbnail is fixed. */
  function ApplyProject(p: Project): (r: Project)
    ensures r == p.(thumbnail := FixOpt(p.thumbnail))
  {
    match ProjectUpdate(p)
    case None => p
    case Some(t) => p.(thumbnail := Some(t))
  }

  /** An archive item after the script: the file URL and the thumbnail are
      fixed independently; everything else is kept. */
  function ApplyArchive(a: ArchiveItem): (r: ArchiveItem)
    ensures r == a.(fileUrl := FixText(a.fileUrl), thumbnail := FixOpt(a.thumbnail))
  {
    match ArchiveUpdate(a)
    case None => a
    case Some(patch) =>
      a.(fileUrl := patch.fileUrl.GetOr(a.fileUrl),
         thumbnail := if patch.thumbnail.Some? then patch.thumbnail else a.thumbnail)
  }

  /** A canvas element after the script: the content of an image is fixed;
      other kinds are not read. */
  function ApplyElement(e: CanvasElement): (r: CanvasElement)
    ensures r == if e.kind == "image" then e.(content := FixText(e.content)) else e
  {
    match ElementUpdate(e)
    case None => e
    case Some(c) => e.(content := c)
  }

  function ApplyProjects(rows: seq<Project>): (r: seq<Project>)
    ensures |r| == |rows| && forall i :: 0 <= i < |rows| ==> r[i] == ApplyProject(rows[i])
  {
    seq(|rows|, i requires 0 <= i < |rows| => ApplyProject(rows[i]))
  }

  function ApplyArchives(rows: seq<ArchiveItem>): (r: seq<ArchiveItem>)
    ensures |r| == |rows| && forall i :: 0 <= i < |rows| ==> r[i] == ApplyArchive(rows[i])
  {
    seq(|rows|, i requires 0 <= i < |rows| => ApplyArchive(rows[i]))
  }

  function ApplyElements(rows: seq<CanvasElement>): (r: seq<CanvasElement>)
    ensures |r| == |rows| && forall i :: 0 <= i < |rows| ==> r[i] == ApplyElement(rows[i])
  {
    seq(|rows|, i requires 0 <= i < |rows| => ApplyElement(rows[i]))
  }

  /** No field the script reads still points at the development server. */
  predicate Normalized(db: Db) {
    && (forall p :: p in db.projects ==> !MarkedOpt(p.thumbnail))
    && (forall a :: a in db.archive ==> !Marked(a.fileUrl) && !MarkedOpt(a.thumbnail))
    && (forall e :: e in db.elements && e.kind == "image" ==> !Marked(e.content))
  }

  /** The whole script: projects, then archive items, then image elements. */
  function Run(db: Db): (r: Db)
    ensures Normalized(r)
    ensures r.nextProjectId == db.nextProjectId && r.nextElementId == db.nextElementId
    ensures r.nextArchiveId == db.nextArchiveId
    ensures |r.projects| == |db.projects| && |r.archive| == |db.archive| && |r.elements| == |db.elements|
    ensures forall i :: 0 <= i < |db.projects| ==>
      r.projects[i] == db.projects[i].(thumbnail := FixOpt(db.projects[i].thumbnail))
    ensures forall i :: 0 <= i < |db.archive| ==>
      r.archive[i] == db.archive[i].(fileUrl := FixText(db.archive[i].fileUrl),
                                     thumbnail := FixOpt(db.archive[i].thumbnail))
    ensures forall i :: 0 <= i < |db.elements| ==>
      r.elements[i] == if db.elements[i].kind == "image"
                       then db.elements[i].(content := FixText(db.elements[i].content))
                       else db.elements[i]
  {
    var r := Db(ApplyProjects(db.projects), ApplyElements(db.elements), ApplyArchives(db.archive),
                db.nextProjectId, db.nextElementId, db.nextArchiveId);
    forall p | p in r.projects ensures !MarkedOpt(p.thumbnail) {
      var i :| 0 <= i < |r.projects| && r.projects[i] == p;
    }
    forall a | a in r.archive ensures !Marked(a.fileUrl) && !MarkedOpt(a.thumbnail) {
      var i :| 0 <= i < |r.archive| && r.archive[i] == a;
    }
    forall e | e in r.elements && e.kind == "image" ensures !Marked(e.content) {
      var i :| 0 <= i < |r.elements| && r.elements[i] == e;
    }
    r
  }

  /** A record the script finds nothing to fix in is left exactly as it was. */
  lemma RunKeepsUnmarked(db: Db)
    ensures forall i :: 0 <= i < |db.projects| && !MarkedOpt(db.projects[i].thumbnail) ==>
      Run(db).projects[i] == db.projects[i]
    ensures forall i :: 0 <= i < |db.archive| && !Marked(db.archive[i].fileUrl) && !MarkedOpt(db.archive[i].thumbnail) ==>
      Run(db).archive[i] == db.archive[i]
    ensures forall i :: 0 <= i < |db.elements| && (db.elements[i].kind != "image" || !Marked(db.elements[i].content)) ==>
      Run(db).elements[i] == db.elements[i]
  {
  }

  /** A second run finds nothing left to change. */
  lemma RunIdempotent(db: Db)
    ensures Run(Run(db)) == Run(db)
  {
    var r := Run(db);
    var r2 := Run(r);
    RunKeepsUnmarked(r);
    assert r2.projects == r.projects;
    assert r2.archive == r.archive;
    assert r2.elements == r.elements;
  }

  /** The script keeps every key, slug and owner, so the database invariants hold after it. */
  lemma RunKeepsValid(db: Db)
    requires Valid(db)
    ensures Valid(Run(db))
  {
    var r := Run(db);
    ProjectKeysKept(db.projects, r.projects, db.nextProjectId);
    ArchiveKeysKept(db.archive, r.archive, db.nextArchiveId);
    ElementKeysKept(db.elements, r.elements, db.nextElementId);
    OwnersKept(db.projects, db.elements, r.projects, r.elements);
  }
}

=== FILE: js_string.dfy ===
/** The JavaScript string built-ins the portfolio code relies on, on `seq<char>`.
    Each function states the built-in's behaviour for the inputs the code gives it. */
module JsString {
  import opened Wrappers

  /** `s.startsWith(p)` */
  predicate StartsWith(s: string, p: string) {
    |p| <= |s| && s[..|p|] == p
  }

  /** `s.endsWith(p)` */
  predicate EndsWith(s: string, p: string) {
    |p| <= |s| && s[|s| - |p|..] == p
  }

  /** `sub` occurs in `s` starting at index `i`. */
  predicate OccursAt(s: string, sub: string, i: int) {
    0 <= i && i + |sub| <= |s| && s[i..i + |sub|] == sub
  }

  /** `s.includes(sub)` */
  predicate Contains(s: string, sub: string) {
    exists i :: 0 <= i <= |s| && OccursAt(s, sub, i)
  }

  /** `s.indexOf(sub, from)`: the first occurrence of `sub` at or after `from`. */
  function IndexOfFrom(s: string, sub: string, from: nat): (r: Option<nat>)
    ensures r.Some? ==> from <= r.value && OccursAt(s, sub, r.value)
    ensures forall k :: from <= k && (r.None? || k < r.value) ==> !OccursAt(s, sub, k)
    decreases |s| - from
  {
    if from + |sub| > |s| then None
    else if s[from..from + |sub|] == sub then Some(from)
    else IndexOfFrom(s, sub, from + 1)
  }

  /** `sub` occurs at `i` and nowhere before it. */
  predicate FirstOccurrence(s: string, sub: string, i: int) {
    OccursAt(s, sub, i) && forall k :: 0 <= k < i ==> !OccursAt(s, sub, k)
  }

  /** `s.split(sep)[1]` for a non-empty separator: the text after the first
      occurrence of `sep`, up to the next occurrence or to the end of `s`.
      None stands for `undefined`, the result when `sep` does not occur. */
  function SplitSecond(s: string, sep: string): (r: Option<string>)
    requires sep != ""
    ensures r.Some? <==> Contains(s, sep)
    ensures r.Some? ==> !Contains(r.value, sep)
    ensures r.Some? ==>
      exists i {:trigger FirstOccurrence(s, sep, i)} ::
        && FirstOccurrence(s, sep, i)
        && i + |sep| + |r.value| <= |s|
        && s[i + |sep|..i + |sep| + |r.value|] == r.value
        && (i + |sep| + |r.value| == |s| || OccursAt(s, sep, i + |sep| + |r.value|))
  {
    match IndexOfFrom(s, sep, 0)
    case None => None
    case Some(i) =>
      var start := i + |sep|;
      var next := IndexOfFrom(s, sep, start);
      var end := if next.Some? then next.value else |s|;
      assert start <= end <= |s|;
      NoOccurrenceInGap(s, sep, start, end);
      assert 0 <= i <= |s| && FirstOccurrence(s, sep, i);
      assert end == |s| || OccursAt(s, sep, end);
      Some(s[start..end])
  }

  /** With one separator before a tail that holds none, the split's second
      piece is the whole tail. */
  lemma SplitSecondOfSingle(head: string, sep: string, tail: string)
    requires sep != ""
    requires forall k :: 0 <= k < |head| ==> !OccursAt(head + sep + tail, sep, k)
    requires !Contains(tail, sep)
    ensures SplitSecond(head + sep + tail, sep) == Some(tail)
  {
    OccursAfterHead(head + sep, tail);
    OccursAfterHead(head, sep);
    OccursExtends(head + sep, tail, sep, |head|);
    SplitSecondAfterLast(head + sep + tail, sep, |head|);
  }

  /** When the first occurrence is also the last, the split's second piece
      is everything after it. */
  lemma SplitSecondAfterLast(s: string, sep: string, p: int)
    requires sep != ""
    requires FirstOccurrence(s, sep, p)
    requires !Contains(s[p + |sep|..], sep)
    ensures SplitSecond(s, sep) == Some(s[p + |sep|..])
  {
    IndexOfFirst(s, sep, p);
    NoLaterOccurrence(s, sep, p + |sep|);
    assert s[p + |sep|..|s|] == s[p + |sep|..];
  }

  /** A search that starts where no occurrence is left finds nothing. */
  lemma NoLaterOccurrence(s: string, sep: string, q: nat)
    requires q <= |s| && !Contains(s[q..], sep)
    ensures IndexOfFrom(s, sep, q).None?
  {
    var n := IndexOfFrom(s, sep, q);
    if n.Some? {
      OccursInSuffix(s, sep, q, n.value);
    }
  }

  /** An occurrence at or after `q` is an occurrence in the suffix from `q`. */
  lemma OccursInSuffix(s: string, sub: string, q: nat, j: int)
    requires q <= j && OccursAt(s, sub, j)
    ensures OccursAt(s[q..], sub, j - q)
  {
    assert s[q..][j - q..j - q + |sub|] == s[j..j + |sub|];
  }

  /** The second part of a concatenation occurs right after the first. */
  lemma OccursAfterHead(head: string, tail: string)
    ensures OccursAt(head + tail, tail, |head|)
    ensures (head + tail)[|head|..] == tail
  {
    assert (head + tail)[|head|..|head| + |tail|] == tail;
  }

  /** An occurrence stays where it is when text is appended. */
  lemma OccursExtends(s: string, t: string, sub: string, i: int)
    requires OccursAt(s, sub, i)
    ensures OccursAt(s + t, sub, i)
  {
    assert (s + t)[i..i + |sub|] == s[i..i + |sub|];
  }

  /** The first occurrence is the one `indexOf` finds. */
  lemma IndexOfFirst(s: string, sub: string, i: int)
    requires FirstOccurrence(s, sub, i)
    ensures IndexOfFrom(s, sub, 0) == Some(i)
  {
  }

  /** A stretch of `s` that contains no start of `sep` contains no `sep`. */
  lemma NoOccurrenceInGap(s: string, sep: string, lo: nat, hi: nat)
    requires sep != ""
    requires lo <= hi <= |s|
    requires forall k :: lo <= k < hi ==> !OccursAt(s, sep, k)
    ensures !Contains(s[lo..hi], sep)
  {
    forall k | 0 <= k <= hi - lo && OccursAt(s[lo..hi], sep, k)
      ensures false
    {
      var t := s[lo..hi];
      assert k + |sep| <= |t| && t[k..k + |sep|] == sep;
      var a, b := t[k..k + |sep|], s[lo + k..lo + k + |sep|];
      assert forall j :: 0 <= j < |sep| ==> a[j] == b[j];
      assert a == b;
      assert OccursAt(s, sep, lo + k);
    }
  }

  /** `s.split(c)[0]`: the text before the first `c`, or all of `s`. */
  function BeforeFirst(s: string, c: char): (r: string)
    ensures StartsWith(s, r)
    ensures c !in r
    ensures |r| < |s| ==> s[|r|] == c
  {
    if s == [] then []
    else if s[0] == c then []
    else [s[0]] + BeforeFirst(s[1..], c)
  }

  /** `s.lastIndexOf(c)` for one character: the position of its last occurrence. */
  function LastIndexOf(s: string, c: char): (r: Option<nat>)
    ensures r.None? <==> c !in s
    ensures r.Some? ==> r.value < |s| && s[r.value] == c && c !in s[r.value + 1..]
  {
    if s == [] then None
    else if s[|s| - 1] == c then Some(|s| - 1)
    else
      var t := s[..|s| - 1];
      var r := LastIndexOf(t, c);
      assert s == t + [s[|s| - 1]];
      LastIndexOfSnoc(t, s[|s| - 1], c, r);
      r
  }

  /** Appending a character other than `c` keeps the last occurrence of `c`. */
  lemma LastIndexOfSnoc(t: string, x: char, c: char, r: Option<nat>)
    requires x != c
    requires r.None? <==> c !in t
    requires r.Some? ==> r.value < |t| && t[r.value] == c && c !in t[r.value + 1..]
    ensures r.None? <==> c !in t + [x]
    ensures r.Some? ==> r.value < |t + [x]| && (t + [x])[r.value] == c && c !in (t + [x])[r.value + 1..]
  {
    if r.Some? {
      assert (t + [x])[r.value + 1..] == t[r.value + 1..] + [x];
    }
  }

  /** `toLowerCase` on one character, for ASCII and the basic Cyrillic block. */
  function LowerChar(c: char): char {
    if 'A' <= c <= 'Z' then (c as int + 32) as char
    else if '\U{0410}' <= c <= '\U{042F}' then (c as int + 32) as char
    else if '\U{0400}' <= c <= '\U{040F}' then (c as int + 80) as char
    else c
  }

  /** `s.toLowerCase()`, character by character. */
  function Lower(s: string): string {
    if s == [] then [] else [LowerChar(s[0])] + Lower(s[1..])
  }

  /** Lower-casing keeps the length and works position by position. */
  lemma {:induction false} LowerPointwise(s: string)
    ensures |Lower(s)| == |s|
    ensures forall i :: 0 <= i < |s| ==> Lower(s)[i] == LowerChar(s[i])
  {
    if s != [] {
      LowerPointwise(s[1..]);
    }
  }

  /** Lower-casing twice is lower-casing once. */
  lemma {:induction false} LowerIdempotent(s: string)
    ensures Lower(Lower(s)) == Lower(s)
  {
    if s != [] {
      LowerIdempotent(s[1..]);
      assert Lower(s)[1..] == Lower(s[1..]);
    }
  }

  /** `c` matches the regular-expression class `\s`. */
  predicate IsJsSpace(c: char) {
    || c == '\t' || c == '\n' || c == '\U{000B}' || c == '\U{000C}' || c == '\r' || c == ' '
    || c == '\U{00A0}' || c == '\U{1680}' || ('\U{2000}' <= c <= '\U{200A}')
    || c == '\U{2028}' || c == '\U{2029}' || c == '\U{202F}' || c == '\U{205F}'
    || c == '\U{3000}' || c == '\U{FEFF}'
  }

  /** Lower-casing never creates or removes whitespace. */
  lemma LowerKeepsSpace(c: char)
    ensures IsJsSpace(LowerChar(c)) <==> IsJsSpace(c)
  {
  }

  predicate NoSpace(s: string) {
    forall i :: 0 <= i < |s| ==> !IsJsSpace(s[i])
  }

  predicate AllSpace(s: string) {
    forall i :: 0 <= i < |s| ==> IsJsSpace(s[i])
  }

  /** The suffix of `s` after its leading whitespace. */
  function DropSpaces(s: string): (r: string)
    ensures |r| <= |s| && r == s[|s| - |r|..]
    ensures AllSpace(s[..|s| - |r|])
    ensures r == [] || !IsJsSpace(r[0])
  {
    if s != [] && IsJsSpace(s[0]) then
      var r := DropSpaces(s[1..]);
      DropSpacesStep(s, r);
      r
    else s
  }

  /** One more leading space in front keeps the suffix and extends the run. */
  lemma DropSpacesStep(s: string, r: string)
    requires s != [] && IsJsSpace(s[0])
    requires |r| <= |s[1..]| && r == s[1..][|s[1..]| - |r|..]
    requires AllSpace(s[1..][..|s[1..]| - |r|])
    ensures |r| <= |s| && r == s[|s| - |r|..]
    ensures AllSpace(s[..|s| - |r|])
  {
    var k := |s| - |r|;
    assert s[1..][k - 1..] == s[k..];
    forall i | 0 <= i < k ensures IsJsSpace(s[..k][i]) {
      if i > 0 {
        assert s[..k][i] == s[1..][..k - 1][i - 1];
      }
    }
  }

  /** `s.replace(/\s+/g, '-')`: every maximal run of whitespace becomes one '-'. */
  function DashRuns(s: string): string
    decreases |s|
  {
    if s == [] then []
    else if IsJsSpace(s[0]) then "-" + DashRuns(DropSpaces(s[1..]))
    else [s[0]] + DashRuns(s[1..])
  }

  /** The result of replacing whitespace runs holds no whitespace. */
  lemma {:induction false} DashRunsNoSpace(s: string)
    ensures NoSpace(DashRuns(s))
    decreases |s|
  {
    if s == [] {
    } else if IsJsSpace(s[0]) {
      DashRunsNoSpace(DropSpaces(s[1..]));
    } else {
      DashRunsNoSpace(s[1..]);
    }
  }

  /** Text without whitespace passes through unchanged. */
  lemma {:induction false} DashRunsKeepsWord(w: string)
    requires NoSpace(w)
    ensures DashRuns(w) == w
  {
    if w != [] {
      DashRunsKeepsWord(w[1..]);
    }
  }

  /** A word followed by the rest: the word is kept and the rest is processed on its own. */
  lemma {:induction false} DashRunsWord(w: string, t: string)
    requires NoSpace(w)
    ensures DashRuns(w + t) == w + DashRuns(t)
  {
    if w != [] {
      assert (w + t)[0] == w[0] && !IsJsSpace(w[0]);
      assert (w + t)[1..] == w[1..] + t;
      DashRunsWord(w[1..], t);
      assert w == [w[0]] + w[1..];
    } else {
      assert w + t == t;
    }
  }

  /** A maximal whitespace run becomes exactly one '-'. */
  lemma {:induction false} DashRunsRun(run: string, t: string)
    requires run != [] && AllSpace(run)
    requires t == [] || !IsJsSpace(t[0])
    ensures DashRuns(run + t) == "-" + DashRuns(t)
  {
    var s := run + t;
    assert s[0] == run[0] && IsJsSpace(s[0]);
    assert s[1..] == run[1..] + t;
    assert AllSpace(run[1..]) by {
      forall i | 0 <= i < |run[1..]| ensures IsJsSpace(run[1..][i]) {
        assert run[1..][i] == run[i + 1];
      }
    }
    DropAllSpaces(run[1..], t);
    assert DashRuns(s) == "-" + DashRuns(DropSpaces(s[1..]));
  }

  lemma {:induction false} DropAllSpaces(run: string, t: string)
    requires AllSpace(run)
    requires t == [] || !IsJsSpace(t[0])
    ensures DropSpaces(run + t) == t
  {
    if run != [] {
      assert (run + t)[1..] == run[1..] + t;
      DropAllSpaces(run[1..], t);
    } else {
      assert run + t == t;
    }
  }

  /** Replacing whitespace runs a second time changes nothing. */
  lemma DashRunsIdempotent(s: string)
    ensures DashRuns(DashRuns(s)) == DashRuns(s)
  {
    DashRunsNoSpace(s);
    DashRunsKeepsWord(DashRuns(s));
  }

  /** `parts.join(sep)` */
  function Join(parts: seq<string>, sep: string): string {
    if |parts| == 0 then ""
    else if |parts| == 1 then parts[0]
    else parts[0] + sep + Join(parts[1..], sep)
  }

  /** Appending a part appends the separator and the part. */
  lemma {:induction false} JoinSnoc(parts: seq<string>, x: string, sep: string)
    requires |parts| > 0
    ensures Join(parts + [x], sep) == Join(parts, sep) + sep + x
  {
    if |parts| == 1 {
      assert parts + [x] == [parts[0], x];
    } else {
      assert (parts + [x])[1..] == parts[1..] + [x];
      JoinSnoc(parts[1..], x, sep);
    }
  }

  predicate IsDigit(c: char) {
    '0' <= c <= '9'
  }

  function DigitChar(d: int): char
    requires 0 <= d < 10
  {
    ('0' as int + d) as char
  }

  function DigitValue(c: char): nat
    requires IsDigit(c)
  {
    c as int - '0' as int
  }

  /** The value of a run of decimal digits, most significant first. */
  function DigitsValue(ds: string): nat
    requires forall i :: 0 <= i < |ds| ==> IsDigit(ds[i])
  {
    if ds == [] then 0
    else DigitsValue(ds[..|ds| - 1]) * 10 + DigitValue(ds[|ds| - 1])
  }

  /** `String(n)` for an integer: its canonical decimal spelling. */
  function NatString(n: nat): (r: string)
    ensures r != []
    ensures forall i :: 0 <= i < |r| ==> IsDigit(r[i])
  {
    if n < 10 then [DigitChar(n)] else NatString(n / 10) + [DigitChar(n % 10)]
  }

  function IntString(n: int): string {
    if n < 0 then "-" + NatString(-n) else NatString(n)
  }

  /** The digits at the start of `s`. */
  function LeadingDigits(s: string): (r: string)
    ensures StartsWith(s, r)
    ensures forall i :: 0 <= i < |r| ==> IsDigit(r[i])
    ensures |r| < |s| ==> !IsDigit(s[|r|])
  {
    if s != [] && IsDigit(s[0]) then [s[0]] + LeadingDigits(s[1..]) else []
  }

  /** The text after an optional leading '-' or '+'. */
  function Unsigned(s: string): string {
    if s != [] && (s[0] == '-' || s[0] == '+') then s[1..] else s
  }

  /** Applies the sign `s` starts with to a magnitude read after it. */
  function Signed(s: string, v: Option<nat>): (r: Option<int>)
    ensures r.None? <==> v.None?
    ensures v.Some? && !(s != [] && s[0] == '-') ==> r == Some(v.value as int)
    ensures v.Some? && s != [] && s[0] == '-' ==> r == Some(-(v.value as int))
  {
    match v
    case None => None
    case Some(n) =>
      var m: int := n;
      Some(if s != [] && s[0] == '-' then -m else m)
  }

  /** `Number(s)` for the spellings of an integer in decimal: an optional sign,
      then digits, optionally followed by a '.' and nothing but zeros ('12.',
      '12.0', '.0'). NaN, and every spelling of a number that is not an
      integer, is None. */
  function JsNumber(s: string): Option<int> {
    Signed(s, IntegralDecimal(Unsigned(s)))
  }

  /** The value of an unsigned decimal literal whose fraction, if any, is zero. */
  function IntegralDecimal(u: string): Option<nat> {
    var ds := LeadingDigits(u);
    var rest := u[|ds|..];
    if rest == [] then
      if ds == [] then None else Some(DigitsValue(ds))
    else if rest[0] == '.' && (ds != [] || |rest| > 1) && ZeroFraction(rest[1..]) then
      Some(DigitsValue(ds))
    else None
  }

  predicate ZeroFraction(f: string) {
    forall i :: 0 <= i < |f| ==> f[i] == '0'
  }

  /** `parseInt(s)`: leading whitespace is skipped, an optional sign is read,
      then a number in base 16 after a '0x' or '0X' prefix, or else in base 10;
      the longest run of digits of that base is read, and NaN (None) is the
      result when that run is empty. */
  function JsParseInt(s: string): Option<int> {
    SignedDigits(DropSpaces(s))
  }

  /** The optional sign and the number `parseInt` reads once whitespace is skipped. */
  function SignedDigits(t: string): Option<int> {
    Signed(t, UnsignedInt(Unsigned(t)))
  }

  /** The prefix that makes `parseInt` read base 16. */
  predicate HexPrefixed(u: string) {
    |u| >= 2 && u[0] == '0' && (u[1] == 'x' || u[1] == 'X')
  }

  function UnsignedInt(u: string): Option<nat> {
    if HexPrefixed(u) then
      var hs := LeadingHexDigits(u[2..]);
      if hs == [] then None else Some(HexValue(hs))
    else
      var ds := LeadingDigits(u);
      if ds == [] then None else Some(DigitsValue(ds))
  }

  predicate IsHexDigit(c: char) {
    IsDigit(c) || 'a' <= c <= 'f' || 'A' <= c <= 'F'
  }

  function HexDigitValue(c: char): (v: nat)
    requires IsHexDigit(c)
    ensures v < 16
  {
    if IsDigit(c) then DigitValue(c)
    else if 'a' <= c <= 'f' then c as int - 'a' as int + 10
    else c as int - 'A' as int + 10
  }

  /** The value of a run of hexadecimal digits, most significant first. */
  function HexValue(hs: string): nat
    requires forall i :: 0 <= i < |hs| ==> IsHexDigit(hs[i])
  {
    if hs == [] then 0
    else HexValue(hs[..|hs| - 1]) * 16 + HexDigitValue(hs[|hs| - 1])
  }

  /** The hexadecimal digits at the start of `s`. */
  function LeadingHexDigits(s: string): (r: string)
    ensures StartsWith(s, r)
    ensures forall i :: 0 <= i < |r| ==> IsHexDigit(r[i])
    ensures |r| < |s| ==> !IsHexDigit(s[|r|])
  {
    if s != [] && IsHexDigit(s[0]) then [s[0]] + LeadingHexDigits(s[1..]) else []
  }

  /** The decimal spelling of a natural number reads back as that number. */
  lemma {:induction false} NatStringValue(n: nat)
    ensures DigitsValue(NatString(n)) == n
  {
    if n >= 10 {
      NatStringValue(n / 10);
      var r := NatString(n);
      assert r[..|r| - 1] == NatString(n / 10);
    }
  }

  /** `Number(String(n)) == n`: the spelling `String` gives an id is read back by `Number`. */
  lemma NumberOfString(n: int)
    ensures JsNumber(IntString(n)) == Some(n)
  {
    var ds := NatString(if n < 0 then -n else n);
    NatStringValue(if n < 0 then -n else n);
    LeadingDigitsOf(ds, []);
    assert ds + [] == ds;
    if n < 0 {
      assert Unsigned(IntString(n)) == ds;
    } else {
      assert Unsigned(IntString(n)) == ds;
    }
  }

  /** Distinct integers have distinct decimal spellings. */
  lemma IntStringInjective(a: int, b: int)
    ensures IntString(a) == IntString(b) <==> a == b
  {
    NumberOfString(a);
    NumberOfString(b);
  }

  /** The leading digits of a digit run followed by a non-digit are that run. */
  lemma {:induction false} LeadingDigitsOf(ds: string, tail: string)
    requires forall i :: 0 <= i < |ds| ==> IsDigit(ds[i])
    requires tail == [] || !IsDigit(tail[0])
    ensures LeadingDigits(ds + tail) == ds
  {
    if ds == [] {
      assert ds + tail == tail;
    } else {
      assert (ds + tail)[0] == ds[0];
      assert (ds + tail)[1..] == ds[1..] + tail;
      LeadingDigitsOf(ds[1..], tail);
      assert ds == [ds[0]] + ds[1..];
    }
  }

  /** The same for hexadecimal digits. */
  lemma {:induction false} LeadingHexDigitsOf(hs: string, tail: string)
    requires forall i :: 0 <= i < |hs| ==> IsHexDigit(hs[i])
    requires tail == [] || !IsHexDigit(tail[0])
    ensures LeadingHexDigits(hs + tail) == hs
  {
    if hs == [] {
      assert hs + tail == tail;
    } else {
      assert (hs + tail)[0] == hs[0];
      assert (hs + tail)[1..] == hs[1..] + tail;
      LeadingHexDigitsOf(hs[1..], tail);
      assert hs == [hs[0]] + hs[1..];
    }
  }

  /** `parseInt` reads the decimal digits a string starts with and ignores
      what follows, unless the string starts with the '0x' prefix. */
  lemma ParseIntReadsLeadingDigits(s: string, k: nat)
    requires 0 < k <= |s| && forall i :: 0 <= i < k ==> IsDigit(s[i])
    requires k == |s| || !IsDigit(s[k])
    requires !HexPrefixed(s)
    ensures JsParseInt(s) == Some(DigitsValue(s[..k]))
  {
    DigitIsNoSpace(s);
    assert Unsigned(s) == s;
    assert LeadingDigits(s) == s[..k] by {
      assert s == s[..k] + s[k..];
      LeadingDigitsOf(s[..k], s[k..]);
    }
  }

  /** After '0x' or '0X', `parseInt` reads the hexadecimal digits that follow,
      and gives NaN when there are none. */
  lemma ParseIntReadsHex(s: string, hs: string, tail: string)
    requires HexPrefixed(s) && s[2..] == hs + tail
    requires forall i :: 0 <= i < |hs| ==> IsHexDigit(hs[i])
    requires tail == [] || !IsHexDigit(tail[0])
    ensures JsParseInt(s) == if hs == [] then None else Some(HexValue(hs))
  {
    DigitIsNoSpace(s);
    assert Unsigned(s) == s;
    HexAfterPrefix(s, hs, tail);
  }

  /** So `parseInt('0x10')` is 16, where a decimal reading would stop at 0. */
  lemma ParseIntHexExample()
    ensures JsParseInt("0x10") == Some(16)
  {
    var s := "0x10";
    assert s[2..] == "10" + "";
    ParseIntReadsHex(s, "10", "");
    assert HexValue("10") == 16 by {
      assert "10"[..1] == "1";
    }
  }

  /** Past the prefix, the hexadecimal run is read. */
  lemma HexAfterPrefix(u: string, hs: string, tail: string)
    requires HexPrefixed(u) && u[2..] == hs + tail
    requires forall i :: 0 <= i < |hs| ==> IsHexDigit(hs[i])
    requires tail == [] || !IsHexDigit(tail[0])
    ensures UnsignedInt(u) == if hs == [] then None else Some(HexValue(hs))
  {
    LeadingHexDigitsOf(hs, tail);
  }

  /** A string that starts with a digit has no leading whitespace. */
  lemma DigitIsNoSpace(s: string)
    requires s != [] && IsDigit(s[0])
    ensures DropSpaces(s) == s
  {
  }

  /** `Number` rejects a digit run followed by a character that cannot go on a
      numeric literal: not a digit, a '.', an exponent mark or whitespace. */
  lemma NumberRejectsTail(ds: string, tail: string)
    requires ds != [] && forall i :: 0 <= i < |ds| ==> IsDigit(ds[i])
    requires tail != [] && !IsDigit(tail[0]) && tail[0] != '.'
    requires tail[0] != 'e' && tail[0] != 'E' && !IsJsSpace(tail[0])
    ensures JsNumber(ds + tail) == None
  {
    var s := ds + tail;
    assert s[0] == ds[0] && Unsigned(s) == s;
    LeadingDigitsOf(ds, tail);
    assert s[|ds|..] == tail;
  }

  /** `Number` reads a decimal point followed by zeros as an integer. */
  lemma NumberIgnoresZeroFraction(ds: string, zeros: string)
    requires ds != [] && forall i :: 0 <= i < |ds| ==> IsDigit(ds[i])
    requires ZeroFraction(zeros)
    ensures JsNumber(ds + "." + zeros) == Some(DigitsValue(ds))
  {
    var s := ds + "." + zeros;
    assert s[0] == ds[0] && Unsigned(s) == s;
    assert s == ds + ("." + zeros);
    LeadingDigitsOf(ds, "." + zeros);
    assert s[|ds|..] == "." + zeros;
    assert ("." + zeros)[1..] == zeros;
  }
}

=== FILE: migrate.dfy ===
/** The S3 migration script (server/migrate_to_s3.js): every file of the local
    uploads directory is uploaded to the bucket, and stored `/uploads/...`
    paths that now have a public URL are rewritten to it. The upload itself
    is a parameter: each directory entry says whether its upload succeeded. */
module Migrate {
  import opened Wrappers
  import opened JsString
  import opened Store

  /** `path.extname` of a file name without `/`: the text from the last `.`,
      or "" when there is no dot, the only dot starts the name, or the name is `..`. */
  function Extname(name: string): (r: string)
    ensures r == "" <==> '.' !in name || LastIndexOf(name, '.').value == 0 || name == ".."
    ensures r != "" ==> r[0] == '.' && '.' !in r[1..] && EndsWith(name, r) && |r| < |name|
  {
    match LastIndexOf(name, '.')
    case None => ""
    case Some(d) =>
      if d == 0 || name == ".." then ""
      else
        assert name[d..][1..] == name[d + 1..];
        name[d..]
  }

  /** The extension after the last dot of a name whose stem is not empty. */
  lemma ExtnameOfDotted(stem: string, ext: string)
    requires stem != "" && ext != "" && '.' !in ext
    ensures Extname(stem + "." + ext) == "." + ext
  {
    var name := stem + "." + ext;
    assert name[|stem|] == '.';
    assert name[|stem| + 1..] == ext;
    var d := LastIndexOf(name, '.').value;
    assert d == |stem|;
    assert name[d..] == "." + ext;
  }

  /** The MIME types of the migrated extensions, keyed by lower-case extension. */
  const MimeTypes: map<string, string> := map[
    ".png" := "image/png",
    ".jpg" := "image/jpeg",
    ".jpeg" := "image/jpeg",
    ".gif" := "image/gif",
    ".mp4" := "video/mp4",
    ".mov" := "video/quicktime",
    ".webm" := "video/webm",
    ".glb" := "model/gltf-binary"]

  const DefaultMime := "application/octet-stream"

  /** `getContentType`: the MIME type of the lower-cased extension, or the default. */
  function ContentType(name: string): (r: string)
    ensures Lower(Extname(name)) in MimeTypes ==> r == MimeTypes[Lower(Extname(name))]
    ensures Lower(Extname(name)) !in MimeTypes ==> r == DefaultMime
  {
    var ext := Lower(Extname(name));
    if ext in MimeTypes then MimeTypes[ext] else DefaultMime
  }

  /** The type of `stem.ext` is decided by the lower-cased `.ext` alone. */
  lemma ContentTypeOfDotted(stem: string, ext: string)
    requires stem != "" && ext != "" && '.' !in ext
    ensures ContentType(stem + "." + ext) ==
      if Lower("." + ext) in MimeTypes then MimeTypes[Lower("." + ext)] else DefaultMime
  {
    ExtnameOfDotted(stem, ext);
  }

  /** The extension decides the type whatever its letter case. */
  lemma ContentTypeIgnoresCase(stem: string)
    requires stem != ""
    ensures ContentType(stem + ".MP4") == "video/mp4"
  {
    assert stem + ".MP4" == stem + "." + "MP4";
    ContentTypeOfDotted(stem, "MP4");
    assert Lower(".MP4") == ".mp4" by {
      LowerExt(".MP4", ".mp4");
    }
  }

  /** A dot file has no extension, so it gets the default type. */
  lemma ContentTypeDotFile()
    ensures ContentType(".png") == DefaultMime
  {
    assert ".png"[0] == '.' && '.' !in ".png"[1..];
    assert LastIndexOf(".png", '.') == Some(0);
    assert Extname(".png") == "";
  }

  /** An unknown extension gets the default type. */
  lemma ContentTypeUnknown(stem: string)
    requires stem != ""
    ensures ContentType(stem + ".txt") == DefaultMime
  {
    LowerExt(".txt", ".txt");
    assert ".txt" !in MimeTypes by { assert MimeTypes.Keys == {".png", ".jpg", ".jpeg", ".gif", ".mp4", ".mov", ".webm", ".glb"}; }
    ContentTypeOfDotted(stem, "txt");
    assert stem + ".txt" == stem + "." + "txt";
  }

  lemma LowerExt(ext: string, lower: string)
    requires |ext| == |lower| && forall i :: 0 <= i < |ext| ==> LowerChar(ext[i]) == lower[i]
    ensures Lower(ext) == lower
  {
    LowerPointwise(ext);
  }

  /** The object key of an uploaded file. */
  function ObjectKey(file: string): (r: string)
    ensures StartsWith(r, "uploads/") && r[|"uploads/"|..] == file
  {
    "uploads/" + file
  }

  /** The public URL `uploadFile` returns after a successful upload. */
  function PublicUrl(bucket: string, key: string): (r: string)
    ensures StartsWith(r, "https://")
    ensures EndsWith(r, ".s3.timeweb.com/" + key)
  {
    "https://" + bucket + ".s3.timeweb.com/" + key
  }

  /** The path a record stores for a local upload: the object key, rooted. */
  function LocalPath(file: string): (r: string)
    ensures StartsWith(r, "/uploads/") && r[|"/uploads/"|..] == file
  {
    "/" + ObjectKey(file)
  }

  /** An entry of the uploads directory: whether `lstat` calls it a directory,
      whether reading it as a file succeeds, and the outcome of its upload. */
  datatype DirEntry = DirEntry(name: string, isDirectory: bool, readable: bool, uploadSucceeds: bool)

  /** A non-directory entry whose read throws, outside the upload's `try`. */
  predicate Unreadable(e: DirEntry) {
    !e.isDirectory && !e.readable
  }

  /** Some entry's read throws, which rejects the whole migration before any
      database update. */
  predicate ReadFails(entries: seq<DirEntry>) {
    exists e :: e in entries && Unreadable(e)
  }

  /** An entry that gets a public URL: a file whose upload succeeded. */
  predicate Migrated(e: DirEntry) {
    !e.isDirectory && e.uploadSucceeds
  }

  /** The `urlMap` built over the entries in directory order. */
  function BuildUrlMap(entries: seq<DirEntry>, bucket: string): (m: map<string, string>)
    ensures forall k :: k in m <==> exists e :: e in entries && Migrated(e) && k == LocalPath(e.name)
    ensures forall e :: e in entries && Migrated(e) ==>
      m[LocalPath(e.name)] == PublicUrl(bucket, ObjectKey(e.name))
  {
    if entries == [] then map[]
    else
      var m := BuildUrlMap(entries[..|entries| - 1], bucket);
      var e := entries[|entries| - 1];
      assert entries == entries[..|entries| - 1] + [e];
      if Migrated(e) then m[LocalPath(e.name) := PublicUrl(bucket, ObjectKey(e.name))] else m
  }

  /** Every key of the map is a local path and every value a public URL, so no
      value is a key. */
  lemma UrlMapShape(entries: seq<DirEntry>, bucket: string)
    ensures forall k :: k in BuildUrlMap(entries, bucket) ==>
      StartsWith(k, "/uploads/") && StartsWith(BuildUrlMap(entries, bucket)[k], "https://")
    ensures forall k :: k in BuildUrlMap(entries, bucket) ==>
      BuildUrlMap(entries, bucket)[k] !in BuildUrlMap(entries, bucket)
  {
    var m := BuildUrlMap(entries, bucket);
    forall k | k in m
      ensures StartsWith(k, "/uploads/") && StartsWith(m[k], "https://") && m[k] !in m
    {
      var e :| e in entries && Migrated(e) && k == LocalPath(e.name);
      assert m[k][0] == 'h';
      forall k2 | k2 in m ensures k2[0] == '/' {
        var e2 :| e2 in entries && Migrated(e2) && k2 == LocalPath(e2.name);
      }
    }
  }

  /** `value && urlMap[value]`: a truthy value that is a key is replaced by its URL. */
  function Remap(m: map<string, string>, v: Option<string>): (r: Option<string>)
    ensures Truthy(v) && v.value in m ==> r == Some(m[v.value])
    ensures !(Truthy(v) && v.value in m) ==> r == v
  {
    if Truthy(v) && v.value in m then Some(m[v.value]) else v
  }

  function RemapText(m: map<string, string>, s: string): (r: string)
    ensures s != "" && s in m ==> r == m[s]
    ensures !(s != "" && s in m) ==> r == s
  {
    Remap(m, Some(s)).value
  }

  function RemapProject(m: map<string, string>, p: Project): Project {
    p.(thumbnail := Remap(m, p.thumbnail))
  }

  function RemapArchive(m: map<string, string>, a: ArchiveItem): ArchiveItem {
    a.(thumbnail := Remap(m, a.thumbnail), fileUrl := RemapText(m, a.fileUrl))
  }

  function RemapElement(m: map<string, string>, e: CanvasElement): CanvasElement {
    if e.kind == "image" then e.(content := RemapText(m, e.content)) else e
  }

  function RemapProjects(m: map<string, string>, rows: seq<Project>): (r: seq<Project>)
    ensures |r| == |rows| && forall i :: 0 <= i < |rows| ==> r[i] == RemapProject(m, rows[i])
  {
    seq(|rows|, i requires 0 <= i < |rows| => RemapProject(m, rows[i]))
  }

  function RemapArchives(m: map<string, string>, rows: seq<ArchiveItem>): (r: seq<ArchiveItem>)
    ensures |r| == |rows| && forall i :: 0 <= i < |rows| ==> r[i] == RemapArchive(m, rows[i])
  {
    seq(|rows|, i requires 0 <= i < |rows| => RemapArchive(m, rows[i]))
  }

  function RemapElements(m: map<string, string>, rows: seq<CanvasElement>): (r: seq<CanvasElement>)
    ensures |r| == |rows| && forall i :: 0 <= i < |rows| ==> r[i] == RemapElement(m, rows[i])
  {
    seq(|rows|, i requires 0 <= i < |rows| => RemapElement(m, rows[i]))
  }

  /** `startMigration`: with no uploads directory (None) nothing changes, nor
      when reading one of its files throws; otherwise each record's local
      paths that have a public URL are rewritten.
      Project thumbnails, archive thumbnails and file URLs, and the content of
      image elements are the fields read; no other field or row changes. */
  function Run(db: Db, dir: Option<seq<DirEntry>>, bucket: string): (r: Db)
    ensures dir.None? ==> r == db
    ensures dir.Some? && ReadFails(dir.value) ==> r == db
    ensures dir.Some? && !ReadFails(dir.value) ==>
      var m := BuildUrlMap(dir.value, bucket);
      && r.nextProjectId == db.nextProjectId && r.nextElementId == db.nextElementId
      && r.nextArchiveId == db.nextArchiveId
      && |r.projects| == |db.projects| && |r.archive| == |db.archive| && |r.elements| == |db.elements|
      && (forall i :: 0 <= i < |db.projects| ==>
            var p, q := db.projects[i], r.projects[i];
            q == p.(thumbnail := q.thumbnail)
            && (Truthy(p.thumbnail) && p.thumbnail.value in m ==> q.thumbnail == Some(m[p.thumbnail.value]))
            && (!(Truthy(p.thumbnail) && p.thumbnail.value in m) ==> q == p))
      && (forall i :: 0 <= i < |db.archive| ==>
            var a, b := db.archive[i], r.archive[i];
            b == a.(thumbnail := b.thumbnail, fileUrl := b.fileUrl)
            && (Truthy(a.thumbnail) && a.thumbnail.value in m ==> b.thumbnail == Some(m[a.thumbnail.value]))
            && (!(Truthy(a.thumbnail) && a.thumbnail.value in m) ==> b.thumbnail == a.thumbnail)
            && (a.fileUrl != "" && a.fileUrl in m ==> b.fileUrl == m[a.fileUrl])
            && (!(a.fileUrl != "" && a.fileUrl in m) ==> b.fileUrl == a.fileUrl))
      && (forall i :: 0 <= i < |db.elements| ==>
            var e, f := db.elements[i], r.elements[i];
            f == e.(content := f.content)
            && (e.kind == "image" && e.content != "" && e.content in m ==> f.content == m[e.content])
            && (!(e.kind == "image" && e.content != "" && e.content in m) ==> f == e))
  {
    match dir
    case None => db
    case Some(entries) =>
      if ReadFails(entries) then db
      else
        var m := BuildUrlMap(entries, bucket);
        db.(projects := RemapProjects(m, db.projects),
            archive := RemapArchives(m, db.archive),
            elements := RemapElements(m, db.elements))
  }

  /** Re-running the migration over the same directory changes nothing more:
      rewritten values are public URLs, which are never local-path keys. */
  lemma RunIdempotent(db: Db, dir: Option<seq<DirEntry>>, bucket: string)
    ensures Run(Run(db, dir, bucket), dir, bucket) == Run(db, dir, bucket)
  {
    if dir.Some? && !ReadFails(dir.value) {
      var r := Run(db, dir, bucket);
      var r2 := Run(r, dir, bucket);
      UrlMapShape(dir.value, bucket);
      assert r2.projects == r.projects;
      assert r2.archive == r.archive;
      assert r2.elements == r.elements;
    }
  }

  /** The migration keeps every key, slug and owner. */
  lemma RunKeepsValid(db: Db, dir: Option<seq<DirEntry>>, bucket: string)
    requires Valid(db)
    ensures Valid(Run(db, dir, bucket))
  {
    if dir.Some? && !ReadFails(dir.value) {
      var r := Run(db, dir, bucket);
      ProjectKeysKept(db.projects, r.projects, db.nextProjectId);
      ArchiveKeysKept(db.archive, r.archive, db.nextArchiveId);
      ElementKeysKept(db.elements, r.elements, db.nextElementId);
      OwnersKept(db.projects, db.elements, r.projects, r.elements);
    }
  }
}

=== FILE: portfolio.dfy ===
/** The archive grid (src/components/Portfolio/index.jsx): the category filter,
    how each card is drawn, and which modal a selected item opens. */
module Portfolio {
  import opened Wrappers
  import opened Store
  import opened Seqs
  import opened YouTube
  import VideoPlayer

  /** The filter that shows everything. */
  const All := "ВСЕ"

  /** The filter buttons, in display order. */
  const Filters := [All, "REELS", "YOUTUBE", "TV-SHOWS", "VFX"]

  /** `p.category === filter` */
  predicate InCategory(item: ArchiveItem, filter: string) {
    item.category == Some(filter)
  }

  /** `projects.filter(p => p.category === filter)`: the items of that category,
      every copy of each, in their order. */
  function OfCategory(items: seq<ArchiveItem>, filter: string): (r: seq<ArchiveItem>)
    ensures forall x :: x in r <==> x in items && InCategory(x, filter)
    ensures |r| <= |items|
  {
    if items == [] then []
    else
      var rest := OfCategory(items[1..], filter);
      assert items == [items[0]] + items[1..];
      if InCategory(items[0], filter) then [items[0]] + rest else rest
  }

  /** The filter keeps the items of the category in their order and as often
      as they are stored. */
  lemma {:induction false} OfCategoryKeepsOrder(items: seq<ArchiveItem>, filter: string)
    ensures Subsequence(OfCategory(items, filter), items)
    ensures forall x :: InCategory(x, filter) ==> multiset(OfCategory(items, filter))[x] == multiset(items)[x]
    ensures forall x :: !InCategory(x, filter) ==> multiset(OfCategory(items, filter))[x] == 0
  {
    if items != [] {
      OfCategoryKeepsOrder(items[1..], filter);
      var rest := OfCategory(items[1..], filter);
      assert items == [items[0]] + items[1..];
      assert multiset(items) == multiset{items[0]} + multiset(items[1..]);
      if InCategory(items[0], filter) {
        assert ([items[0]] + rest)[1..] == rest;
        assert multiset([items[0]] + rest) == multiset{items[0]} + multiset(rest);
      }
    }
  }

  /** `filteredProjects` */
  function Filtered(items: seq<ArchiveItem>, filter: string): (r: seq<ArchiveItem>)
    ensures filter == All ==> r == items
    ensures filter != All ==> r == OfCategory(items, filter)
  {
    if filter == All then items else OfCategory(items, filter)
  }

  /** Filtering the filtered list again changes nothing. */
  lemma {:induction false} OfCategoryIdempotent(items: seq<ArchiveItem>, filter: string)
    ensures OfCategory(OfCategory(items, filter), filter) == OfCategory(items, filter)
  {
    if items != [] {
      OfCategoryIdempotent(items[1..], filter);
      var rest := OfCategory(items[1..], filter);
      if InCategory(items[0], filter) {
        assert ([items[0]] + rest)[1..] == rest;
      }
    }
  }

  /** Filtering a concatenation filters each part. */
  lemma {:induction false} OfCategoryAppend(a: seq<ArchiveItem>, b: seq<ArchiveItem>, filter: string)
    ensures OfCategory(a + b, filter) == OfCategory(a, filter) + OfCategory(b, filter)
  {
    if a == [] {
      assert a + b == b;
    } else {
      var x, t := a[0], a[1..];
      var head := if InCategory(x, filter) then [x] else [];
      assert OfCategory(a + b, filter) == head + OfCategory(t + b, filter) by {
        assert a + b == [x] + (t + b);
        OfCategoryCons(x, t + b, filter);
      }
      assert OfCategory(a, filter) == head + OfCategory(t, filter) by {
        assert a == [x] + t;
        OfCategoryCons(x, t, filter);
      }
      OfCategoryAppend(t, b, filter);
    }
  }

  /** One step of the filter. */
  lemma OfCategoryCons(x: ArchiveItem, rest: seq<ArchiveItem>, filter: string)
    ensures OfCategory([x] + rest, filter) == (if InCategory(x, filter) then [x] else []) + OfCategory(rest, filter)
  {
    assert ([x] + rest)[1..] == rest;
  }

  /** How one card is drawn. */
  datatype Card = Card(tall: bool, youtubeId: Option<string>, thumbnailUrl: string)

  /** `isVertical`: explicitly vertical, or an unlabelled reel video. */
  predicate IsTall(item: ArchiveItem) {
    item.orientation == Some("vertical")
      || (!Truthy(item.orientation) && item.kind == "video" && InCategory(item, "REELS"))
  }

  /** The card of one item: its shape, its YouTube id (looked up for YouTube
      items only) and its picture (the custom thumbnail, else the YouTube
      poster, else the file itself). */
  function CardFor(item: ArchiveItem): (c: Card)
    ensures c.tall <==> IsTall(item)
    ensures c.youtubeId.Some? ==> item.kind == "youtube" && |c.youtubeId.value| == 11
    ensures item.kind == "youtube" ==> c.youtubeId == YoutubeId(Some(item.fileUrl))
    ensures Truthy(item.thumbnail) ==> c.thumbnailUrl == item.thumbnail.value
    ensures !Truthy(item.thumbnail) && c.youtubeId.Some? ==> c.thumbnailUrl == VideoPlayer.PosterUrl(c.youtubeId)
    ensures !Truthy(item.thumbnail) && c.youtubeId.None? ==> c.thumbnailUrl == item.fileUrl
  {
    var youtubeId := if item.kind == "youtube" then YoutubeId(Some(item.fileUrl)) else None;
    var thumbnailUrl :=
      if Truthy(item.thumbnail) then item.thumbnail.value
      else if youtubeId.Some? then VideoPlayer.PosterUrl(youtubeId)
      else item.fileUrl;
    Card(IsTall(item), youtubeId, thumbnailUrl)
  }

  /** The modal a selection opens: the player for videos and YouTube items,
      the image viewer for everything else, nothing without a selection. */
  datatype Modal = NoModal | PlayerModal(props: VideoPlayer.Props) | ImageModal(src: string, alt: string)

  predicate IsPlayable(item: ArchiveItem) {
    item.kind == "video" || item.kind == "youtube"
  }

  function ModalFor(selected: Option<ArchiveItem>): (m: Modal)
    ensures m.NoModal? <==> selected.None?
    ensures m.PlayerModal? <==> selected.Some? && IsPlayable(selected.value)
    ensures m.ImageModal? <==> selected.Some? && !IsPlayable(selected.value)
    ensures m.PlayerModal? ==>
      var item := selected.value;
      m.props == VideoPlayer.Props(Some(item.fileUrl), Some(item.title), item.description,
                                   Some(item.kind), item.thumbnail)
    ensures m.ImageModal? ==> m.src == selected.value.fileUrl && m.alt == selected.value.title
  {
    match selected
    case None => NoModal
    case Some(item) =>
      if IsPlayable(item) then
        PlayerModal(VideoPlayer.Props(Some(item.fileUrl), Some(item.title), item.description,
                                      Some(item.kind), item.thumbnail))
      else ImageModal(item.fileUrl, item.title)
  }

  /** The picture on a card is the one the player shows behind the video once
      the card is opened, whenever the card has a custom thumbnail or a
      YouTube id. */
  lemma CardMatchesPlayerBackground(item: ArchiveItem, layout: VideoPlayer.Layout)
    requires IsPlayable(item) && item.fileUrl != ""
    requires Truthy(item.thumbnail) || CardFor(item).youtubeId.Some?
    ensures ModalFor(Some(item)).PlayerModal?
    ensures VideoPlayer.Render(ModalFor(Some(item)).props, layout).value.blurImage
            == Some(CardFor(item).thumbnailUrl)
  {
  }

  /** A YouTube item stored with a `watch?v=` link and no thumbnail shows the
      poster of that video. */
  lemma WatchLinkCard(item: ArchiveItem, prefix: string, id: string)
    requires item.kind == "youtube" && !Truthy(item.thumbnail)
    requires item.fileUrl == prefix + "watch?v=" + id
    requires NoTerminator(prefix)
    requires |id| == 11 && forall k :: 0 <= k < |id| ==> IsIdChar(id[k])
    ensures CardFor(item).thumbnailUrl == "https://img.youtube.com/vi/" + id + "/maxresdefault.jpg"
  {
    WatchUrlId(prefix, id);
  }
}

=== FILE: project_view.dfy ===
/** The case-study page (src/pages/ProjectView.jsx): which API it reads, which
    entry comes next, where the footer button leads, which of the four layouts
    is drawn, and how the main media and the video modal are chosen. */
module ProjectView {
  import opened Wrappers
  import opened JsString
  import Uploads
  import Carousel

  /** `source === 'archive' ? 'archive' : 'projects'`: the API the page reads
      the entry and the navigation list from. */
  function Endpoint(source: string): (r: string)
    ensures r == "archive" <==> source == "archive"
    ensures r == "archive" || r == "projects"
  {
    if source == "archive" then "archive" else "projects"
  }

  /** The fields of a listed entry the page reads. */
  datatype Entry = Entry(id: int, title: string)

  /** `findIndex(p => String(p.id) === String(id))` */
  function FindIndex(list: seq<Entry>, id: string): (r: Option<nat>)
    ensures r.Some? ==> r.value < |list| && IntString(list[r.value].id) == id
    ensures forall k :: 0 <= k < |list| && (r.None? || k < r.value) ==> IntString(list[k].id) != id
  {
    if list == [] then None
    else if IntString(list[0].id) == id then Some(0)
    else
      var rest := FindIndex(list[1..], id);
      if rest.Some? then Some(rest.value + 1) else None
  }

  /** Entry `k` is the first whose id prints as `id`. */
  predicate FirstWithId(list: seq<Entry>, id: string, k: int) {
    0 <= k < |list| && IntString(list[k].id) == id
      && forall j :: 0 <= j < k ==> IntString(list[j].id) != id
  }

  /** The effect that determines the next entry: skipped (the state `prev`
      kept) while the list is empty or the route has no id; otherwise the entry
      after the first one whose id prints as the route id, or None when that
      one is last or absent. */
  function NextProject(list: seq<Entry>, id: Option<string>, prev: Option<Entry>): (r: Option<Entry>)
    ensures |list| == 0 || !Truthy(id) ==> r == prev
    ensures |list| > 0 && Truthy(id) ==>
      (r.Some? <==> exists k :: FirstWithId(list, id.value, k) && k < |list| - 1)
    ensures |list| > 0 && Truthy(id) && r.Some? ==>
      exists k :: FirstWithId(list, id.value, k) && k < |list| - 1 && r.value == list[k + 1]
  {
    if |list| == 0 || !Truthy(id) then prev
    else
      var found := FindIndex(list, id.value);
      assert forall k :: FirstWithId(list, id.value, k) ==> found.Some? && k == found.value;
      assert found.Some? ==> FirstWithId(list, id.value, found.value);
      if found.Some? && found.value < |list| - 1 then Some(list[found.value + 1]) else None
  }

  /** With distinct ids, the entry after each listed entry is the next one in
      the list, and the last entry has none. */
  lemma NextOfListed(list: seq<Entry>, k: int, prev: Option<Entry>)
    requires forall i, j :: 0 <= i < j < |list| ==> list[i].id != list[j].id
    requires 0 <= k < |list|
    ensures k < |list| - 1 ==> NextProject(list, Some(IntString(list[k].id)), prev) == Some(list[k + 1])
    ensures k == |list| - 1 ==> NextProject(list, Some(IntString(list[k].id)), prev) == None
  {
    var id := IntString(list[k].id);
    NumberOfString(list[k].id);
    forall j | 0 <= j < |list| && j != k ensures IntString(list[j].id) != id {
      IntStringInjective(list[j].id, list[k].id);
    }
  }

  /** Where the footer button leads. */
  datatype Navigation = GoTo(path: string) | GoHome(targetId: string)

  /** `handleNextProject` */
  function HandleNext(source: string, next: Option<Entry>): (r: Navigation)
    ensures r.GoTo? <==> next.Some?
    ensures next.Some? && source == "archive" ==> r.path == "/work/" + IntString(next.value.id)
    ensures next.Some? && source != "archive" ==> r.path == "/project/" + IntString(next.value.id)
    ensures next.None? ==> r.targetId == (if source == "archive" then "works" else "projects")
  {
    match next
    case Some(e) =>
      GoTo(if source == "archive" then "/work/" + IntString(e.id) else "/project/" + IntString(e.id))
    case None =>
      GoHome(if source == "archive" then "works" else "projects")
  }

  /** The path to an entry ends with its id. */
  lemma PathEndsWithId(source: string, e: Entry)
    ensures EndsWith(HandleNext(source, Some(e)).path, "/" + IntString(e.id))
  {
    var id := IntString(e.id);
    var path := HandleNext(source, Some(e)).path;
    if source == "archive" {
      assert path == "/work" + ("/" + id);
    } else {
      assert path == "/project" + ("/" + id);
    }
  }

  /** Following the footer from entry `k` of a list with distinct ids opens
      entry `k + 1`, and the last entry leads home. */
  lemma FooterWalksTheList(list: seq<Entry>, k: int, source: string, prev: Option<Entry>)
    requires forall i, j :: 0 <= i < j < |list| ==> list[i].id != list[j].id
    requires 0 <= k < |list|
    ensures var nav := HandleNext(source, NextProject(list, Some(IntString(list[k].id)), prev));
      && (k < |list| - 1 ==> nav.GoTo? && EndsWith(nav.path, "/" + IntString(list[k + 1].id)))
      && (k == |list| - 1 ==> nav.GoHome?)
  {
    NextOfListed(list, k, prev);
    if k < |list| - 1 {
      PathEndsWithId(source, list[k + 1]);
    }
  }

  /** The four page layouts. */
  datatype Layout = Generic | TrueFalse | Kristina | Anar

  /** The fields of the loaded entry the layout choice reads. Archive items
      have no slug. */
  datatype Shown = Shown(title: Option<string>, slug: Option<string>)

  /** The title, lower-cased, mentions `word`. */
  predicate TitleMentions(p: Shown, word: string) {
    Truthy(p.title) && Contains(Lower(p.title.value), word)
  }

  predicate IsTrueFalse(p: Shown) {
    TitleMentions(p, "правда или ложь")
  }

  predicate IsAnar(p: Shown, routeId: Option<string>) {
    TitleMentions(p, "anar") || p.slug == Some("anar-dreams-iba") || routeId == Some("6")
  }

  predicate IsKristina(p: Shown) {
    TitleMentions(p, "kristina") || p.slug == Some("kristina-ai-ecosystem")
  }

  /** The layout drawn: the generic one when no special flag holds; otherwise
      the true/false show first, then Kristina, then Anar. */
  function ChooseLayout(p: Shown, routeId: Option<string>): (r: Layout)
    ensures r == Generic <==> !IsTrueFalse(p) && !IsAnar(p, routeId) && !IsKristina(p)
    ensures r == TrueFalse <==> IsTrueFalse(p)
    ensures r == Kristina <==> !IsTrueFalse(p) && IsKristina(p)
    ensures r == Anar <==> !IsTrueFalse(p) && !IsKristina(p) && IsAnar(p, routeId)
  {
    if !IsTrueFalse(p) && !IsAnar(p, routeId) && !IsKristina(p) then Generic
    else if IsTrueFalse(p) then TrueFalse
    else if IsKristina(p) then Kristina
    else Anar
  }

  /** The tool list in the footer is hidden on the Anar and Kristina pages. */
  function ShowsToolbox(p: Shown, routeId: Option<string>): (r: bool)
    ensures r <==> !IsAnar(p, routeId) && !IsKristina(p)
  {
    !IsAnar(p, routeId) && !IsKristina(p)
  }

  /** The footer's tool list is shown on every generic page, and on a
      true/false page unless that page also carries the Anar or Kristina flag;
      it is never shown on a Kristina or Anar page. */
  lemma ToolboxFollowsLayout(p: Shown, routeId: Option<string>)
    ensures ChooseLayout(p, routeId) == Generic ==> ShowsToolbox(p, routeId)
    ensures ChooseLayout(p, routeId) == Kristina || ChooseLayout(p, routeId) == Anar ==> !ShowsToolbox(p, routeId)
  {
  }

  /** The main media of the generic layout. */
  datatype Media = NoMedia | VideoMedia(src: string) | ImageMedia(src: string, alt: string)

  /** `renderMedia`: nothing without a file URL; a video when the type is
      'video' or the URL ends in '.mp4' (case-sensitive); an image otherwise,
      whose alt text defaults to 'Project Media'. */
  function RenderMedia(kind: Option<string>, fileUrl: Option<string>, title: Option<string>): (r: Media)
    ensures r.NoMedia? <==> !Truthy(fileUrl)
    ensures r.VideoMedia? <==> Truthy(fileUrl) && (kind == Some("video") || EndsWith(fileUrl.value, ".mp4"))
    ensures !r.NoMedia? ==> r.src == fileUrl.value
    ensures r.ImageMedia? ==> r.alt == OrElse(title, "Project Media")
  {
    if !Truthy(fileUrl) then NoMedia
    else if kind == Some("video") || EndsWith(fileUrl.value, ".mp4") then VideoMedia(fileUrl.value)
    else ImageMedia(fileUrl.value, OrElse(title, "Project Media"))
  }

  /** The '.mp4' test is case-sensitive: an upper-case extension is drawn as
      an image unless the type says 'video'. */
  lemma UpperCaseMp4IsImage(stem: string, kind: Option<string>, title: Option<string>)
    requires kind != Some("video")
    ensures RenderMedia(kind, Some(stem + ".MP4"), title).ImageMedia?
  {
    var url := stem + ".MP4";
    assert url[|url| - 4..] == ".MP4";
  }

  /** The video modal's source: None when no video is selected. */
  function ModalSrc(selected: Option<string>): (r: Option<string>)
    ensures r.None? <==> !Truthy(selected)
    ensures r.Some? ==> r.value == Uploads.MediaSrc(selected.value)
  {
    if Truthy(selected) then Some(Uploads.MediaSrc(selected.value)) else None
  }

  /** Clicking the active card of the carousel opens the modal on the very
      video that card plays. */
  lemma ModalPlaysActiveCard(items: seq<string>, active: int)
    requires |items| > 0 && forall i :: 0 <= i < |items| ==> items[i] != ""
    ensures var card := Carousel.Window(active, |items|)[Carousel.VisibleItems];
      var picked := Carousel.Click(active, card).1;
      && picked.Some?
      && ModalSrc(Some(items[picked.value])) == Carousel.CardVideoSrc(items, card)
  {
    Carousel.WindowHasOneActive(active, |items|);
  }
}

=== FILE: projects_route.dfy ===
/** The `/api/projects` routes (server/routes/projects.js) over the abstract database. */
module ProjectsRoute {
  import opened Wrappers
  import opened JsString
  import opened Store
  import opened Http
  import Sorting
  import Seqs

  const NotFound := "Project not found"
  const CreateError := "Slug already exists or invalid data"
  const UpdateError := "Failed to update project"
  const SaveElementsError := "Failed to save elements"

  function CreatedAt(p: Project): int {
    p.createdAt
  }

  /** GET /: every project, newest first. */
  function List(db: Db): (r: seq<Project>)
    ensures Sorting.SortedDesc(r, CreatedAt)
    ensures multiset(r) == multiset(db.projects)
  {
    Sorting.SortDesc(db.projects, CreatedAt)
  }

  /** The `OR` filter of GET /:id: the slug equals the parameter, or the id
      equals `Number(param)` when the parameter is numeric. */
  predicate MatchesParam(p: Project, param: string) {
    p.slug == param || JsNumber(param) == Some(p.id)
  }

  /** `findFirst`: the position of the first matching row at or after `from`. */
  function FindFirst(rows: seq<Project>, param: string, from: nat): (r: Option<nat>)
    ensures r.Some? ==> from <= r.value < |rows| && MatchesParam(rows[r.value], param)
    ensures forall k :: from <= k < |rows| && (r.None? || k < r.value) ==> !MatchesParam(rows[k], param)
    decreases |rows| - from
  {
    if from >= |rows| then None
    else if MatchesParam(rows[from], param) then Some(from)
    else FindFirst(rows, param, from + 1)
  }

  datatype ProjectWithElements = ProjectWithElements(project: Project, elements: seq<CanvasElement>)

  /** GET /:id: the first project matching the parameter, with its elements. */
  function Get(db: Db, param: string): (r: Reply<ProjectWithElements>)
    ensures r.Fail? <==> forall p :: p in db.projects ==> !MatchesParam(p, param)
    ensures r.Fail? ==> r == Fail(404, Text(NotFound))
    ensures r.Ok? ==>
      exists k :: 0 <= k < |db.projects| && db.projects[k] == r.value.project
        && MatchesParam(r.value.project, param)
        && forall j :: 0 <= j < k ==> !MatchesParam(db.projects[j], param)
    ensures r.Ok? ==>
      forall e :: e in r.value.elements <==> e in db.elements && e.projectId == r.value.project.id
  {
    match FindFirst(db.projects, param, 0)
    case None => Fail(404, Text(NotFound))
    case Some(k) =>
      var p := db.projects[k];
      Ok(ProjectWithElements(p, ElementsOf(db.elements, p.id)))
  }

  /** A string field of a JSON request body: left out, `null`, or a string. */
  datatype Field = Absent | Null | Present(value: string)

  /** The field as `||` and a create see it: `null` and a missing field alike. */
  function Given(f: Field): (r: Option<string>)
    ensures r.Some? <==> f.Present?
    ensures r.Some? ==> r.value == f.value
  {
    if f.Present? then Some(f.value) else None
  }

  /** A request body for create and update. */
  datatype ProjectBody = ProjectBody(
    title: Field,
    slug: Field,
    category: Field,
    thumbnail: Field)

  /** The slug derived from a title: lower-cased, each whitespace run made one '-'. */
  function Slugify(title: string): string {
    DashRuns(Lower(title))
  }

  /** A derived slug holds no whitespace and is already lower-case. */
  lemma SlugifyShape(title: string)
    ensures NoSpace(Slugify(title))
    ensures Lower(Slugify(title)) == Slugify(title)
  {
    DashRunsNoSpace(Lower(title));
    LowerIdempotent(title);
    LowerOfDashRuns(Lower(title));
  }

  /** Replacing whitespace runs in lower-case text leaves it lower-case. */
  lemma {:induction false} LowerOfDashRuns(s: string)
    requires Lower(s) == s
    ensures Lower(DashRuns(s)) == DashRuns(s)
    decreases |s|
  {
    if s != [] {
      assert Lower(s[1..]) == s[1..] && LowerChar(s[0]) == s[0] by { LowerHead(s); }
      if IsJsSpace(s[0]) {
        var t := DropSpaces(s[1..]);
        assert Lower(t) == t by { LowerSuffix(s[1..], |s[1..]| - |t|); }
        LowerOfDashRuns(t);
        assert DashRuns(s) == ['-'] + DashRuns(t);
        assert Lower(['-'] + DashRuns(t)) == ['-'] + DashRuns(t) by { LowerCons('-', DashRuns(t)); }
      } else {
        LowerOfDashRuns(s[1..]);
        assert DashRuns(s) == [s[0]] + DashRuns(s[1..]);
        assert Lower([s[0]] + DashRuns(s[1..])) == [s[0]] + DashRuns(s[1..]) by {
          LowerCons(s[0], DashRuns(s[1..]));
        }
      }
    }
  }

  /** Lower-case text starts with a lower-case character and goes on with
      lower-case text. */
  lemma LowerHead(s: string)
    requires s != [] && Lower(s) == s
    ensures LowerChar(s[0]) == s[0] && Lower(s[1..]) == s[1..]
  {
    assert Lower(s)[0] == LowerChar(s[0]);
    assert Lower(s)[1..] == Lower(s[1..]);
  }

  /** Lower-casing goes character by character from the front. */
  lemma LowerCons(c: char, t: string)
    ensures Lower([c] + t) == [LowerChar(c)] + Lower(t)
  {
    assert ([c] + t)[1..] == t;
  }

  lemma {:induction false} LowerSuffix(s: string, k: nat)
    requires Lower(s) == s && k <= |s|
    ensures Lower(s[k..]) == s[k..]
  {
    if k > 0 {
      assert Lower(s)[1..] == Lower(s[1..]);
      assert s[1..][k - 1..] == s[k..];
      LowerSuffix(s[1..], k - 1);
    }
  }

  /** The slug a create request stores: the body's slug when truthy, else the
      title's slug; None when there is neither (the title is missing). */
  function ChosenSlug(body: ProjectBody): Option<string> {
    if Truthy(Given(body.slug)) then Given(body.slug)
    else if body.title.Present? then Some(Slugify(body.title.value))
    else None
  }

  predicate SlugTaken(projects: seq<Project>, slug: string) {
    exists p :: p in projects && p.slug == slug
  }

  /** POST /: creates a project; a missing or null title or a slug already in
      use is a 400. A null slug, category or thumbnail is taken as left out. */
  function Create(db: Db, body: ProjectBody, now: int): (res: (Db, Reply<Project>))
    ensures res.1.Fail? <==> !body.title.Present? || SlugTaken(db.projects, ChosenSlug(body).value)
    ensures res.1.Fail? ==> res.0 == db && res.1 == Fail(400, Text(CreateError))
    ensures res.1.Ok? ==>
      var p := res.1.value;
      && res.0 == db.(projects := db.projects + [p], nextProjectId := db.nextProjectId + 1)
      && p.id == db.nextProjectId
      && p.title == body.title.value
      && p.slug == (if body.slug.Present? && body.slug.value != "" then body.slug.value else Slugify(body.title.value))
      && (body.category.Present? ==> p.category == Some(body.category.value))
      && (!body.category.Present? ==> p.category.None?)
      && p.thumbnail == Some(if body.thumbnail.Present? then body.thumbnail.value else "")
      && p.createdAt == now
    ensures Valid(db) ==> Valid(res.0)
  {
    if !body.title.Present? then (db, Fail(400, Text(CreateError)))
    else
      var slug := ChosenSlug(body).value;
      if SlugTaken(db.projects, slug) then (db, Fail(400, Text(CreateError)))
      else
        var p := Project(db.nextProjectId, body.title.value, slug, Given(body.category), None,
                         Some(OrElse(Given(body.thumbnail), "")), now);
        var db' := db.(projects := db.projects + [p], nextProjectId := db.nextProjectId + 1);
        assert ProjectIds(db'.projects) == ProjectIds(db.projects) + {p.id};
        (db', Ok(p))
  }

  /** An optional column after an update: a left-out field keeps it, `null`
      clears it. */
  function Write(f: Field, cur: Option<string>): Option<string> {
    match f
    case Absent => cur
    case Null => None
    case Present(v) => Some(v)
  }

  /** The fields of PUT /:id written onto a row; left-out fields keep their value. */
  function ApplyBody(p: Project, body: ProjectBody): Project {
    p.(title := if body.title.Present? then body.title.value else p.title,
       slug := if body.slug.Present? then body.slug.value else p.slug,
       category := Write(body.category, p.category),
       thumbnail := Write(body.thumbnail, p.thumbnail))
  }

  function UpdateRow(rows: seq<Project>, id: int, body: ProjectBody): (r: seq<Project>)
    ensures |r| == |rows|
    ensures forall i :: 0 <= i < |rows| ==>
      r[i] == if rows[i].id == id then ApplyBody(rows[i], body) else rows[i]
  {
    seq(|rows|, i requires 0 <= i < |rows| => if rows[i].id == id then ApplyBody(rows[i], body) else rows[i])
  }

  /** The slug a row would clash with after PUT /:id. */
  predicate SlugClash(projects: seq<Project>, id: int, body: ProjectBody) {
    body.slug.Present? && exists q :: q in projects && q.id != id && q.slug == body.slug.value
  }

  /** PUT /:id: writes title, slug, category and thumbnail of one project;
      any failure (non-numeric id, no such project, a null title or slug on
      those required columns, slug in use) is a 500. */
  function Put(db: Db, param: string, body: ProjectBody): (res: (Db, Reply<Project>))
    ensures res.1.Fail? <==>
      JsNumber(param).None? || JsNumber(param).value !in ProjectIds(db.projects)
      || body.title.Null? || body.slug.Null?
      || SlugClash(db.projects, JsNumber(param).value, body)
    ensures res.1.Fail? ==> res.0 == db && res.1 == Fail(500, Text(UpdateError))
    ensures res.1.Ok? ==>
      var id := JsNumber(param).value;
      && res.0 == db.(projects := res.0.projects)
      && |res.0.projects| == |db.projects|
      && (forall i :: 0 <= i < |db.projects| && db.projects[i].id != id ==> res.0.projects[i] == db.projects[i])
      && (exists k :: 0 <= k < |db.projects| && db.projects[k].id == id && res.0.projects[k] == res.1.value)
      && (forall i :: 0 <= i < |db.projects| && db.projects[i].id == id ==>
            var old_, new_ := db.projects[i], res.0.projects[i];
            && new_.id == old_.id && new_.description == old_.description
            && new_.createdAt == old_.createdAt
            && new_.title == (if body.title.Present? then body.title.value else old_.title)
            && new_.slug == (if body.slug.Present? then body.slug.value else old_.slug)
            && (body.category.Absent? ==> new_.category == old_.category)
            && (body.category.Null? ==> new_.category.None?)
            && (body.category.Present? ==> new_.category == Some(body.category.value))
            && (body.thumbnail.Absent? ==> new_.thumbnail == old_.thumbnail)
            && (body.thumbnail.Null? ==> new_.thumbnail.None?)
            && (body.thumbnail.Present? ==> new_.thumbnail == Some(body.thumbnail.value)))
    ensures Valid(db) ==> Valid(res.0)
  {
    match JsNumber(param)
    case None => (db, Fail(500, Text(UpdateError)))
    case Some(id) =>
      if id !in ProjectIds(db.projects) || body.title.Null? || body.slug.Null?
         || SlugClash(db.projects, id, body) then
        (db, Fail(500, Text(UpdateError)))
      else
        var k := FindById(db.projects, id);
        var rows := UpdateRow(db.projects, id, body);
        var db' := db.(projects := rows);
        UpdateKeepsValid(db, id, body, k);
        (db', Ok(rows[k]))
  }

  /** The position of the row with id `id`. */
  function FindById(rows: seq<Project>, id: int): (k: nat)
    requires id in ProjectIds(rows)
    ensures k < |rows| && rows[k].id == id
  {
    if rows[0].id == id then 0
    else
      assert id in ProjectIds(rows[1..]) by {
        var p :| p in rows && p.id == id;
        assert p in rows[1..];
      }
      1 + FindById(rows[1..], id)
  }

  lemma UpdateKeepsValid(db: Db, id: int, body: ProjectBody, k: nat)
    requires k < |db.projects| && db.projects[k].id == id
    requires !SlugClash(db.projects, id, body)
    ensures var db' := db.(projects := UpdateRow(db.projects, id, body));
      && ProjectIds(db'.projects) == ProjectIds(db.projects)
      && (Valid(db) ==> Valid(db'))
  {
    var rows := UpdateRow(db.projects, id, body);
    UpdateKeepsIds(db.projects, id, body);
    if Valid(db) {
      UpdateKeepsKeys(db.projects, id, body, db.nextProjectId);
      ValidWithProjects(db, rows);
    }
  }

  /** After the update, ids and slugs are still unique and ids stay below the
      counter. */
  lemma UpdateKeepsKeys(projects: seq<Project>, id: int, body: ProjectBody, next: int)
    requires ProjectKeys(projects, next) && UniqueSlugs(projects)
    requires !SlugClash(projects, id, body)
    ensures ProjectKeys(UpdateRow(projects, id, body), next)
    ensures UniqueSlugs(UpdateRow(projects, id, body))
  {
    var rows := UpdateRow(projects, id, body);
    forall a, b | a in rows && b in rows && a != b
      ensures a.id != b.id && a.slug != b.slug
    {
      var i :| 0 <= i < |rows| && rows[i] == a;
      var j :| 0 <= j < |rows| && rows[j] == b;
      UpdatedPairDistinct(projects, id, body, next, i, j);
    }
    forall a | a in rows ensures a.id < next {
      var i :| 0 <= i < |rows| && rows[i] == a;
      assert projects[i] in projects;
    }
  }

  /** The update rewrites no id, so the set of ids stays the same. */
  lemma UpdateKeepsIds(projects: seq<Project>, id: int, body: ProjectBody)
    ensures ProjectIds(UpdateRow(projects, id, body)) == ProjectIds(projects)
  {
    var rows := UpdateRow(projects, id, body);
    forall x | x in ProjectIds(rows) ensures x in ProjectIds(projects) {
      var q :| q in rows && q.id == x;
      var i :| 0 <= i < |rows| && rows[i] == q;
      assert projects[i] in projects;
    }
    forall x | x in ProjectIds(projects) ensures x in ProjectIds(rows) {
      var p :| p in projects && p.id == x;
      var i :| 0 <= i < |projects| && projects[i] == p;
      assert rows[i] in rows;
    }
  }

  /** Two different rows after the update still differ in id and in slug. */
  lemma UpdatedPairDistinct(projects: seq<Project>, id: int, body: ProjectBody, next: int, i: int, j: int)
    requires 0 <= i < |projects| && 0 <= j < |projects|
    requires ProjectKeys(projects, next) && UniqueSlugs(projects)
    requires !SlugClash(projects, id, body)
    requires UpdateRow(projects, id, body)[i] != UpdateRow(projects, id, body)[j]
    ensures UpdateRow(projects, id, body)[i].id != UpdateRow(projects, id, body)[j].id
    ensures UpdateRow(projects, id, body)[i].slug != UpdateRow(projects, id, body)[j].slug
  {
    var pa, pb := projects[i], projects[j];
    assert pa in projects && pb in projects;
    assert pa != pb;
    if body.slug.Present? && pa.id == id {
      assert pb.slug != body.slug.value;
    } else if body.slug.Present? && pb.id == id {
      assert pa.slug != body.slug.value;
    }
  }

  /** A canvas element as the editor sends it in PATCH /:id/elements. `styles`
      is the JSON text of its style object when it has one. */
  datatype ElementInput = ElementInput(
    clientId: Option<int>,
    kind: string,
    content: string,
    x: real,
    y: real,
    width: real,
    height: real,
    styles: Option<string>)

  /** The row stored for one input element: the copied fields, the project id
      from the URL, and '{}' for a missing style object. */
  function StoredElement(input: ElementInput, id: int, projectId: int): CanvasElement {
    CanvasElement(id, projectId, input.kind, input.content, input.x, input.y,
                  input.width, input.height, input.styles.GetOr("{}"))
  }

  /** `createMany`: the rows for `inputs`, numbered from `start`. */
  function NewRows(inputs: seq<ElementInput>, start: int, projectId: int): (r: seq<CanvasElement>)
    ensures |r| == |inputs|
    ensures forall i :: 0 <= i < |inputs| ==> r[i] == StoredElement(inputs[i], start + i, projectId)
  {
    if inputs == [] then []
    else [StoredElement(inputs[0], start, projectId)] + NewRows(inputs[1..], start + 1, projectId)
  }

  /** PATCH /:id/elements: replaces the project's elements by the request list.
      The old rows are deleted first; the new rows are then created in one batch. */
  function PatchElements(db: Db, param: string, elements: Option<seq<ElementInput>>)
    : (res: (Db, Reply<Option<ProjectWithElements>>))
  {
    match JsNumber(param)
    case None => (db, Fail(500, Text(SaveElementsError)))
    case Some(id) =>
      var cleared := db.(elements := ElementsNotOf(db.elements, id));
      var inputs := elements.GetOr([]);
      if |inputs| > 0 && id !in ProjectIds(db.projects) then
        (cleared, Fail(500, Text(SaveElementsError)))
      else
        var db' := cleared.(elements := cleared.elements + NewRows(inputs, db.nextElementId, id),
                            nextElementId := db.nextElementId + |inputs|);
        if id in ProjectIds(db.projects) then
          var k := FindById(db.projects, id);
          (db', Ok(Some(ProjectWithElements(db.projects[k], ElementsOf(db'.elements, id)))))
        else
          (db', Ok(None))
  }

  /** Filtering distributes over concatenation. */
  lemma {:induction false} ElementsOfAppend(a: seq<CanvasElement>, b: seq<CanvasElement>, pid: int)
    ensures ElementsOf(a + b, pid) == ElementsOf(a, pid) + ElementsOf(b, pid)
  {
    if a == [] {
      assert a + b == b;
    } else {
      assert (a + b)[0] == a[0];
      assert (a + b)[1..] == a[1..] + b;
      ElementsOfAppend(a[1..], b, pid);
    }
  }

  /** Deleting one project's elements leaves every other project's elements as they were. */
  lemma {:induction false} ElementsOfNotOf(e: seq<CanvasElement>, id: int, pid: int)
    ensures ElementsOf(ElementsNotOf(e, id), pid) == if pid == id then [] else ElementsOf(e, pid)
  {
    if e != [] {
      ElementsOfNotOf(e[1..], id, pid);
      if e[0].projectId != id {
        assert ([e[0]] + ElementsNotOf(e[1..], id))[1..] == ElementsNotOf(e[1..], id);
      }
    }
  }

  /** New rows all belong to their project. */
  lemma {:induction false} ElementsOfNewRows(inputs: seq<ElementInput>, start: int, id: int, pid: int)
    ensures ElementsOf(NewRows(inputs, start, id), pid) == if pid == id then NewRows(inputs, start, id) else []
    decreases |inputs|
  {
    if inputs != [] {
      var rows := NewRows(inputs, start, id);
      assert rows[1..] == NewRows(inputs[1..], start + 1, id);
      ElementsOfNewRows(inputs[1..], start + 1, id, pid);
    }
  }

  /** After a successful PATCH the project's elements are exactly the stored
      request list, in request order, with fresh ids (client ids are dropped);
      every other project's elements are as before. A non-numeric id, or new
      elements for a missing project, is a 500. */
  lemma PatchElementsReplaces(db: Db, param: string, elements: Option<seq<ElementInput>>)
    ensures var (db', r) := PatchElements(db, param, elements);
      && (r.Fail? <==> JsNumber(param).None?
                       || (|elements.GetOr([])| > 0 && JsNumber(param).value !in ProjectIds(db.projects)))
      && (r.Fail? ==> r == Fail(500, Text(SaveElementsError)))
      && (r.Ok? ==>
            var id := JsNumber(param).value;
            && ElementsOf(db'.elements, id) == NewRows(elements.GetOr([]), db.nextElementId, id)
            && (forall pid :: pid != id ==> ElementsOf(db'.elements, pid) == ElementsOf(db.elements, pid))
            && db'.projects == db.projects && db'.archive == db.archive
            && (r.value.Some? <==> id in ProjectIds(db.projects))
            && (r.value.Some? ==> r.value.value.project.id == id
                                  && r.value.value.elements == ElementsOf(db'.elements, id)))
  {
    var (db', r) := PatchElements(db, param, elements);
    if r.Ok? {
      var id := JsNumber(param).value;
      var inputs := elements.GetOr([]);
      var rows := NewRows(inputs, db.nextElementId, id);
      assert db'.elements == ElementsNotOf(db.elements, id) + rows;
      forall pid
        ensures ElementsOf(db'.elements, pid) == if pid == id then rows else ElementsOf(db.elements, pid)
      {
        ElementsOfAppend(ElementsNotOf(db.elements, id), rows, pid);
        ElementsOfNotOf(db.elements, id, pid);
        ElementsOfNewRows(inputs, db.nextElementId, id, pid);
      }
    }
  }

  /** PATCH keeps the database invariants. */
  lemma PatchElementsValid(db: Db, param: string, elements: Option<seq<ElementInput>>)
    requires Valid(db)
    ensures Valid(PatchElements(db, param, elements).0)
  {
    var (db', r) := PatchElements(db, param, elements);
    if JsNumber(param).Some? {
      var id := JsNumber(param).value;
      var inputs := elements.GetOr([]);
      var kept := ElementsNotOf(db.elements, id);
      assert ElementKeys(kept, db.nextElementId);
      if r.Ok? {
        var rows := NewRows(inputs, db.nextElementId, id);
        AppendFreshKeys(kept, rows, db.nextElementId);
        assert forall e :: e in rows ==> e.projectId == id;
        assert |inputs| > 0 ==> id in ProjectIds(db.projects);
      }
    }
  }

  /** Rows numbered from the counter keep the keys unique. */
  lemma AppendFreshKeys(kept: seq<CanvasElement>, rows: seq<CanvasElement>, next: int)
    requires ElementKeys(kept, next)
    requires forall i :: 0 <= i < |rows| ==> rows[i].id == next + i
    ensures ElementKeys(kept + rows, next + |rows|)
  {
    forall a, b | a in kept + rows && b in kept + rows && a.id == b.id
      ensures a == b
    {
      if a in rows && b in rows {
        var i :| 0 <= i < |rows| && rows[i] == a;
        var j :| 0 <= j < |rows| && rows[j] == b;
      }
    }
    forall a | a in kept + rows
      ensures a.id < next + |rows|
    {
      if a in rows {
        var i :| 0 <= i < |rows| && rows[i] == a;
      }
    }
  }

  /** The projects other than `id`, in table order. */
  function ProjectsWithout(rows: seq<Project>, id: int): (r: seq<Project>)
    ensures forall p :: p in r <==> p in rows && p.id != id
    ensures Seqs.Subsequence(r, rows)
  {
    if rows == [] then []
    else if rows[0].id != id then [rows[0]] + ProjectsWithout(rows[1..], id)
    else ProjectsWithout(rows[1..], id)
  }

  /** DELETE /:id: deletes the project's elements, then the project. A missing
      project is a 404 (the elements step has already run); a non-numeric id
      fails in the elements step with the database client's message. */
  function Delete(db: Db, param: string): (res: (Db, Reply<bool>))
    ensures JsNumber(param).None? ==> res == (db, Fail(500, EngineText))
    ensures JsNumber(param).Some? && JsNumber(param).value !in ProjectIds(db.projects) ==>
      res.1 == Fail(404, Text(NotFound))
    ensures res.1.Ok? <==> JsNumber(param).Some? && JsNumber(param).value in ProjectIds(db.projects)
    ensures JsNumber(param).Some? ==>
      var id := JsNumber(param).value;
      && (forall e :: e in res.0.elements <==> e in db.elements && e.projectId != id)
      && (forall p :: p in res.0.projects <==> p in db.projects && p.id != id)
      && Seqs.Subsequence(res.0.elements, db.elements)
      && Seqs.Subsequence(res.0.projects, db.projects)
      && res.0.archive == db.archive
    ensures JsNumber(param).Some? && JsNumber(param).value !in ProjectIds(db.projects) ==>
      res.0.projects == db.projects
    ensures res.0.nextProjectId == db.nextProjectId && res.0.nextElementId == db.nextElementId
    ensures res.0.nextArchiveId == db.nextArchiveId
    ensures res.1.Ok? ==> res.1.value
    ensures Valid(db) ==> Valid(res.0)
  {
    match JsNumber(param)
    case None => (db, Fail(500, EngineText))
    case Some(id) =>
      var cleared := db.(elements := ElementsNotOf(db.elements, id));
      ClearKeepsValid(db, id);
      if id !in ProjectIds(db.projects) then
        Seqs.SubsequenceRefl(db.projects);
        (cleared, Fail(404, Text(NotFound)))
      else
        DeleteKeepsValid(db, id);
        (cleared.(projects := ProjectsWithout(db.projects, id)), Ok(true))
  }

  /** Dropping a project's elements keeps the invariants. */
  lemma ClearKeepsValid(db: Db, id: int)
    ensures Valid(db) ==> Valid(db.(elements := ElementsNotOf(db.elements, id)))
  {
  }

  /** Dropping a project together with its elements keeps the invariants:
      no remaining element points at the deleted project. */
  lemma DeleteKeepsValid(db: Db, id: int)
    ensures Valid(db) ==>
      Valid(db.(elements := ElementsNotOf(db.elements, id), projects := ProjectsWithout(db.projects, id)))
  {
    var ps := ProjectsWithout(db.projects, id);
    var es := ElementsNotOf(db.elements, id);
    if Valid(db) {
      forall e | e in es
        ensures e.projectId in ProjectIds(ps)
      {
        var p :| p in db.projects && p.id == e.projectId;
        assert p in ps;
      }
    }
  }

  lemma {:induction false} ProjectsWithoutAbsent(rows: seq<Project>, id: int)
    requires id !in ProjectIds(rows)
    ensures ProjectsWithout(rows, id) == rows
  {
    if rows != [] {
      assert rows[0] in rows;
      assert id !in ProjectIds(rows[1..]) by {
        forall p | p in rows[1..] ensures p.id != id {
          assert p in rows;
        }
      }
      ProjectsWithoutAbsent(rows[1..], id);
      assert rows == [rows[0]] + rows[1..];
    }
  }
}

=== FILE: seqs.dfy ===
/** Order-keeping selection from a sequence. */
module Seqs {

  /** `s` is `t` with some of its items left out and the rest in their order. */
  predicate Subsequence<T(==)>(s: seq<T>, t: seq<T>)
    decreases |t|
  {
    if s == [] then true
    else if t == [] then false
    else if s[0] == t[0] then Subsequence(s[1..], t[1..])
    else Subsequence(s, t[1..])
  }

  /** `s.map(f)` */
  function Map<T, U>(s: seq<T>, f: T -> U): (r: seq<U>)
    ensures |r| == |s|
    ensures forall i :: 0 <= i < |s| ==> r[i] == f(s[i])
  {
    if s == [] then [] else [f(s[0])] + Map(s[1..], f)
  }

  /** `s.filter(p)` */
  function Filter<T>(s: seq<T>, p: T -> bool): (r: seq<T>)
    ensures |r| <= |s|
    ensures forall i :: 0 <= i < |r| ==> r[i] in s && p(r[i])
  {
    if s == [] then []
    else
      assert s == [s[0]] + s[1..];
      (if p(s[0]) then [s[0]] else []) + Filter(s[1..], p)
  }

  /** The filter of a sequence with a head. */
  lemma FilterCons<T>(x: T, t: seq<T>, p: T -> bool)
    ensures Filter([x] + t, p) == if p(x) then [x] + Filter(t, p) else Filter(t, p)
  {
    assert ([x] + t)[1..] == t;
  }

  /** Every sequence is a subsequence of itself. */
  lemma {:induction false} SubsequenceRefl<T>(s: seq<T>)
    ensures Subsequence(s, s)
    decreases |s|
  {
    if s != [] {
      SubsequenceRefl(s[1..]);
    }
  }

  /** The filter of a non-empty sequence, split at its head. */
  lemma FilterHead<T>(t: seq<T>, p: T -> bool)
    requires t != []
    ensures Filter(t, p) == if p(t[0]) then [t[0]] + Filter(t[1..], p) else Filter(t[1..], p)
  {
  }

  /** The map of a sequence with a head. */
  lemma MapCons<T, U>(x: T, t: seq<T>, f: T -> U)
    ensures Map([x] + t, f) == [f(x)] + Map(t, f)
  {
    assert ([x] + t)[1..] == t;
  }
}

=== FILE: sorting.dfy ===
/** Ordering of query results: `findMany({ orderBy: { createdAt: 'desc' } })`. */
module Sorting {
  import opened Seqs

  /** Rows in non-increasing order of `key`. */
  predicate SortedDesc<T>(s: seq<T>, key: T -> int) {
    forall i, j :: 0 <= i < j < |s| ==> key(s[i]) >= key(s[j])
  }

  /** Every row of `s` has a key no greater than `bound`. */
  predicate AllAtMost<T>(s: seq<T>, key: T -> int, bound: int) {
    forall i :: 0 <= i < |s| ==> key(s[i]) <= bound
  }

  /** Inserts `x` into a descending sequence, before the rows with an equal key. */
  function InsertDesc<T>(x: T, s: seq<T>, key: T -> int): (r: seq<T>)
    requires SortedDesc(s, key)
    ensures SortedDesc(r, key)
    ensures multiset(r) == multiset(s) + multiset{x}
    ensures forall b :: AllAtMost(s, key, b) && key(x) <= b ==> AllAtMost(r, key, b)
  {
    if s == [] then [x]
    else if key(x) >= key(s[0]) then
      InsertFront(x, s, key);
      [x] + s
    else
      var rest := InsertDesc(x, s[1..], key);
      InsertBelow(x, s, rest, key);
      [s[0]] + rest
  }

  /** `x` goes in front of rows whose keys are no greater. */
  lemma InsertFront<T>(x: T, s: seq<T>, key: T -> int)
    requires SortedDesc(s, key) && s != [] && key(x) >= key(s[0])
    ensures SortedDesc([x] + s, key)
    ensures multiset([x] + s) == multiset(s) + multiset{x}
    ensures forall b :: AllAtMost(s, key, b) && key(x) <= b ==> AllAtMost([x] + s, key, b)
  {
    ConsSorted(x, s, key);
  }

  /** `x` goes below the head when the head's key is greater. */
  lemma InsertBelow<T>(x: T, s: seq<T>, rest: seq<T>, key: T -> int)
    requires SortedDesc(s, key) && s != [] && key(x) < key(s[0])
    requires SortedDesc(rest, key) && multiset(rest) == multiset(s[1..]) + multiset{x}
    requires forall b :: AllAtMost(s[1..], key, b) && key(x) <= b ==> AllAtMost(rest, key, b)
    ensures SortedDesc([s[0]] + rest, key)
    ensures multiset([s[0]] + rest) == multiset(s) + multiset{x}
    ensures forall b :: AllAtMost(s, key, b) && key(x) <= b ==> AllAtMost([s[0]] + rest, key, b)
  {
    assert AllAtMost(s[1..], key, key(s[0]));
    assert AllAtMost(rest, key, key(s[0]));
    ConsSorted(s[0], rest, key);
    assert s == [s[0]] + s[1..];
    forall b | AllAtMost(s, key, b) && key(x) <= b ensures AllAtMost([s[0]] + rest, key, b) {
      assert AllAtMost(s[1..], key, b);
    }
  }

  /** The tail of a descending sequence is descending. */
  lemma SortedTail<T>(t: seq<T>, key: T -> int)
    requires SortedDesc(t, key) && t != []
    ensures SortedDesc(t[1..], key)
  {
    forall i, j | 0 <= i < j < |t| - 1 ensures key(t[1..][i]) >= key(t[1..][j]) {
      assert t[1..][i] == t[i + 1] && t[1..][j] == t[j + 1];
    }
  }

  /** A row no lower than a descending sequence goes in front of it. */
  lemma ConsSorted<T>(x: T, r: seq<T>, key: T -> int)
    requires SortedDesc(r, key) && AllAtMost(r, key, key(x))
    ensures SortedDesc([x] + r, key)
  {
  }

  /** Insertion sort: a descending permutation of `s`. */
  function SortDesc<T>(s: seq<T>, key: T -> int): (r: seq<T>)
    ensures SortedDesc(r, key)
    ensures multiset(r) == multiset(s)
  {
    if s == [] then []
    else
      assert s == [s[0]] + s[1..];
      InsertDesc(s[0], SortDesc(s[1..], key), key)
  }

  /** A map that keeps every key keeps a descending sequence descending. */
  lemma MapKeepsSorted<T>(t: seq<T>, key: T -> int, f: T -> T)
    requires SortedDesc(t, key)
    requires forall y :: key(f(y)) == key(y)
    ensures SortedDesc(Map(t, f), key)
  {
  }

  /** Inserting and then mapping is mapping and then inserting the image. */
  lemma {:induction false} InsertDescMap<T>(x: T, t: seq<T>, key: T -> int, f: T -> T)
    requires SortedDesc(t, key)
    requires forall y :: key(f(y)) == key(y)
    ensures SortedDesc(Map(t, f), key)
    ensures Map(InsertDesc(x, t, key), f) == InsertDesc(f(x), Map(t, f), key)
  {
    MapKeepsSorted(t, key, f);
    if t != [] {
      if key(x) >= key(t[0]) {
        assert InsertDesc(x, t, key) == [x] + t;
        MapCons(x, t, f);
      } else {
        InsertDescMap(x, t[1..], key, f);
        InsertBelowHeadMap(x, t, key, f);
      }
    }
  }

  /** The step of `InsertDescMap` where `x` goes below the head. */
  lemma InsertBelowHeadMap<T>(x: T, t: seq<T>, key: T -> int, f: T -> T)
    requires SortedDesc(t, key) && t != [] && key(x) < key(t[0])
    requires forall y :: key(f(y)) == key(y)
    requires SortedDesc(Map(t, f), key) && SortedDesc(Map(t[1..], f), key)
    requires Map(InsertDesc(x, t[1..], key), f) == InsertDesc(f(x), Map(t[1..], f), key)
    ensures Map(InsertDesc(x, t, key), f) == InsertDesc(f(x), Map(t, f), key)
  {
    SortedTail(t, key);
    var rest := InsertDesc(x, t[1..], key);
    assert InsertDesc(x, t, key) == [t[0]] + rest;
    MapCons(t[0], rest, f);
    var m := Map(t, f);
    assert m[0] == f(t[0]) && m[1..] == Map(t[1..], f);
    assert key(f(x)) < key(m[0]) by {
      assert key(f(x)) == key(x) && key(f(t[0])) == key(t[0]);
    }
    assert InsertDesc(f(x), m, key) == [m[0]] + InsertDesc(f(x), m[1..], key);
  }

  /** Sorting commutes with a map that keeps every key: mapping the sorted
      rows gives the sorted mapped rows. */
  lemma {:induction false} SortDescMap<T>(s: seq<T>, key: T -> int, f: T -> T)
    requires forall y :: key(f(y)) == key(y)
    ensures SortDesc(Map(s, f), key) == Map(SortDesc(s, key), f)
  {
    if s != [] {
      assert Map(s, f)[1..] == Map(s[1..], f);
      SortDescMap(s[1..], key, f);
      InsertDescMap(s[0], SortDesc(s[1..], key), key, f);
    }
  }

  /** Filtering a descending sequence keeps it descending, below its head. */
  lemma {:induction false} FilterKeepsSorted<T>(t: seq<T>, key: T -> int, p: T -> bool)
    requires SortedDesc(t, key)
    ensures SortedDesc(Filter(t, p), key)
    ensures t != [] ==> AllAtMost(Filter(t, p), key, key(t[0]))
  {
    if t != [] {
      FilterKeepsSorted(t[1..], key, p);
      var r := Filter(t[1..], p);
      assert AllAtMost(r, key, key(t[0])) by {
        forall i | 0 <= i < |r| ensures key(r[i]) <= key(t[0]) {
          assert r[i] in t[1..];
        }
      }
      FilterHead(t, p);
      if p(t[0]) {
        ConsSorted(t[0], r, key);
      }
    }
  }

  /** Inserting and then filtering is filtering and then inserting, when the
      inserted row passes the filter. */
  lemma {:induction false} InsertDescFilter<T>(x: T, t: seq<T>, key: T -> int, p: T -> bool)
    requires SortedDesc(t, key)
    ensures SortedDesc(Filter(t, p), key)
    ensures Filter(InsertDesc(x, t, key), p) ==
      if p(x) then InsertDesc(x, Filter(t, p), key) else Filter(t, p)
  {
    FilterKeepsSorted(t, key, p);
    if t == [] {
      FilterCons(x, [], p);
      assert [x] + [] == [x];
    } else if key(x) >= key(t[0]) {
      InsertAboveHeadFilter(x, t, key, p);
    } else {
      InsertDescFilter(x, t[1..], key, p);
      InsertBelowHeadFilter(x, t, key, p);
    }
  }

  /** The case of `InsertDescFilter` where `x` goes in front. */
  lemma InsertAboveHeadFilter<T>(x: T, t: seq<T>, key: T -> int, p: T -> bool)
    requires SortedDesc(t, key) && t != [] && key(x) >= key(t[0])
    ensures SortedDesc(Filter(t, p), key)
    ensures Filter(InsertDesc(x, t, key), p) ==
      if p(x) then InsertDesc(x, Filter(t, p), key) else Filter(t, p)
  {
    FilterKeepsSorted(t, key, p);
    var r := Filter(t, p);
    InsertsInFront(x, t, key);
    FilterCons(x, t, p);
    if p(x) {
      assert r == [] || key(x) >= key(r[0]) by {
        if r != [] { assert AllAtMost(r, key, key(t[0])); }
      }
      InsertsInFront(x, r, key);
    }
  }

  /** Rows no higher than `x` get `x` in front. */
  lemma InsertsInFront<T>(x: T, s: seq<T>, key: T -> int)
    requires SortedDesc(s, key) && (s == [] || key(x) >= key(s[0]))
    ensures InsertDesc(x, s, key) == [x] + s
  {
    if s == [] { assert [x] + s == [x]; }
  }

  /** The step of `InsertDescFilter` where `x` goes below the head. */
  lemma InsertBelowHeadFilter<T>(x: T, t: seq<T>, key: T -> int, p: T -> bool)
    requires SortedDesc(t, key) && t != [] && key(x) < key(t[0])
    requires SortedDesc(Filter(t[1..], p), key)
    requires Filter(InsertDesc(x, t[1..], key), p) ==
      if p(x) then InsertDesc(x, Filter(t[1..], p), key) else Filter(t[1..], p)
    ensures SortedDesc(Filter(t, p), key)
    ensures Filter(InsertDesc(x, t, key), p) ==
      if p(x) then InsertDesc(x, Filter(t, p), key) else Filter(t, p)
  {
    FilterKeepsSorted(t, key, p);
    SortedTail(t, key);
    var rest := InsertDesc(x, t[1..], key);
    assert InsertDesc(x, t, key) == [t[0]] + rest;
    FilterCons(t[0], rest, p);
    FilterHead(t, p);
    if p(x) && p(t[0]) {
      KeptBelowHead(x, t[0], Filter(t[1..], p), key);
    }
  }

  /** Inserting below a head that stays is inserting into the rest. */
  lemma KeptBelowHead<T>(x: T, h: T, r: seq<T>, key: T -> int)
    requires SortedDesc([h] + r, key) && key(x) < key(h)
    ensures SortedDesc(r, key)
    ensures InsertDesc(x, [h] + r, key) == [h] + InsertDesc(x, r, key)
  {
    assert ([h] + r)[0] == h && ([h] + r)[1..] == r;
    SortedTail([h] + r, key);
  }


  /** Sorting commutes with filtering: filtering the sorted rows gives the
      sorted filtered rows. */
  lemma {:induction false} SortDescFilter<T>(s: seq<T>, key: T -> int, p: T -> bool)
    ensures SortDesc(Filter(s, p), key) == Filter(SortDesc(s, key), p)
  {
    if s != [] {
      assert s == [s[0]] + s[1..];
      FilterCons(s[0], s[1..], p);
      SortDescFilter(s[1..], key, p);
      InsertDescFilter(s[0], SortDesc(s[1..], key), key, p);
      if p(s[0]) {
        var f := Filter(s, p);
        assert f[0] == s[0] && f[1..] == Filter(s[1..], p);
      }
    }
  }
}

=== FILE: store.dfy ===
/** The persisted records and the database that holds them.

    Each table is a sequence of rows in storage order, which is the order a
    query without `orderBy` sees them in; ids come from a per-table
    autoincrement counter. Columns the code may leave unset are `Option`s. */
module Store {
  import opened Wrappers
  import Seqs

  datatype Project = Project(
    id: int,
    title: string,
    slug: string,
    category: Option<string>,
    description: Option<string>,
    thumbnail: Option<string>,
    createdAt: int)

  /** A canvas element as stored: its style object is kept as JSON text. */
  datatype CanvasElement = CanvasElement(
    id: int,
    projectId: int,
    kind: string,
    content: string,
    x: real,
    y: real,
    width: real,
    height: real,
    styles: string)

  datatype ArchiveItem = ArchiveItem(
    id: int,
    title: string,
    fileUrl: string,
    kind: string,
    category: Option<string>,
    description: Option<string>,
    orientation: Option<string>,
    thumbnail: Option<string>,
    createdAt: int)

  datatype Db = Db(
    projects: seq<Project>,
    elements: seq<CanvasElement>,
    archive: seq<ArchiveItem>,
    nextProjectId: int,
    nextElementId: int,
    nextArchiveId: int)

  /** Row ids are unique and below the table's autoincrement counter. */
  predicate ProjectKeys(rows: seq<Project>, next: int) {
    && (forall a, b :: a in rows && b in rows && a.id == b.id ==> a == b)
    && (forall a :: a in rows ==> a.id < next)
  }

  predicate ElementKeys(rows: seq<CanvasElement>, next: int) {
    && (forall a, b :: a in rows && b in rows && a.id == b.id ==> a == b)
    && (forall a :: a in rows ==> a.id < next)
  }

  predicate ArchiveKeys(rows: seq<ArchiveItem>, next: int) {
    && (forall a, b :: a in rows && b in rows && a.id == b.id ==> a == b)
    && (forall a :: a in rows ==> a.id < next)
  }

  /** No two projects share a slug. */
  predicate UniqueSlugs(rows: seq<Project>) {
    forall a, b :: a in rows && b in rows && a.slug == b.slug ==> a == b
  }

  function ProjectIds(projects: seq<Project>): set<int> {
    set p | p in projects :: p.id
  }

  /** The invariants the database keeps: unique keys below the counters,
      unique slugs, and every canvas element owned by an existing project. */
  predicate Valid(db: Db) {
    && ProjectKeys(db.projects, db.nextProjectId)
    && ElementKeys(db.elements, db.nextElementId)
    && ArchiveKeys(db.archive, db.nextArchiveId)
    && UniqueSlugs(db.projects)
    && (forall e :: e in db.elements ==> e.projectId in ProjectIds(db.projects))
  }

  /** A new project table with the same ids, unique keys and unique slugs
      keeps the invariants. */
  lemma ValidWithProjects(db: Db, rows: seq<Project>)
    requires Valid(db)
    requires ProjectIds(rows) == ProjectIds(db.projects)
    requires ProjectKeys(rows, db.nextProjectId) && UniqueSlugs(rows)
    ensures Valid(db.(projects := rows))
  {
  }

  /** The elements owned by project `pid`, in table order. */
  function ElementsOf(elements: seq<CanvasElement>, pid: int): (r: seq<CanvasElement>)
    ensures forall e :: e in r <==> e in elements && e.projectId == pid
    ensures |r| <= |elements|
  {
    if elements == [] then []
    else if elements[0].projectId == pid then [elements[0]] + ElementsOf(elements[1..], pid)
    else ElementsOf(elements[1..], pid)
  }

  /** The elements not owned by project `pid`, in table order (`deleteMany`). */
  function ElementsNotOf(elements: seq<CanvasElement>, pid: int): (r: seq<CanvasElement>)
    ensures forall e :: e in r <==> e in elements && e.projectId != pid
    ensures |r| <= |elements|
    ensures Seqs.Subsequence(r, elements)
  {
    if elements == [] then []
    else if elements[0].projectId != pid then [elements[0]] + ElementsNotOf(elements[1..], pid)
    else ElementsNotOf(elements[1..], pid)
  }

  /** Elements whose owners are all in `projects` keep that property when both
      tables are rewritten row by row without touching ids and owners. */
  lemma OwnersKept(projects: seq<Project>, elements: seq<CanvasElement>,
                   projects2: seq<Project>, elements2: seq<CanvasElement>)
    requires forall e :: e in elements ==> e.projectId in ProjectIds(projects)
    requires |projects2| == |projects| && |elements2| == |elements|
    requires forall i :: 0 <= i < |projects| ==> projects2[i].id == projects[i].id
    requires forall i :: 0 <= i < |elements| ==> elements2[i].projectId == elements[i].projectId
    ensures forall e :: e in elements2 ==> e.projectId in ProjectIds(projects2)
  {
    forall e | e in elements2
      ensures e.projectId in ProjectIds(projects2)
    {
      var i :| 0 <= i < |elements2| && elements2[i] == e;
      assert elements[i] in elements;
      var p :| p in projects && p.id == elements[i].projectId;
      var k :| 0 <= k < |projects| && projects[k] == p;
      assert projects2[k] in projects2;
    }
  }

  /** Row-by-row rewrites that keep ids (and, for projects, slugs) keep the keys. */
  lemma ProjectKeysKept(rows: seq<Project>, r: seq<Project>, next: int)
    requires ProjectKeys(rows, next)
    requires UniqueSlugs(rows)
    requires |r| == |rows|
    requires forall i :: 0 <= i < |rows| ==> r[i].id == rows[i].id && r[i].slug == rows[i].slug
    requires forall i, j :: 0 <= i < |rows| && 0 <= j < |rows| && rows[i] == rows[j] ==> r[i] == r[j]
    ensures ProjectKeys(r, next)
    ensures UniqueSlugs(r)
  {
    forall a, b | a in r && b in r && a != b
      ensures a.id != b.id && a.slug != b.slug
    {
      var i :| 0 <= i < |r| && r[i] == a;
      var j :| 0 <= j < |r| && r[j] == b;
      assert rows[i] in rows && rows[j] in rows;
      assert rows[i] != rows[j];
    }
    forall a | a in r ensures a.id < next {
      var i :| 0 <= i < |r| && r[i] == a;
      assert rows[i] in rows;
    }
  }

  lemma ArchiveKeysKept(rows: seq<ArchiveItem>, r: seq<ArchiveItem>, next: int)
    requires ArchiveKeys(rows, next)
    requires |r| == |rows|
    requires forall i :: 0 <= i < |rows| ==> r[i].id == rows[i].id
    requires forall i, j :: 0 <= i < |rows| && 0 <= j < |rows| && rows[i] == rows[j] ==> r[i] == r[j]
    ensures ArchiveKeys(r, next)
  {
    forall a, b | a in r && b in r && a != b
      ensures a.id != b.id
    {
      var i :| 0 <= i < |r| && r[i] == a;
      var j :| 0 <= j < |r| && r[j] == b;
      assert rows[i] in rows && rows[j] in rows;
      assert rows[i] != rows[j];
    }
    forall a | a in r ensures a.id < next {
      var i :| 0 <= i < |r| && r[i] == a;
      assert rows[i] in rows;
    }
  }

  lemma ElementKeysKept(rows: seq<CanvasElement>, r: seq<CanvasElement>, next: int)
    requires ElementKeys(rows, next)
    requires |r| == |rows|
    requires forall i :: 0 <= i < |rows| ==> r[i].id == rows[i].id
    requires forall i, j :: 0 <= i < |rows| && 0 <= j < |rows| && rows[i] == rows[j] ==> r[i] == r[j]
    ensures ElementKeys(r, next)
  {
    forall a, b | a in r && b in r && a != b
      ensures a.id != b.id
    {
      var i :| 0 <= i < |r| && r[i] == a;
      var j :| 0 <= j < |r| && r[j] == b;
      assert rows[i] in rows && rows[j] in rows;
      assert rows[i] != rows[j];
    }
    forall a | a in r ensures a.id < next {
      var i :| 0 <= i < |r| && r[i] == a;
      assert rows[i] in rows;
    }
  }
}

/** The shape of an HTTP reply from the API routes. */
module Http {

  /** The text of an error reply. `EngineText` is the message of an exception
      raised by the database client, whose wording is not part of this model. */
  datatype Message = Text(text: string) | EngineText

  /** `res.json(value)` (status 200) or `res.status(status).json({ error, ... })`;
      of a failure's body only the `error` text is modelled. */
  datatype Reply<T> = Ok(value: T) | Fail(status: int, error: Message)
}

=== FILE: telegram_route.dfy ===
/** The contact-form relay `POST /api/telegram/send` (server/routes/telegram.js).
    The bot credentials come from the environment and the outcome of the call
    to the Telegram Bot API is a parameter. */
module TelegramRoute {
  import opened Wrappers
  import opened JsString
  import opened Http

  const RequiredError := "Name and Contact are required"
  const ConfigError := "Server configuration error (Telegram)"
  const SendError := "Failed to send to Telegram"
  const NetworkError := "Network error sending to Telegram"
  const NoFormat := "Не указан"
  const NoDescription := "Без описания"

  /** The JSON body of the request; None is a field the form left out. */
  datatype Request = Request(
    name: Option<string>,
    contact: Option<string>,
    description: Option<string>,
    formats: Option<seq<string>>)

  /** The two environment variables the route reads. */
  datatype Config = Config(token: Option<string>, chatId: Option<string>)

  /** What the Bot API call came to: an exception (from `fetch` or from reading
      the JSON body), or an answer with its HTTP status test and its `ok` field. */
  datatype Delivery = Thrown | Answered(httpOk: bool, dataOk: bool)

  /** The `sendMessage` call the route makes. */
  datatype Outbound = Outbound(url: string, chatId: string, text: string, parseMode: string)

  /** The route's effect: the outbound call, if one is made, and the reply. */
  datatype Outcome = Outcome(call: Option<Outbound>, reply: Reply<bool>)

  /** `formats.join(', ')`, or the placeholder when the list is missing or empty. */
  function FormatList(formats: Option<seq<string>>): (r: string)
    ensures formats.None? || formats.value == [] ==> r == NoFormat
    ensures formats.Some? && |formats.value| == 1 ==> r == formats.value[0]
    ensures formats.Some? && |formats.value| > 0 ==> StartsWith(r, formats.value[0])
  {
    if formats.Some? && |formats.value| > 0 then Join(formats.value, ", ") else NoFormat
  }

  /** Appending a format appends ", " and that format: with `FormatList` of a
      single format, this fixes the list for every length. */
  lemma FormatListSnoc(fs: seq<string>, x: string)
    requires fs != []
    ensures FormatList(Some(fs + [x])) == FormatList(Some(fs)) + ", " + x
  {
    JoinSnoc(fs, x, ", ");
  }

  /** The text before, between and after the four fields of the message. */
  const Head := "\n🚀 <b>НОВАЯ ЗАЯВКА</b>\n\n👤 <b>Имя:</b> "
  const BeforeContact := "\n📧 <b>Связь:</b> "
  const BeforeFormats := "\n🏷 <b>Формат:</b> "
  const BeforeDescription := "\n\n📝 <b>Описание:</b>\n"
  const Tail := "\n    "

  /** The HTML message sent to the channel. */
  function Message(name: string, contact: string, formatList: string, description: string): string {
    Head + name + BeforeContact + contact + BeforeFormats + formatList + BeforeDescription + description + Tail
  }

  /** The message holds name, contact, format list and description, in that
      order, each right after its label, and ends with the template's tail. */
  lemma MessageFieldsInOrder(name: string, contact: string, formatList: string, description: string)
    ensures var m := Message(name, contact, formatList, description);
      var i1 := |Head|;
      var i2 := i1 + |name| + |BeforeContact|;
      var i3 := i2 + |contact| + |BeforeFormats|;
      var i4 := i3 + |formatList| + |BeforeDescription|;
      && StartsWith(m, Head)
      && OccursAt(m, name, i1)
      && OccursAt(m, BeforeContact, i1 + |name|)
      && OccursAt(m, contact, i2)
      && OccursAt(m, BeforeFormats, i2 + |contact|)
      && OccursAt(m, formatList, i3)
      && OccursAt(m, BeforeDescription, i3 + |formatList|)
      && OccursAt(m, description, i4)
      && EndsWith(m, Tail) && |m| == i4 + |description| + |Tail|
  {
    var p2 := Head + name;
    var p3 := p2 + BeforeContact;
    var p4 := p3 + contact;
    var p5 := p4 + BeforeFormats;
    var p6 := p5 + formatList;
    var p7 := p6 + BeforeDescription;
    var p8 := p7 + description;
    var m := p8 + Tail;
    assert m == Message(name, contact, formatList, description);
    EndsAfter(p8, Tail);
    Extends(p7, description, m);
    Extends(p6, BeforeDescription, m);
    Extends(p5, formatList, m);
    Extends(p4, BeforeFormats, m);
    Extends(p3, contact, m);
    Extends(p2, BeforeContact, m);
    Extends(Head, name, m);
    assert StartsWith(p2, Head);
  }

  /** `p + x` starts `m`: so does `p`, and `x` sits right after it. */
  lemma Extends(p: string, x: string, m: string)
    requires StartsWith(m, p + x)
    ensures StartsWith(m, p) && OccursAt(m, x, |p|)
  {
    assert m[..|p|] == (p + x)[..|p|] == p;
    assert m[|p|..|p| + |x|] == (p + x)[|p|..] == x;
  }

  /** A string starts with its first part and ends with its last. */
  lemma EndsAfter(p: string, t: string)
    ensures StartsWith(p + t, p) && EndsWith(p + t, t)
  {
    assert (p + t)[..|p|] == p;
    assert (p + t)[|p|..] == t;
  }

  /** The route handler. */
  function Send(req: Request, cfg: Config, delivery: Delivery): (r: Outcome)
    ensures !Truthy(req.name) || !Truthy(req.contact) ==>
      r == Outcome(None, Fail(400, Text(RequiredError)))
    ensures Truthy(req.name) && Truthy(req.contact) && (!Truthy(cfg.token) || !Truthy(cfg.chatId)) ==>
      r == Outcome(None, Fail(500, Text(ConfigError)))
    ensures r.call.Some? <==>
      Truthy(req.name) && Truthy(req.contact) && Truthy(cfg.token) && Truthy(cfg.chatId)
    ensures r.call.Some? ==>
      && r.call.value.url == "https://api.telegram.org/bot" + cfg.token.value + "/sendMessage"
      && r.call.value.chatId == cfg.chatId.value
      && r.call.value.parseMode == "HTML"
      && r.call.value.text == Message(req.name.value, req.contact.value, FormatList(req.formats),
                                      OrElse(req.description, NoDescription))
    ensures r.call.Some? ==>
      && (delivery.Thrown? ==> r.reply == Fail(500, Text(NetworkError)))
      && (delivery.Answered? && !(delivery.httpOk && delivery.dataOk) ==> r.reply == Fail(500, Text(SendError)))
    ensures r.reply.Ok? <==> r.call.Some? && delivery == Answered(true, true)
    ensures r.reply.Ok? ==> r.reply.value
  {
    if !Truthy(req.name) || !Truthy(req.contact) then
      Outcome(None, Fail(400, Text(RequiredError)))
    else if !Truthy(cfg.token) || !Truthy(cfg.chatId) then
      Outcome(None, Fail(500, Text(ConfigError)))
    else
      var text := Message(req.name.value, req.contact.value, FormatList(req.formats),
                          OrElse(req.description, NoDescription));
      var call := Outbound("https://api.telegram.org/bot" + cfg.token.value + "/sendMessage",
                           cfg.chatId.value, text, "HTML");
      var reply := match delivery
        case Thrown => Fail(500, Text(NetworkError))
        case Answered(httpOk, dataOk) =>
          if httpOk then (if dataOk then Ok(true) else Fail(500, Text(SendError)))
          else Fail(500, Text(SendError));
      Outcome(Some(call), reply)
  }

  /** A form without a description carries the placeholder in its place. */
  lemma DefaultDescription(req: Request, cfg: Config, d: Delivery)
    requires Truthy(req.name) && Truthy(req.contact) && Truthy(cfg.token) && Truthy(cfg.chatId)
    requires !Truthy(req.description)
    ensures OccursAt(Send(req, cfg, d).call.value.text, NoDescription,
                     |Send(req, cfg, d).call.value.text| - |Tail| - |NoDescription|)
  {
    MessageFieldsInOrder(req.name.value, req.contact.value, FormatList(req.formats), NoDescription);
  }

  /** Two formats are listed with a comma between them. */
  lemma TwoFormats(a: string, b: string)
    ensures FormatList(Some([a, b])) == a + ", " + b
  {
    assert [a, b][1..] == [b];
    assert Join([a, b], ", ") == a + ", " + Join([b], ", ");
  }
}

=== FILE: uploads.dfy ===
/** How the client turns a stored media name into a URL. */
module Uploads {
  import opened JsString

  /** `name.startsWith('http') ? name : '/uploads/' + name`: absolute URLs are
      kept, bare file names are served from the uploads folder. */
  function MediaSrc(name: string): (r: string)
    ensures StartsWith(name, "http") ==> r == name
    ensures !StartsWith(name, "http") ==> StartsWith(r, "/uploads/") && r[|"/uploads/"|..] == name
  {
    if StartsWith(name, "http") then name else "/uploads/" + name
  }

  /** A name is never prefixed twice: the result of `MediaSrc` is a fixed point
      only for absolute URLs, and a bare name maps to a path that is not one. */
  lemma MediaSrcPrefixOnce(name: string)
    ensures StartsWith(MediaSrc(name), "http") <==> StartsWith(name, "http")
  {
    if !StartsWith(name, "http") {
      assert MediaSrc(name)[0] == '/';
    }
  }
}

=== FILE: video_player.dfy ===
/** The modal player (src/components/SmartVideoPlayer/index.jsx): which layout a
    video gets, which background layer is drawn, and whether the main frame is
    a YouTube embed or a video element. */
module VideoPlayer {
  import opened Wrappers
  import opened YouTube

  /** The player's properties; None is a property the caller leaves out. */
  datatype Props = Props(
    src: Option<string>,
    title: Option<string>,
    description: Option<string>,
    kind: Option<string>,
    thumbnail: Option<string>)

  datatype Layout = Horizontal | Vertical

  /** `handleLoadedMetadata`: portrait videos get the vertical layout; square
      and landscape ones the horizontal one. */
  function LayoutFor(videoWidth: nat, videoHeight: nat): (r: Layout)
    ensures r == Vertical <==> videoHeight > videoWidth
  {
    if videoHeight > videoWidth then Vertical else Horizontal
  }

  /** Turning a non-square video on its side flips its layout. */
  lemma LayoutFlips(w: nat, h: nat)
    requires w != h
    ensures LayoutFor(w, h) != LayoutFor(h, w)
  {
  }

  /** A JavaScript value spliced into a template literal: `null` prints as "null". */
  function InTemplate(v: Option<string>): string {
    match v
    case Some(s) => s
    case None => "null"
  }

  /** `https://img.youtube.com/vi/${id}/maxresdefault.jpg` */
  function PosterUrl(id: Option<string>): string {
    "https://img.youtube.com/vi/" + InTemplate(id) + "/maxresdefault.jpg"
  }

  /** `https://www.youtube.com/embed/${id}?autoplay=1&rel=0` */
  function EmbedUrl(id: Option<string>): string {
    "https://www.youtube.com/embed/" + InTemplate(id) + "?autoplay=1&rel=0"
  }

  /** The main frame of the player. */
  datatype Frame = YouTubeFrame(embedSrc: string) | VideoElement(videoSrc: string)

  /** What the player draws: the blurred looping copy of the video, the
      blurred background image, the main frame, and the info panel. */
  datatype View = View(
    blurVideo: Option<string>,
    blurImage: Option<string>,
    frame: Frame,
    titleShown: Option<string>,
    descriptionShown: Option<string>,
    layout: Layout)

  /** `backgroundUrl`: the thumbnail, else for YouTube the id's poster image, else none. */
  function BackgroundUrl(p: Props): (r: Option<string>)
    requires Truthy(p.src)
    ensures Truthy(p.thumbnail) ==> r == p.thumbnail
    ensures !Truthy(p.thumbnail) && p.kind == Some("youtube") ==> r == Some(PosterUrl(YoutubeId(p.src)))
    ensures !Truthy(p.thumbnail) && p.kind != Some("youtube") ==> r.None?
    ensures r.Some? ==> r.value != ""
  {
    if Truthy(p.thumbnail) then p.thumbnail
    else if p.kind == Some("youtube") then Some(PosterUrl(YoutubeId(p.src)))
    else None
  }

  /** The rendered player; None (nothing at all) when `src` is missing or empty.
      `layout` is the layout state, set by the last metadata event. */
  function Render(p: Props, layout: Layout): (r: Option<View>)
    ensures r.None? <==> !Truthy(p.src)
    ensures r.Some? ==> (r.value.frame.YouTubeFrame? <==> p.kind == Some("youtube"))
    ensures r.Some? && p.kind == Some("youtube") ==>
      r.value.frame == YouTubeFrame(EmbedUrl(YoutubeId(p.src)))
    ensures r.Some? && p.kind != Some("youtube") ==> r.value.frame == VideoElement(p.src.value)
    ensures r.Some? ==> (r.value.blurVideo.Some? <==> !Truthy(p.thumbnail) && p.kind != Some("youtube"))
    ensures r.Some? ==> (r.value.blurVideo.Some? ==> r.value.blurVideo == p.src)
    ensures r.Some? ==> (r.value.blurImage.Some? <==> Truthy(p.thumbnail) || p.kind == Some("youtube"))
    ensures r.Some? && r.value.blurImage.Some? ==> r.value.blurImage == BackgroundUrl(p)
    ensures r.Some? ==> (r.value.titleShown.Some? <==> Truthy(p.title))
    ensures r.Some? ==> (r.value.descriptionShown.Some? <==> Truthy(p.description))
  {
    if !Truthy(p.src) then None
    else
      var isYoutube := p.kind == Some("youtube");
      var youtubeId := if isYoutube then YoutubeId(p.src) else None;
      var backgroundUrl := BackgroundUrl(p);
      Some(View(
        if !Truthy(backgroundUrl) && !isYoutube then p.src else None,
        if Truthy(backgroundUrl) then backgroundUrl else None,
        if isYoutube then YouTubeFrame(EmbedUrl(youtubeId)) else VideoElement(p.src.value),
        if Truthy(p.title) then p.title else None,
        if Truthy(p.description) then p.description else None,
        layout))
  }

  /** Exactly one of the two background layers is drawn: never both, and since
      a YouTube item always has a poster, never neither. */
  lemma OneBackgroundLayer(p: Props, layout: Layout)
    requires Truthy(p.src)
    ensures Render(p, layout).value.blurVideo.Some? != Render(p, layout).value.blurImage.Some?
  {
  }

  /** A YouTube item without a thumbnail shows the poster of its own video
      behind the embed of the same video. */
  lemma YouTubePosterMatchesEmbed(prefix: string, id: string, layout: Layout)
    requires NoTerminator(prefix)
    requires |id| == 11 && forall k :: 0 <= k < |id| ==> IsIdChar(id[k])
    ensures var p := Props(Some(prefix + "watch?v=" + id), None, None, Some("youtube"), None);
      && Render(p, layout).value.blurImage == Some("https://img.youtube.com/vi/" + id + "/maxresdefault.jpg")
      && Render(p, layout).value.frame == YouTubeFrame("https://www.youtube.com/embed/" + id + "?autoplay=1&rel=0")
  {
    WatchUrlId(prefix, id);
  }
}

=== FILE: wrappers.dfy ===
/** Optional values: JavaScript's `undefined`/`null`/missing field, made explicit. */
module Wrappers {

  datatype Option<+T> = None | Some(value: T) {

    /** Returns the value in Some, or `default` when None (JavaScript's `x ?? default`). */
    function GetOr(default: T): T {
      match this
      case Some(v) => v
      case None => default
    }
  }

  /** JavaScript truthiness of an optional string: present and non-empty. */
  predicate Truthy(s: Option<string>) {
    s.Some? && s.value != ""
  }

  /** `a || b` on optional strings: `a` when it is truthy, `b` otherwise. */
  function OrElse(a: Option<string>, b: string): string {
    if Truthy(a) then a.value else b
  }
}

=== FILE: youtube.dfy ===
/** `getYoutubeId`, written out twice with the same body in the archive grid
    (src/components/Portfolio/index.jsx) and in the video player
    (src/components/SmartVideoPlayer/index.jsx): the regular expression
    `^.*(youtu.be\/|v\/|u\/\w\/|embed\/|watch\?v=|&v=)([^#&?]*).*` and the
    11-character check on its second group. */
module YouTube {
  import opened Wrappers

  /** One position of a marker: a literal character, the unescaped `.` (any
      character but a line terminator), or `\w`. */
  datatype Tok = Lit(c: char) | AnyButTerminator | WordChar

  /** The characters `.` does not match. */
  predicate IsTerminator(c: char) {
    c == '\n' || c == '\r' || c == '\U{2028}' || c == '\U{2029}'
  }

  /** `\w`: `[A-Za-z0-9_]`. */
  predicate IsWordChar(c: char) {
    ('a' <= c <= 'z') || ('A' <= c <= 'Z') || ('0' <= c <= '9') || c == '_'
  }

  /** The characters that end the captured id: the class `[^#&?]` excludes them. */
  predicate IsStop(c: char) {
    c == '#' || c == '&' || c == '?'
  }

  predicate TokMatches(t: Tok, c: char) {
    match t
    case Lit(d) => c == d
    case AnyButTerminator => !IsTerminator(c)
    case WordChar => IsWordChar(c)
  }

  const ShortLink: seq<Tok> :=
    [Lit('y'), Lit('o'), Lit('u'), Lit('t'), Lit('u'), AnyButTerminator, Lit('b'), Lit('e'), Lit('/')]
  const VPath: seq<Tok> := [Lit('v'), Lit('/')]
  const UserPath: seq<Tok> := [Lit('u'), Lit('/'), WordChar, Lit('/')]
  const EmbedPath: seq<Tok> := [Lit('e'), Lit('m'), Lit('b'), Lit('e'), Lit('d'), Lit('/')]
  const WatchQuery: seq<Tok> := [Lit('w'), Lit('a'), Lit('t'), Lit('c'), Lit('h'), Lit('?'), Lit('v'), Lit('=')]
  const VParam: seq<Tok> := [Lit('&'), Lit('v'), Lit('=')]

  /** The alternatives of the first group, in the order the regex tries them. */
  const Markers: seq<seq<Tok>> := [ShortLink, VPath, UserPath, EmbedPath, WatchQuery, VParam]

  /** The pattern `pat` matches `s` at `p`. */
  predicate PatternAt(s: string, p: int, pat: seq<Tok>) {
    0 <= p && p + |pat| <= |s| && forall k :: 0 <= k < |pat| ==> TokMatches(pat[k], s[p + k])
  }

  /** The first of `alts` that matches at `p`, as its length. */
  function FirstAlt(s: string, p: int, alts: seq<seq<Tok>>): (r: Option<nat>)
    ensures r.None? <==> forall j :: 0 <= j < |alts| ==> !PatternAt(s, p, alts[j])
    ensures r.Some? ==> exists j :: 0 <= j < |alts| && PatternAt(s, p, alts[j]) && r.value == |alts[j]|
  {
    if alts == [] then None
    else if PatternAt(s, p, alts[0]) then Some(|alts[0]|)
    else
      var r := FirstAlt(s, p, alts[1..]);
      assert forall j :: 1 <= j < |alts| ==> alts[j] == alts[1..][j - 1];
      r
  }

  /** The length of the marker at `p`, if the group matches there. */
  function MarkerAt(s: string, p: int): (r: Option<nat>)
    ensures r.None? <==> forall j :: 0 <= j < |Markers| ==> !PatternAt(s, p, Markers[j])
    ensures r.Some? ==> exists j :: 0 <= j < |Markers| && PatternAt(s, p, Markers[j]) && r.value == |Markers[j]|
  {
    FirstAlt(s, p, Markers)
  }

  /** The alternatives begin with six different characters, so at most one of
      them matches at any position: the order in which they are tried never
      decides the match. */
  lemma MarkersExclusive(s: string, p: int, i: int, j: int)
    requires 0 <= i < |Markers| && 0 <= j < |Markers|
    requires PatternAt(s, p, Markers[i]) && PatternAt(s, p, Markers[j])
    ensures i == j
  {
    assert TokMatches(Markers[i][0], s[p]) && TokMatches(Markers[j][0], s[p]);
  }

  /** No line terminator in `t`. */
  predicate NoTerminator(t: string) {
    forall k :: 0 <= k < |t| ==> !IsTerminator(t[k])
  }

  /** The regex can match with its leading `.*` covering `s[..p]`. */
  predicate Matches(s: string, p: int) {
    0 <= p <= |s| && NoTerminator(s[..p]) && MarkerAt(s, p).Some?
  }

  /** The greedy `.*` settles on the last position where the group matches. */
  predicate Rightmost(s: string, p: int) {
    Matches(s, p) && forall q :: p < q <= |s| ==> !Matches(s, q)
  }

  /** `[^#&?]*` from `i`: the longest run of characters other than `#`, `&` and `?`. */
  function StopRun(s: string, i: int): (r: string)
    requires 0 <= i <= |s|
    ensures i + |r| <= |s| && s[i..i + |r|] == r
    ensures forall k :: 0 <= k < |r| ==> !IsStop(r[k])
    ensures i + |r| == |s| || IsStop(s[i + |r|])
    decreases |s| - i
  {
    if i == |s| || IsStop(s[i]) then ""
    else
      var rest := StopRun(s, i + 1);
      assert s[i..i + 1 + |rest|] == [s[i]] + rest;
      [s[i]] + rest
  }

  /** The second group of the match at `p`. */
  function Capture(s: string, p: int): string
    requires Matches(s, p)
  {
    StopRun(s, p + MarkerAt(s, p).value)
  }

  /** The first line terminator of `s`, or its length. */
  function LineEnd(s: string): (e: nat)
    ensures e <= |s| && NoTerminator(s[..e])
    ensures e == |s| || IsTerminator(s[e])
  {
    if s == [] || IsTerminator(s[0]) then 0
    else
      var e := 1 + LineEnd(s[1..]);
      assert s[..e] == [s[0]] + s[1..][..e - 1];
      e
  }

  /** The regex engine's backtracking over the leading `.*`: from `p` down to 0,
      the first position where a marker starts. */
  function LastMarker(s: string, p: nat): (r: Option<nat>)
    ensures r.Some? ==> r.value <= p && MarkerAt(s, r.value).Some?
    ensures forall q :: (if r.Some? then r.value < q else 0 <= q) && q <= p ==> MarkerAt(s, q).None?
  {
    if MarkerAt(s, p).Some? then Some(p)
    else if p == 0 then None
    else LastMarker(s, p - 1)
  }

  /** Where the regex engine settles: the rightmost position whose prefix holds
      no line terminator and where a marker starts; None when the regex does
      not match. */
  function MatchPos(s: string): (r: Option<nat>)
    ensures r.None? <==> forall p :: 0 <= p <= |s| ==> !Matches(s, p)
    ensures r.Some? ==> Rightmost(s, r.value)
  {
    var e := LineEnd(s);
    var r := LastMarker(s, e);
    forall q | e < q <= |s| ensures !Matches(s, q) {
      assert s[..q][e] == s[e];
    }
    assert r.Some? ==> s[..r.value] == s[..e][..r.value] && Matches(s, r.value);
    forall q | 0 <= q <= e && (r.None? || r.value < q) ensures !Matches(s, q) {
      assert MarkerAt(s, q).None?;
    }
    r
  }

  /** `getYoutubeId(url)`: None for a missing or empty URL, for no match, and for
      a capture whose length is not 11; otherwise the capture. */
  function YoutubeId(url: Option<string>): (r: Option<string>)
    ensures r.Some? ==> |r.value| == 11 && forall k :: 0 <= k < 11 ==> !IsStop(r.value[k])
    ensures !Truthy(url) ==> r.None?
    ensures Truthy(url) && (forall p :: 0 <= p <= |url.value| ==> !Matches(url.value, p)) ==> r.None?
    ensures forall p :: Truthy(url) && Rightmost(url.value, p) ==>
      r == if |Capture(url.value, p)| == 11 then Some(Capture(url.value, p)) else None
  {
    if !Truthy(url) then None
    else
      match MatchPos(url.value)
      case None => None
      case Some(p) =>
        var g := Capture(url.value, p);
        if |g| == 11 then Some(g) else None
  }

  /** The characters of a YouTube video id: `[A-Za-z0-9_-]`. */
  predicate IsIdChar(c: char) {
    IsWordChar(c) || c == '-'
  }

  /** Every marker ends in `/` or `=`, neither of which is an id character, so
      no marker can end inside a run of id characters. */
  lemma NoMarkerEndsInId(s: string, start: int, q: int, j: int)
    requires 0 <= j < |Markers| && 0 <= start
    requires start <= q + |Markers[j]| - 1
    requires forall k :: start <= k < |s| ==> IsIdChar(s[k])
    ensures !PatternAt(s, q, Markers[j])
  {
    var pat := Markers[j];
    if 0 <= q && q + |pat| <= |s| {
      assert pat[|pat| - 1] == Lit('/') || pat[|pat| - 1] == Lit('=');
      assert IsIdChar(s[q + |pat| - 1]);
    }
  }

  /** Whether a pattern matches at `q` depends only on the characters it covers. */
  lemma PatternInSlice(s: string, a: int, b: int, q: int, pat: seq<Tok>)
    requires 0 <= a <= q && q + |pat| <= b <= |s|
    ensures PatternAt(s, q, pat) <==> PatternAt(s[a..b], q - a, pat)
  {
    assert forall k :: 0 <= k < |pat| ==> TokMatches(pat[k], s[a..b][q - a + k]) == TokMatches(pat[k], s[q + k]);
  }

  /** The first two characters each alternative demands. */
  const Heads := "yvuew&"
  const Seconds := "o//mav"

  lemma MarkerHead(s: string, q: int, j: int)
    requires 0 <= j < |Markers| && PatternAt(s, q, Markers[j])
    ensures q + 1 < |s| && s[q] == Heads[j] && s[q + 1] == Seconds[j]
  {
    assert TokMatches(Markers[j][0], s[q]) && TokMatches(Markers[j][1], s[q + 1]);
  }

  /** The marker `w` at `p` is the one the group takes there. */
  lemma MarkerAtStart(s: string, p: int, w: string, j0: int)
    requires 0 <= j0 < |Markers| && |w| == |Markers[j0]| && PatternAt(w, 0, Markers[j0])
    requires 0 <= p && p + |w| <= |s| && s[p..p + |w|] == w
    ensures MarkerAt(s, p) == Some(|w|)
  {
    PatternInSlice(s, p, p + |w|, p, Markers[j0]);
    var j :| 0 <= j < |Markers| && PatternAt(s, p, Markers[j]) && MarkerAt(s, p).value == |Markers[j]|;
    MarkersExclusive(s, p, j, j0);
  }

  /** No marker starts after `p` when `s[p..]` is `w` followed by id characters
      and no marker starts strictly inside `w`. */
  lemma NoMarkerAfter(s: string, p: int, w: string)
    requires 0 <= p && p + |w| <= |s| && s[p..p + |w|] == w
    requires forall q, j :: 0 < q < |w| && 0 <= j < |Markers| ==> !PatternAt(w, q, Markers[j])
    requires forall k :: p + |w| <= k < |s| ==> IsIdChar(s[k])
    ensures forall q :: p < q <= |s| ==> MarkerAt(s, q).None?
  {
    var start := p + |w|;
    forall q, j | p < q <= |s| && 0 <= j < |Markers| ensures !PatternAt(s, q, Markers[j]) {
      if q + |Markers[j]| - 1 >= start {
        NoMarkerEndsInId(s, start, q, j);
      } else {
        PatternInSlice(s, p, start, q, Markers[j]);
      }
    }
  }

  /** A URL made of a line without terminators, one marker `w` (no other marker
      starting inside it), and an 11-character id yields that id. */
  lemma MarkerThenId(prefix: string, w: string, id: string, j0: int)
    requires NoTerminator(prefix)
    requires 0 <= j0 < |Markers| && |w| == |Markers[j0]| && PatternAt(w, 0, Markers[j0])
    requires forall q, j :: 0 < q < |w| && 0 <= j < |Markers| ==> !PatternAt(w, q, Markers[j])
    requires |id| == 11 && forall k :: 0 <= k < |id| ==> IsIdChar(id[k])
    ensures YoutubeId(Some(prefix + w + id)) == Some(id)
  {
    var s := prefix + w + id;
    var p := |prefix|;
    var start := p + |w|;
    assert s[..p] == prefix;
    assert s[p..start] == w;
    assert s[start..] == id;
    IdCharsFrom(s, start, id);
    MarkerAtStart(s, p, w, j0);
    NoMarkerAfter(s, p, w);
    RightmostOf(s, p);
    StopRunToEnd(s, start);
    RightmostGivesCapture(s, p, start);
  }

  /** A marker within the first line, with no marker after it, is where the
      regex settles. */
  lemma RightmostOf(s: string, p: int)
    requires 0 <= p <= |s| && NoTerminator(s[..p]) && MarkerAt(s, p).Some?
    requires forall q :: p < q <= |s| ==> MarkerAt(s, q).None?
    ensures Rightmost(s, p)
  {
  }

  /** The id is the capture at the position where the regex settles. */
  lemma RightmostGivesCapture(s: string, p: int, start: int)
    requires Rightmost(s, p) && MarkerAt(s, p) == Some(start - p)
    requires 0 <= start <= |s| && |s| - start == 11 && StopRun(s, start) == s[start..]
    ensures YoutubeId(Some(s)) == Some(s[start..])
  {
    assert Capture(s, p) == s[start..];
  }

  /** The characters of `s` from `start` on are those of `id`. */
  lemma IdCharsFrom(s: string, start: int, id: string)
    requires 0 <= start <= |s| && s[start..] == id
    requires forall k :: 0 <= k < |id| ==> IsIdChar(id[k])
    ensures forall k :: start <= k < |s| ==> IsIdChar(s[k])
  {
    forall k | start <= k < |s| ensures IsIdChar(s[k]) {
      assert s[k] == s[start..][k - start];
    }
  }

  /** Over id characters the capture runs to the end of the string. */
  lemma StopRunToEnd(s: string, start: int)
    requires 0 <= start <= |s|
    requires forall k :: start <= k < |s| ==> IsIdChar(s[k])
    ensures StopRun(s, start) == s[start..]
  {
  }

  /** No marker starts strictly inside `w`, checked from the first two
      characters each marker demands. */
  lemma NoInnerMarker(w: string)
    requires forall q, j :: 0 < q < |w| - 1 && 0 <= j < |Heads| ==> w[q] != Heads[j] || w[q + 1] != Seconds[j]
    ensures forall q, j :: 0 < q < |w| && 0 <= j < |Markers| ==> !PatternAt(w, q, Markers[j])
  {
    forall q, j | 0 < q < |w| && 0 <= j < |Markers| ensures !PatternAt(w, q, Markers[j]) {
      if PatternAt(w, q, Markers[j]) {
        MarkerHead(w, q, j);
        assert false;
      }
    }
  }

  /** `https://www.youtube.com/watch?v=<id>` and every other URL of the form
      `...watch?v=<id>` yield the id. */
  lemma WatchUrlId(prefix: string, id: string)
    requires NoTerminator(prefix)
    requires |id| == 11 && forall k :: 0 <= k < |id| ==> IsIdChar(id[k])
    ensures YoutubeId(Some(prefix + "watch?v=" + id)) == Some(id)
  {
    var w := "watch?v=";
    assert PatternAt(w, 0, Markers[4]);
    NoInnerMarker(w);
    MarkerThenId(prefix, w, id, 4);
  }

  /** `https://youtu.be/<id>` and every other URL of the form `...youtu.be/<id>`
      yield the id. */
  lemma ShortUrlId(prefix: string, id: string)
    requires NoTerminator(prefix)
    requires |id| == 11 && forall k :: 0 <= k < |id| ==> IsIdChar(id[k])
    ensures YoutubeId(Some(prefix + "youtu.be/" + id)) == Some(id)
  {
    var w := "youtu.be/";
    assert PatternAt(w, 0, Markers[0]);
    NoInnerMarker(w);
    MarkerThenId(prefix, w, id, 0);
  }

  /** The leading `.*` cannot cross a line break: a URL that starts with a line
      terminator has no id, whatever follows. */
  lemma LeadingTerminator(s: string)
    requires |s| > 0 && IsTerminator(s[0])
    ensures YoutubeId(Some(s)) == None
  {
    forall p | 0 <= p <= |s| ensures !Matches(s, p) {
      if p > 0 {
        assert s[..p][0] == s[0];
      } else {
        forall j | 0 <= j < |Markers| ensures !PatternAt(s, 0, Markers[j]) {
          assert !TokMatches(Markers[j][0], s[0]);
        }
      }
    }
  }
}
